=== FILE: README.md ===
# Ink, modelled in Dafny

Ink is a desktop-shell toolkit. A Lua script returns a tree of tables, and Ink
turns that tree into GTK4 widgets. Windows can be placed as layer-shell surfaces
(top, bottom, overlay or background layer; anchored edges; an exclusive zone).
Lua scripts also get a small standard library (Pango markup from Markdown), widget
handles, and system services: Wi-Fi, battery, media, the StatusNotifierItem tray
and notifications over D-Bus.

This project models the decisions Ink makes around GTK, Lua and D-Bus, and proves
what those decisions promise. Lua values and tables, widgets, windows and D-Bus
values are Dafny datatypes. Code that changes state in place keeps that form:

- the type registry, with its two maps;
- a container's child list, changed by `add_child`;
- the Pango converter's output and whitespace flag;
- the tray watcher's item list and its channel;
- widget handles (`set_text`, `remove_children`, `destroy`);
- the loops of the builders, the parsers and the argument fold.

Each of these is a class or a method, proved against a pure specification
function. The properties are proved about those functions.

One module per source file:

| module | file |
|---|---|
| `Lua`, `LuaDriver` | mlua's value model; `src/scripting/lua_driver.rs` |
| `Converter` | `src/interop/converter.rs` |
| `TypeRegistry`, `Catalog` | `src/ui/registry.rs`, `src/ui/catalog.rs` |
| `Containers` | `src/ui/traits.rs` |
| `Builder` | `src/ui/builder.rs` |
| `WindowStrategy`, `LayerShell` | `src/ui/strategy.rs` and the layer-shell window state |
| `LegacyUi` | `src/ui.rs` |
| `LuaUtil`, `LuaApi` | `src/lua/util.rs`, `src/lua/api.rs` |
| `App` | `src/app.rs` |
| `WidgetWrapper` | `src/scripting/widget_wrapper.rs` |
| `Pango` | `src/scripting/stdlib.rs` |
| `DesktopEntry`, `TrayApi`, `DbusService`, `SystemServices` | `src/services/*.rs` |
| `CliConfig` | `src/config.rs` |

Shared modules:

- `Wrappers` holds Option and Result.
- `Text` models Rust's `str` operations: Unicode whitespace, `trim`, `lines`, `split_once`, `trim_start_matches`, and i32 parsing.
- `Casts` holds the i64-to-i32 wrap and the saturating float-to-integer casts.
- `Gtk` holds widget values, the is-a hierarchy of the GTK types used, and the GLib type registry as the program sees it: for each registered type, whether it is a widget type, the error `Object::with_type` reports when it cannot be instantiated, and its properties.

The source files come from different revisions and do not type-check against each other. Each file is modelled as written. The glue assumed between them:

- `src/ui/builder.rs:41` tests `Some` on the `Result` that `to_gvalue` returns. The model reads it as `Ok`.
- `src/ui/builder.rs:66` calls `add_child` with one argument. The model passes the child's own data as the second argument that `src/ui/traits.rs:6` takes.
- `src/ui/builder.rs:15` calls `WindowStrategy::apply` with a different signature. The model runs the `src/ui/strategy.rs:23-80` logic on the root window, with the root table as its data.

## Model

| member | source | states |
|---|---|---|
| LuaDriver.TypeTestsAreExclusive | src/scripting/lua_driver.rs:8-19 | is_number holds for both integers and floats; is_string, is_bool and is_function each hold for exactly one kind of value, and no two tests overlap |
| LuaDriver.AsString | src/scripting/lua_driver.rs:21-26 | Some exactly for a string whose bytes are valid UTF-8, and then that text |
| LuaDriver.AsNumber | src/scripting/lua_driver.rs:28-34 | Some exactly for numbers, integers and floats alike; a float comes back unchanged |
| LuaDriver.AsInteger | src/scripting/lua_driver.rs:36-42 | Some exactly for numbers, integers and floats alike; an integer comes back unchanged |
| LuaDriver.AsBool | src/scripting/lua_driver.rs:44-49 | Some exactly for booleans; no truthiness coercion |
| LuaDriver.GetProperty | src/scripting/lua_driver.rs:51-57 | None on a non-table; on a table always Some, holding what a raw lookup of the key finds (nil when the key is missing); a non-nil result is stored under the key |
| LuaDriver.GetArrayItems | src/scripting/lua_driver.rs:59-66 | Some exactly on a table |
| LuaDriver.ArrayItemsInIndexOrder | src/scripting/lua_driver.rs:59-66 | item i is t[i+1], none is nil, and t[n+1] is nil just past the last item |
| LuaDriver.GetMapEntries | src/scripting/lua_driver.rs:68-78 | Some exactly on a table whose every key converts to a String; then entry i is the i-th pair `pairs` visits, with its key converted to a string and its value unchanged |
| LuaDriver.MapEntriesArePairs | src/scripting/lua_driver.rs:68-78 | every map entry comes from a visited pair whose key converts to the entry's name and whose value is what a lookup of that key finds |
| LuaDriver.CallVoid | src/scripting/lua_driver.rs:80-86 | a non-function gives Err("Not a function"); a function gives the outcome of its call |
| LuaDriver.StringField | src/ui/builder.rs:22-24 | on a table, exactly `as_string` of what the lookup of the key finds; a string it returns is stored in the table under the key, as valid UTF-8 |
| LuaDriver.BoolField | src/ui/strategy.rs:16 | on a table, exactly `as_bool` of what the lookup of the key finds; a boolean it returns is stored under the key |
| LuaDriver.IntegerField | src/ui/strategy.rs:69-72 | on a table, exactly `as_integer` of what the lookup of the key finds; it returns a value only when the table holds a number under the key |
| LuaDriver.FieldsReadFirstEntry | src/scripting/lua_driver.rs:51-57 | when entry i is the first stored under the key, `get_property` yields its value and the string, boolean and integer readers convert that value |
| Lua.SequenceValues | src/scripting/lua_driver.rs:61 | `sequence_values`: no item is nil, and every item lies inside the table |
| Lua.SequenceFromItem | src/scripting/lua_driver.rs:61 | item j of the sequence read from index i is t[i+j] |
| Lua.SequenceFromStops | src/scripting/lua_driver.rs:61 | the sequence stops only at a nil |
| Lua.PairsAgreeWithRawGet | src/scripting/lua_driver.rs:70-73 | every pair `pairs` visits is what a lookup of its key finds, and no key is visited twice |
| Lua.RawGetIsVisited | src/scripting/lua_driver.rs:70-73 | a key whose lookup finds a value is visited by `pairs` |
| Lua.RawGetFirst | src/scripting/lua_driver.rs:53 | a lookup yields the value of the first entry stored under the key |
| Lua.StringPairsFlatten | src/app.rs:154 | `pairs::<String, Value>().flatten()` is no longer than the pairs, and every pair it keeps comes from a pair whose key converts, with the same value |
| Lua.FlattenAgreesWithCollect | src/app.rs:154 | when every key converts, skipping failures and collecting into a Result give the same pairs |
| Casts.WrapI32 | src/lua/util.rs:8 | `i as i32`: the result lies in the i32 range and equals the input modulo 2^32 |
| Casts.WrapI32Identity | src/lua/util.rs:8 | the wrap is the identity on values that already fit in 32 bits |
| Casts.WrapI32Congruent | src/lua/util.rs:8 | two integers with the same low 32 bits wrap to the same i32 |
| Text.DecimalParsesAsI32 | src/app.rs:155 | the decimal text of an integer parses as an i32 exactly when the integer fits in 32 bits, and then gives it back |
| Converter.NickIndex | src/interop/converter.rs:50 | `value_by_nick`: None exactly when no member has the nick, otherwise the position of the first member that has it |
| Converter.StringItems | src/interop/converter.rs:125 | the filtered list is no longer than the items; a text is in it exactly when the items hold it as a valid string; when every item is a valid string it is all of them, in order |
| Converter.StringItemsOne | src/interop/converter.rs:125 | one item gives its text when `as_string` accepts it and nothing otherwise |
| Converter.StringItemsAppend | src/interop/converter.rs:125 | the strings of two runs of items are those of the first followed by those of the second, so non-strings are dropped and the rest keep their order |
| Converter.StringItemsMixed | src/interop/converter.rs:125 | `{"a", 1, "b"}` gives `["a", "b"]` |
| Converter.ToGValue | src/interop/converter.rs:135-155 | a produced value always has the requested type; nil, functions and userdata are `UnsupportedType` |
| Converter.StringToStringProperty | src/interop/converter.rs:46-47 | a valid string converted for a String property is exactly that string |
| Converter.StringToEnumProperty | src/interop/converter.rs:48-61 | a string for an enum property with a class gives the value of the first member with that nick, and `EnumConversion` when no nick matches |
| Converter.StringToOtherProperty | src/interop/converter.rs:62-73 | a string for a property that is neither String nor an enum with a class is `UnsupportedType` |
| Converter.BinaryStringIsInvalid | src/interop/converter.rs:43-45 | a string whose bytes are not UTF-8 is `InvalidValue` whatever the property |
| Converter.BoolConvertsOnlyToBool | src/interop/converter.rs:76-90 | a boolean converts to a bool property and is `UnsupportedType` for every other property |
| Converter.NumberTargets | src/interop/converter.rs:92-115 | a number converts exactly for i32, u32, i64, f64 and f32 properties: the saturating casts to i32, u32 and i64, the double itself for f64 and its single-precision form for f32; every other property is refused |
| Converter.TableTargets | src/interop/converter.rs:117-133 | a table converts only for a string-list property, to its valid strings in order; every other property is refused |
| TypeRegistry.Produce | src/ui/registry.rs:25-37 | the leaf factory always yields Leaf; the container factory yields Leaf when the downcast fails, otherwise the type's own implementation |
| TypeRegistry.Register | src/ui/registry.rs:39-45 | the name goes into both maps, mapped to itself and to the factory; every other entry is kept; re-registering overwrites |
| TypeRegistry.RegisterKeepsConsistent | src/ui/registry.rs:39-45 | registering keeps both maps on the same key set, each name mapped to its own type |
| TypeRegistry.StrategyFor | src/ui/registry.rs:51-58 | a name that has no strategy gets Leaf |
| TypeRegistry.Registry.constructor | src/ui/registry.rs:14-22 | the registry starts empty and consistent |
| TypeRegistry.Registry.RegisterImpl | src/ui/registry.rs:39-45 | the new state is `Register` of the old one, and the maps stay consistent |
| TypeRegistry.Registry.RegisterLeaf | src/ui/registry.rs:25-27 | registers the name with the leaf factory |
| TypeRegistry.Registry.RegisterContainer | src/ui/registry.rs:29-37 | registers, with the container factory, a type that has a `WidgetContainer` implementation |
| TypeRegistry.Registry.GetType | src/ui/registry.rs:47-49 | None exactly for a name never registered; otherwise the name's own type |
| TypeRegistry.Registry.GetStrategy | src/ui/registry.rs:51-58 | the registered factory applied to the widget, and Leaf for an unregistered name |
| TypeRegistry.Registry.GetAllTypes | src/ui/registry.rs:60-68 | exactly the registered types, each once |
| Catalog.RegisterAllAt | src/ui/catalog.rs:4-5 | registering a list adds exactly its names to both maps, gives each its list's factory and keeps every other entry |
| Catalog.RegisterAllConsistent | src/ui/catalog.rs:4-5 | registering a list keeps the two maps consistent |
| Catalog.InitWithAt | src/ui/catalog.rs:7-68 | for a name in at most one list: where it ends up after both lists, and with which factory |
| Catalog.ContainersHaveImpls | src/ui/catalog.rs:8-34 | every listed container type has a `WidgetContainer` implementation, as `register_container` demands |
| Catalog.LeavesAreNotEarlyContainers | src/ui/catalog.rs:8-67 | no leaf shares a name with the first twelve containers |
| Catalog.LeavesAreNotLateContainers | src/ui/catalog.rs:8-67 | no leaf shares a name with the last thirteen containers |
| Catalog.ListsAreDisjoint | src/ui/catalog.rs:8-67 | the container and leaf lists are disjoint, so every registered name has one kind |
| Catalog.InitRegistersContainers | src/ui/catalog.rs:8-34 | after `init` each of the 25 container types is registered with its container factory |
| Catalog.InitRegistersLeaves | src/ui/catalog.rs:36-67 | after `init` each of the 30 leaf types is registered with the leaf factory |
| Catalog.InitKeys | src/ui/catalog.rs:7-68 | `init` adds exactly the listed names and keeps every other entry |
| Catalog.InitConsistent | src/ui/catalog.rs:7-68 | `init` keeps the two maps consistent |
| Catalog.InitWithIdempotent | src/ui/catalog.rs:7-68 | with disjoint lists, registering both lists twice equals registering them once |
| Catalog.InitIdempotent | src/ui/catalog.rs:7-68 | running `init` twice leaves the registry as running it once |
| Catalog.ContainerStrategies | src/ui/catalog.rs:8-34 | after `init`, `get_strategy` gives a widget of a listed container type its own `WidgetContainer` implementation |
| Catalog.CheckButtonHasImpl | src/ui/traits.rs:56-60 | GtkCheckButton has an implementation, which sets the `child` property |
| Catalog.GridAndCheckButtonAreLeaves | src/ui/catalog.rs:37-59 | after `init`, GtkGrid and GtkCheckButton get the leaf strategy, although GtkCheckButton has an implementation |
| Catalog.NeverRegisteredHaveImpls | src/ui/traits.rs:47-84 | GtkListBox, GtkFlowBox, GtkViewport, GtkPopover, GtkRevealer and GtkWindowHandle have implementations |
| Catalog.NeverRegisteredAreListedNowhere | src/ui/catalog.rs:8-67 | none of those six types is in either list |
| Catalog.UnregisteredTypes | src/ui/catalog.rs:7-68 | after `init`, `get_type` finds one of those six types only if it was registered before |
| Catalog.RegisterEach | src/ui/catalog.rs:4-5 | one registration call per name leaves the registry as `RegisterAll` of the old one |
| Catalog.InitRegistry | src/ui/catalog.rs:7-68 | `init` on the shared registry leaves it as `Init` of the old state |
| Containers.ImplOf | src/ui/traits.rs:14-148 | every type with a set-child implementation gets that implementation |
| Containers.InSlotWithout | src/ui/traits.rs:20-30 | after its slot is emptied, the slot holds nothing and every other slot is unchanged |
| Containers.ReplaceSlotSpec | src/ui/traits.rs:20-30 | after a replacement the slot holds exactly the new child and no other slot changes |
| Containers.ContainerWidget.constructor | src/ui/traits.rs:5-7 | a container handle on a widget, with no warnings yet |
| Containers.ContainerWidget.AddChild | src/ui/traits.rs:14-148 | the child list becomes `Attached` of the old one and the strategy's warnings are appended |
| Containers.RefusingStrategiesChangeNothing | src/ui/traits.rs:13-72 | the leaf strategy and LockButton leave the children unchanged and only warn |
| Containers.SetChildKeepsLast | src/ui/traits.rs:20-66 | the set-child family keeps at most one child, the last one given |
| Containers.AppendKeepsCallOrder | src/ui/traits.rs:74-90 | Box, ListBox and FlowBox add at the end, so children keep call order |
| Containers.AttachedAppends | src/ui/traits.rs:74-90 | one append puts the child last and changes nothing else |
| Containers.AppendAll | src/ui/traits.rs:74-90 | a run of appends adds the children at the end, in order |
| Containers.TaggedAt | src/ui/traits.rs:74-90 | the i-th appended entry is the i-th child |
| Containers.CenterBoxPlacement | src/ui/traits.rs:92-110 | `type_pos` "start" and "end" pick those slots and anything else the center; only that slot changes |
| Containers.PanedStartThenEnd | src/ui/traits.rs:140-148 | on an empty Paned the first child becomes the start pane and is never replaced; every later child replaces the end pane |
| Containers.PanedLaterKids | src/ui/traits.rs:140-148 | with a start pane present, a list of children keeps it and leaves the last child in the end pane |
| Containers.StackPageTitle | src/ui/traits.rs:118-124 | a Stack page carries the optional `name` and the `title`, which defaults to "Page" |
| Containers.NotebookTabLabel | src/ui/traits.rs:132-138 | a Notebook page is labelled with `tab_label`, and with an empty label when it is absent |
| Containers.BarsPack | src/ui/traits.rs:112-130 | HeaderBar packs at the end and ActionBar at the start; nothing is replaced |
| Builder.ChildItems | src/ui/builder.rs:59-62 | each child table lies inside its parent's data, so the recursion ends |
| Builder.SetPropertiesFrame | src/ui/builder.rs:35-46 | the property loop changes only the properties |
| Builder.SetPropertiesKeys | src/ui/builder.rs:35-46 | a property is set afterwards exactly when it was set before or some entry for it has the property and converts |
| Builder.SetPropertiesLast | src/ui/builder.rs:39-43 | a property some entry sets holds the converted value of the last accepted entry for it |
| Builder.SetPropertiesUntouched | src/ui/builder.rs:35-46 | a property no entry sets keeps its value, so failures are skipped silently |
| Builder.ConnectSignals | src/ui/builder.rs:48-57 | exactly the entries whose value is a function are connected, no more than there are entries |
| Builder.Shell | src/ui/builder.rs:21-57 | a missing or non-string `type` is "Widget missing 'type' field"; an unregistered one is "Unknown type"; a non-widget type is "Not a widget"; a registered widget type always succeeds, with the new widget of that type after `SetProperties` over the `properties` table (none when absent) and with the `signals` table's handlers connected; a made widget has no children |
| Builder.Collect | src/ui/builder.rs:64-67 | on success one result per item |
| Builder.CollectEach | src/ui/builder.rs:64-67 | when nothing fails, result i is the function applied to item i |
| Builder.CollectFirstError | src/ui/builder.rs:64-67 | an error is the error of the first item that fails |
| Builder.BuildAll | src/ui/builder.rs:64-67 | on success one widget per child |
| Builder.BuildAllBuildsEach | src/ui/builder.rs:64-67 | when no child fails, every child is built from its own data, in config order |
| Builder.BuildAllFirstError | src/ui/builder.rs:64-67 | the first child that fails decides the error, and every child before it built |
| Builder.BuildChildrenSpec | src/ui/builder.rs:59-68 | the child loop equals building all children, stopping at the first error, then attaching them in order with their own data through one strategy |
| Builder.BuildResolvesType | src/ui/builder.rs:22-33 | the error cases of type resolution, and a built widget has the registered type its data names |
| Builder.BuildChildrenInOrder | src/ui/builder.rs:59-68 | a node's children are built in config order and attached in that order through the strategy looked up once from the node's type; a failing child makes the build fail with its error |
| Builder.ApplyProperties | src/ui/builder.rs:35-46 | the loop's result is `SetProperties` of the entries |
| Builder.ConnectFunctions | src/ui/builder.rs:48-57 | the loop connects exactly `ConnectSignals` of the entries |
| Builder.MakeShell | src/ui/builder.rs:21-57 | the method's result is `Shell` of the data |
| Builder.BuildNode | src/ui/builder.rs:59-68 | a node whose shell is built and that has `children` goes on to the child loop |
| Builder.BuildChildrenStep | src/ui/builder.rs:64-67 | one turn of the loop: build child i; on error stop; otherwise attach it and go on |
| Builder.BuildRecursive | src/ui/builder.rs:21-71 | attaching each child in place as soon as it is built gives `Build` of the data |
| Builder.AttachChildren | src/ui/builder.rs:59-68 | the in-place child loop gives `BuildChildren` |
| Builder.Run | src/ui/builder.rs:11-19 | the result is `Build`; the window behaviour runs only when the root is an ApplicationWindow, and then shows it as the window strategy decides |
| LayerShell.Perform | src/ui/strategy.rs:43-79 | one call on a window sets what it names and is appended to the call log |
| LayerShell.PerformAllSpec | src/ui/strategy.rs:43-79 | several calls are logged in order; each field ends as the calls leave it, and a field no call touches keeps its value |
| LayerShell.PerformAllAppend | src/ui/strategy.rs:43-79 | making calls in two batches equals making them all |
| LayerShell.AnchorsAfterDistinct | src/ui/strategy.rs:58-62 | anchor settings for distinct edges give every listed edge its value and leave the others |
| LayerShell.PerformAllKeepsLayer | src/ui/strategy.rs:58-79 | calls that set no layer keep the layer and keep a presented layer surface presented |
| LayerShell.AnchorsAfterAppend | src/ui/strategy.rs:58-67 | anchor settings in two batches compose |
| LayerShell.NoAnchorCalls | src/ui/strategy.rs:69-79 | calls that set no anchor leave the anchors alone |
| WindowStrategy.LayerNamed | src/ui/strategy.rs:46-56 | "bottom", "overlay" and "background" name their layers; anything else, or no string, is Top |
| WindowStrategy.SetEdge | src/ui/strategy.rs:15-19 | `set_anchor` makes exactly the calls of `EdgeCall` |
| WindowStrategy.SetAnchors | src/ui/strategy.rs:58-67 | the anchor block makes exactly the anchor calls for the data |
| WindowStrategy.SetZone | src/ui/strategy.rs:69-79 | the zone block makes exactly the zone calls for the data |
| WindowStrategy.ApplyLayerShell | src/ui/strategy.rs:43-79 | layer-shell mode makes exactly its calls, in order |
| WindowStrategy.Apply | src/ui/strategy.rs:23-80 | a non-ApplicationWindow is untouched; forced windowed or "normal" mode only presents; otherwise the layer-shell calls |
| WindowStrategy.EdgeCallsFromSettings | src/ui/strategy.rs:15-19 | the edge calls set only listed edges, each to the boolean its key holds |
| WindowStrategy.EdgeCallsDistinct | src/ui/strategy.rs:58-62 | the edge calls for distinct edges set no edge twice |
| WindowStrategy.EdgeCallsCover | src/ui/strategy.rs:58-62 | every listed edge whose key holds a boolean gets a call with that boolean |
| WindowStrategy.AnchorCallsAreEdgeCalls | src/ui/strategy.rs:58-62 | with `anchors` present, the anchor block is the edge calls for all four edges |
| WindowStrategy.AnchorCallsOnlyAnchor | src/ui/strategy.rs:58-67 | the anchor block only sets anchors |
| WindowStrategy.AnchorCallsDistinct | src/ui/strategy.rs:58-67 | the anchor block sets no edge twice |
| WindowStrategy.TailKeepsLayer | src/ui/strategy.rs:56-79 | no call after the layer is set changes the layer again |
| WindowStrategy.LayerShellBeforePresent | src/ui/strategy.rs:43-56 | layer-shell mode leaves a presented layer surface with the named layer, and logs exactly its calls |
| WindowStrategy.LayerShellCallsSplit | src/ui/strategy.rs:43-79 | the calls are init, present and the layer, then the anchor and zone calls |
| WindowStrategy.AnchorsFromSettings | src/ui/strategy.rs:15-19 | edge calls from settings leave each set edge with its setting and every other edge as it was |
| WindowStrategy.AnchorsFromTable | src/ui/strategy.rs:58-62 | with `anchors` present, exactly the edges given a boolean are set to it; the others keep their value |
| WindowStrategy.DefaultAnchors | src/ui/strategy.rs:63-67 | with `anchors` absent, top, left and right are set and bottom keeps its value |
| WindowStrategy.ZonePrecedence | src/ui/strategy.rs:69-79 | an integer `exclusive_zone` wins, cast to i32; otherwise only `auto_exclusive_zone = true` turns on the automatic zone; otherwise neither changes |
| WindowStrategy.LuaAnchorsAlwaysPresent | src/scripting/lua_driver.rs:51-57 | with a Lua table as data, `get_property("anchors")` is never None, so the default-anchor branch of `apply` is never taken |
| WindowStrategy.LuaMissingAnchorsKeepEdges | src/ui/strategy.rs:58-62 | so a Lua table without `anchors` leaves all four edges as they were |
| LegacyUi.ToGlibValue | src/ui.rs:76-87 | Some exactly for strings, integers, numbers and booleans; a non-UTF-8 string becomes ""; a number becomes single precision |
| LegacyUi.AgreesWithUtil | src/ui.rs:76-87 | against `lua_value_to_gvalue`: the same four kinds, never failing on a string, equal on strings, integers and booleans, and numbers rounded to single precision |
| LegacyUi.TableField | src/ui.rs:40-42 | a table field read as a table lies inside its parent |
| LegacyUi.SetGlibProperties | src/ui.rs:53-58 | the loop completes exactly when every pair gets through; otherwise the first pair that does not decides: a non-string key fails with a conversion error, a missing or refusing property panics naming the key; only properties change, and no pairs means no change |
| LegacyUi.SetGlibPropertiesLast | src/ui.rs:53-58 | after a completed loop, a property holds the GLib form of the last pair that sets it |
| LegacyUi.SetGlibPropertiesUntouched | src/ui.rs:53-58 | after a completed loop, a property no pair sets keeps its value |
| LegacyUi.LegacyShell | src/ui.rs:38-60 | a `type` that does not convert fails; an unknown type panics; a type GLib cannot instantiate panics; for an instantiable type the node is made exactly when the property loop (`SetGlibProperties` over the `properties` pairs) completes and the type is a widget type, and it is the loop's widget; a completed loop on a non-widget type panics with `NotAWidget`; a failure or panic in the loop passes through unchanged; a made widget has that type, is a widget type and has no children, and no properties when the table has none |
| LegacyUi.CreateAll | src/ui.rs:62-72 | on success one widget per child, and every child was a table |
| LegacyUi.CreateChildrenSpec | src/ui.rs:62-72 | the child loop equals creating all children, stopping at the first failure, then attaching them in order |
| LegacyUi.BoxAppendsAll | src/ui.rs:66-67 | a Box gets its children appended in order |
| LegacyUi.WindowKeepsLast | src/ui.rs:68-69 | an ApplicationWindow keeps only the last child as its single child |
| LegacyUi.ReplacedLast | src/ui.rs:68-69 | for such a window, the last child replaces the single child |
| LegacyUi.OthersDropChildren | src/ui.rs:62-72 | any other parent drops every child silently |
| LegacyUi.CreateNode | src/ui.rs:62-72 | a node whose shell is made and that has `children` goes on to the child loop |
| LegacyUi.CreateChildrenStep | src/ui.rs:63-71 | one turn of the loop: a non-table fails; otherwise create it, attach it and go on, or stop at its failure |
| LegacyUi.CreateWidget | src/ui.rs:38-74 | creating and attaching children in place gives `Create` of the table |
| LegacyUi.CreateChildWidgets | src/ui.rs:62-72 | the in-place child loop gives `CreateChildren` |
| LegacyUi.InitThenPresentSteps | src/ui.rs:89-96 | the setup calls and `present` are performed one at a time |
| LegacyUi.InitThenPresent | src/ui.rs:89-96 | after `init_layer_shell` and `present` the window is a presented layer surface on Top, with the automatic zone, anchored top, left and right, bottom unchanged |
| LegacyUi.BuildFromFile | src/ui.rs:13-36 | a non-table chunk fails; a failure to create the root is passed on; a root that is not an ApplicationWindow panics; otherwise the layer-shell setup unless windowed, then `present` |
| LuaUtil.ToGValue | src/lua/util.rs:5-15 | Ok exactly for valid strings, integers, numbers and booleans; other kinds fail with "Unsupported value type"; an integer wraps to i32 |
| LuaUtil.FromGValue | src/lua/util.rs:17-29 | the result is nil exactly when the value is none of string, i32, f64 and bool |
| LuaUtil.RoundTrip | src/lua/util.rs:5-29 | Lua to GLib and back: strings, booleans and numbers come back unchanged, integers come back wrapped to i32 |
| LuaUtil.BackRoundTrip | src/lua/util.rs:5-29 | GLib to Lua and back is the identity on the four types both sides know |
| LuaUtil.PlacementFor | src/lua/util.rs:32-58 | the single-child slot exactly for window types, and for Button, Frame, ScrolledWindow and Expander types that are not boxes or grids; appending exactly for box types that are not windows; only GtkGrid places at cell (0, 0, 1, 1); only GtkNotebook adds an unlabelled page; no placement exactly when the type is none of the eight kinds |
| LuaUtil.AddChildToContainer | src/lua/util.rs:31-66 | places the child by the container's kind, or fails naming the type and leaves the container unchanged |
| LuaUtil.PlacedSpec | src/lua/util.rs:32-58 | a placed child is the only single child afterwards or the last child; other slots do not move |
| LuaUtil.RefusedContainers | src/lua/util.rs:59-64 | GtkStack and GtkListBox, which have a `WidgetContainer` implementation, get no placement here |
| LuaUtil.LayerShellCompatibleIsWindow | src/lua/util.rs:68-70 | the test holds exactly for Window types, ApplicationWindow included |
| LuaApi.TrySet | src/lua/api.rs:53-56 | setting a property keeps the type, the signals and the children |
| LuaApi.SetAll | src/lua/api.rs:48-58 | each pair set in turn; a key that is not a string or a value that does not convert ends the loop with that error |
| LuaApi.Created | src/lua/api.rs:34-61 | an unknown type is "Unknown widget type: X"; a type GLib cannot instantiate is "Failed to create X: <GLib error>"; a non-widget type is "X is not a widget type"; it succeeds exactly for an instantiable widget type whose property pairs all convert, with a widget of that type |
| LuaApi.CreateGtkWidget | src/lua/api.rs:34-61 | the method, which looks up, instantiates and checks the type before the property loop, returns `Created` |
| LuaApi.ShortName | src/lua/api.rs:82 | a name starting with "Gtk" loses the prefix; any other name stays |
| LuaApi.ConstructorsKeys | src/lua/api.rs:80-89 | after the loop the keys are exactly the short names |
| LuaApi.MakeConstructorTable | src/lua/api.rs:63-117 | the loop then the override gives `ConstructorTable` |
| LuaApi.ConstructorsAt | src/lua/api.rs:80-89 | each short name leads to its own type's constructor |
| LuaApi.SameShortName | src/lua/api.rs:82 | two "Gtk" names with one short form are the same name |
| LuaApi.WidgetTypesArePrefixed | src/lua/api.rs:67-78 | every listed type starts with "Gtk" |
| LuaApi.TableAt | src/lua/api.rs:80-114 | every name is under its short form, except the one `ApplicationWindow` takes over |
| LuaApi.GtkTable | src/lua/api.rs:63-117 | every listed type but GtkApplicationWindow is under its short name, and `ApplicationWindow` is the application-window constructor |
| LuaApi.GtkTableKeys | src/lua/api.rs:80-114 | the keys of the `gtk` table are exactly the short names |
| LuaApi.TableKeys | src/lua/api.rs:80-114 | the override adds no key when a name already has the short name `ApplicationWindow` |
| LuaApi.CreatedAppWindow | src/lua/api.rs:93-111 | `gtk.ApplicationWindow(props)` is a new application window with the same property loop; it cannot fail on the type |
| LuaApi.Init | src/lua/api.rs:122-129 | `init` turns a window into a layer surface and leaves anything else alone |
| LuaApi.LayerCalled | src/lua/api.rs:132-138 | the four names map to their layers, anything else to Overlay |
| LuaApi.SetLayerOn | src/lua/api.rs:131-146 | a window gets that layer; anything else is left alone |
| LuaApi.AnchorCallsFor | src/lua/api.rs:156-167 | every call it makes anchors an edge (sets it to true) |
| LuaApi.AnchorCallsForEdges | src/lua/api.rs:156-167 | an edge gets a call exactly when some name denotes it |
| LuaApi.Cleared | src/lua/api.rs:151-153 | after the first loop every edge is present and false |
| LuaApi.SetAnchorOn | src/lua/api.rs:148-176 | a window gets the clearing calls then the anchoring calls; anything else is left alone |
| LuaApi.AnchoringCalls | src/lua/api.rs:156-167 | an edge ends up true if some call names it and keeps its value otherwise |
| LuaApi.SetAnchorResult | src/lua/api.rs:148-176 | afterwards the anchored edges are exactly the recognised names; every other edge is false; unknown names do nothing |
| App.FirstUnknownKey | src/app.rs:154-158 | Ok exactly when every key is allowed; otherwise the error names the first key that is not |
| App.ValidateConfigTable | src/app.rs:134-160 | the table passes exactly when every key that converts is listed or parses as an i32; otherwise "Unknown configuration property" for the first refused key |
| App.TitleAndZoneRefused | src/app.rs:135-153 | `title` and `exclusive_zone` are not root keys |
| App.ValidKeysStartWithLetters | src/app.rs:135-153 | no listed key looks like an integer |
| App.IntegerKeyAllowed | src/app.rs:155 | an integer key passes exactly when it fits in 32 bits |
| App.TablesIn | src/app.rs:244-246 | the items that are tables, in order |
| App.WindowConfigs | src/app.rs:241-250 | every chosen window configuration is a table |
| App.WindowConfigsSpec | src/app.rs:241-250 | when `t[1]` is a table the configurations are exactly the tables of the sequence part, starting with `t[1]`; otherwise the root alone |
| App.FileWindow | src/app.rs:276-288 | filing one more root never drops a title already in the windows table |
| App.WindowsOfError | src/app.rs:274-296 | the loop fails exactly when some window fails, and then with the first failure |
| App.LastTitled | src/app.rs:279-288 | what it finds is a configuration that built a window with that title |
| App.LastTitledNone | src/app.rs:279-288 | it finds nothing only when no configuration builds a window with the title |
| App.LastTitledIsLast | src/app.rs:279-288 | no later configuration builds a window with the title |
| App.WindowsOfTitles | src/app.rs:264-296 | on success a title is in `app.windows` exactly when some configuration built a Window with it, and it names the last such window |
| App.WindowsOfFailedPrefix | src/app.rs:291-295 | once a prefix fails, the remaining windows are not built and the loop fails the same way |
| App.WindowsStep | src/app.rs:264-296 | one more configuration moves the loop on by its build result |
| App.BuildUiWindows | src/app.rs:241-296 | the loop's outcome is `WindowsOf` of the chosen configurations |
| App.ActionOf | src/app.rs:169-172 | an action needs a `name` that converts to a string and a function `callback` |
| App.ActionsOfMembers | src/app.rs:167-185 | an action is registered exactly when some action table describes it |
| App.ActionItems | src/app.rs:167-168 | the table items of `actions` when it is a table, otherwise none |
| App.SetupLuaActions | src/app.rs:162-188 | the actions added are exactly those of the action tables, in order |
| App.MenuItemsAppend | src/app.rs:395-404 | menu entries keep the order of their items |
| App.MenuItemsStep | src/app.rs:395-404 | one more item appends its entry, if any, after the entries so far |
| App.MenuItemsLength | src/app.rs:395-404 | never more entries than item tables |
| App.BuildMenu | src/app.rs:393-406 | the loop, building each submenu first, gives `MenuOf` of the table |
| App.IndexOfAfter | src/app.rs:332-337 | text without the separator before another text shifts the first separator's position by its length |
| App.SplitOnceAt | src/app.rs:332-337 | splitting at the first separator gives back the text before it and the text after it |
| App.PackagePathEntries | src/app.rs:332-337 | for a directory without `;`, the new path starts with `dir/?.lua` and `dir/?/init.lua`, and the rest is the old path |
| WidgetWrapper.DescendantsBelow | src/scripting/widget_wrapper.rs:38-50 | every descendant lies strictly inside the widget, so the parent is never its own descendant |
| WidgetWrapper.FirstNamedSpec | src/scripting/widget_wrapper.rs:38-50 | finds nothing only when no widget has the name, and otherwise the first that has it |
| WidgetWrapper.FirstNamedAppend | src/scripting/widget_wrapper.rs:38-50 | the second list is searched only when the first has no match |
| WidgetWrapper.FindChildByName | src/scripting/widget_wrapper.rs:38-50 | the sibling loop with recursion returns the first pre-order descendant with the name |
| WidgetWrapper.FindChildSpec | src/scripting/widget_wrapper.rs:38-50 | None exactly when no descendant has the name; what it finds is a descendant with the name, never the parent, and every earlier one in pre-order lacks it |
| WidgetWrapper.WithText | src/scripting/widget_wrapper.rs:76-83 | `set_text` keeps the type, the signals and the children |
| WidgetWrapper.TextOf | src/scripting/widget_wrapper.rs:124-129 | "" for a widget that is not Editable |
| WidgetWrapper.TextRoundTrip | src/scripting/widget_wrapper.rs:76-129 | what `set_text` writes on an Editable, `get_text` reads back |
| WidgetWrapper.LabelText | src/scripting/widget_wrapper.rs:76-83 | a Label that is not Editable shows the text as plain text; `get_text` still answers "" |
| WidgetWrapper.OtherWidgetsIgnoreText | src/scripting/widget_wrapper.rs:76-83 | a widget that is neither Editable nor a Label is unchanged |
| WidgetWrapper.PropertyValue | src/scripting/widget_wrapper.rs:188-200 | None exactly for nil, tables, functions, userdata and non-UTF-8 strings; integers become floats |
| WidgetWrapper.ChildWidgets | src/scripting/widget_wrapper.rs:102-119 | the widgets of a child list, in sibling order |
| WidgetWrapper.LuaWidget.constructor | src/scripting/widget_wrapper.rs:9 | a handle on a widget, not destroyed |
| WidgetWrapper.LuaWidget.Destroy | src/scripting/widget_wrapper.rs:53-60 | a window is destroyed and stays parented; any other widget is unparented and not destroyed; the widget itself is unchanged |
| WidgetWrapper.LuaWidget.FindChild | src/scripting/widget_wrapper.rs:69-75 | the first descendant with the name |
| WidgetWrapper.LuaWidget.SetText | src/scripting/widget_wrapper.rs:76-83 | the widget becomes `WithText` of the old one |
| WidgetWrapper.LuaWidget.GetText | src/scripting/widget_wrapper.rs:124-129 | the text is `TextOf` the widget |
| WidgetWrapper.LuaWidget.SetProperty | src/scripting/widget_wrapper.rs:188-200 | a value with no GLib form changes nothing; any other is stored under the key |
| WidgetWrapper.LuaWidget.RemoveChildren | src/scripting/widget_wrapper.rs:102-119 | afterwards the widget has no children and nothing else about it changed |
| WidgetWrapper.NoChildrenNoDescendants | src/scripting/widget_wrapper.rs:102-119 | after `remove_children`, no name finds a child |
| Pango.EscapeChar | src/scripting/stdlib.rs:49-62 | a plain character maps to itself; a special one to an entity starting with `&` and ending with `;` |
| Pango.EscapeText | src/scripting/stdlib.rs:49-62 | the loop gives `Escaped` of the text |
| Pango.EscapedSnoc | src/scripting/stdlib.rs:49-62 | one more character appends its escape |
| Pango.EscapedAppend | src/scripting/stdlib.rs:49-62 | escaping two texts joined is joining their escapes |
| Pango.EscapedHasNoTags | src/scripting/stdlib.rs:49-62 | escaped text holds no `<`, `>`, `'` or `"` |
| Pango.EscapedPlain | src/scripting/stdlib.rs:49-62 | text without special characters is its own escape |
| Pango.EscapedLength | src/scripting/stdlib.rs:49-62 | escaping never shortens the text, and lengthens it exactly when the text has a special character |
| Pango.PushStr | src/scripting/stdlib.rs:199-204 | the string is appended to the output and the flag stays truthful |
| Pango.PushChar | src/scripting/stdlib.rs:206-209 | the character is appended to the output and the flag is truthful afterwards |
| Pango.StepConsistent | src/scripting/stdlib.rs:211-304 | every event keeps the flag truthful: an empty output with the flag set, or the flag equal to "ends in whitespace" |
| Pango.RunConsistent | src/scripting/stdlib.rs:192-304 | from the initial state the flag is truthful after any events |
| Pango.StepExtends | src/scripting/stdlib.rs:211-304 | the output before an event is a prefix of the output after it |
| Pango.RunExtends | src/scripting/stdlib.rs:211-304 | over any events the output only grows |
| Pango.ParagraphStart | src/scripting/stdlib.rs:216-220 | a paragraph start appends a blank line unless the output is empty or ends with one |
| Pango.ItemStart | src/scripting/stdlib.rs:236-241 | an item starts on a line of its own, with a bullet |
| Pango.OpeningSpace | src/scripting/stdlib.rs:243-299 | strong, emphasis, code block, link and inline code get a space first exactly when the output is non-empty and does not end in whitespace |
| Pango.TextSpace | src/scripting/stdlib.rs:282-290 | text gets that space only when it does not start with whitespace or ASCII punctuation; the text is always escaped |
| Pango.IgnoredEvents | src/scripting/stdlib.rs:236-302 | unhandled events and the end of an item change nothing |
| Pango.PangoConverter.constructor | src/scripting/stdlib.rs:192-197 | the empty output with the flag set |
| Pango.PangoConverter.PushStrAndUpdateWs | src/scripting/stdlib.rs:199-204 | the new state is `PushStr` of the old one |
| Pango.PangoConverter.PushCharAndUpdateWs | src/scripting/stdlib.rs:206-209 | the new state is `PushChar` of the old one |
| Pango.PangoConverter.NewlineIfNeeded | src/scripting/stdlib.rs:221-241 | the new state is `EnsureNewline` of the old one: a newline only when the output is non-empty and does not end with one |
| Pango.PangoConverter.SpaceIfNeeded | src/scripting/stdlib.rs:212-213 | given the flag computed before the event, the new state is `SpaceBefore` of the old one |
| Pango.PangoConverter.ProcessEvent | src/scripting/stdlib.rs:211-304 | the new state is `Step` of the old one, and the flag stays truthful |
| Pango.PangoConverter.IntoString | src/scripting/stdlib.rs:306-308 | the output with leading and trailing whitespace removed |
| Pango.MarkdownToPango | src/scripting/stdlib.rs:175-184 | every event in order from the initial state, then the trimmed markup |
| DesktopEntry.PairOf | src/services/desktop_entry.rs:22-35 | a line yields a pair only inside the section and only when it holds `=` |
| DesktopEntry.LastValueSpec | src/services/desktop_entry.rs:41-42 | finds the last pair with the key, and nothing only when there is none |
| DesktopEntry.FirstLocalisedNameSpec | src/services/desktop_entry.rs:37-40 | finds the first localised name, and nothing only when there is none |
| DesktopEntry.EntryOfNone | src/services/desktop_entry.rs:47-51 | None exactly when no pair is a name, a localised name or an icon |
| DesktopEntry.PairsStep | src/services/desktop_entry.rs:22-35 | one more line moves the section flag and adds the line's pair, if any |
| DesktopEntry.NameIconStep | src/services/desktop_entry.rs:37-43 | one more pair: `Name` always sets the name, `Name[..]` only when none is set, `Icon` sets the icon |
| DesktopEntry.ParseFromString | src/services/desktop_entry.rs:16-52 | the loop over the lines gives `EntryOf` of the pairs the lines yield |
| DesktopEntry.ParseFromFile | src/services/desktop_entry.rs:11-14 | None when the file cannot be read, otherwise the entry of its text |
| DesktopEntry.NoSectionNoPairs | src/services/desktop_entry.rs:20-31 | lines before any `[Desktop Entry]` header count for nothing |
| DesktopEntry.PlainNameWins | src/services/desktop_entry.rs:37-40 | a plain `Name` anywhere beats every localised name |
| TrayApi.DataBytes | src/services/tray_api.rs:154-163 | never more bytes than array elements |
| TrayApi.DataBytesAppend | src/services/tray_api.rs:154-163 | the bytes of two arrays joined are their byte lists joined |
| TrayApi.DataBytesKeepsBytes | src/services/tray_api.rs:154-163 | an array of bytes only keeps all of them, in order |
| TrayApi.DataBytesNone | src/services/tray_api.rs:154-163 | an array without bytes gives no data |
| TrayApi.PixmapOf | src/services/tray_api.rs:135-175 | a pixmap exactly for a structure of an I32, an I32 and an array |
| TrayApi.Pixmaps | src/services/tray_api.rs:131-180 | never more pixmaps than elements |
| TrayApi.PixmapsFirst | src/services/tray_api.rs:131-181 | the first pixmap is that of the first well-formed element, and there is none only without one |
| TrayApi.ParseIconPixmap | src/services/tray_api.rs:130-182 | never an error; a value that is not an array gives none |
| TrayApi.ParseIconPixmapFirst | src/services/tray_api.rs:130-182 | an array gives a pixmap exactly when some element is well formed, and then the first such element's |
| TrayApi.FetchAll | src/services/tray_api.rs:110-116 | one value per property in order, or the first fetch's error |
| TrayApi.KeyNamesDistinct | src/services/tray_api.rs:118-125 | distinct keys have distinct names, so no entry hides another |
| TrayApi.RawProperties | src/services/tray_api.rs:105-128 | exactly seven keys: the service name and the six properties as fetched; the connection's or first fetch's error otherwise |
| TrayApi.SavePixmap | src/services/tray_api.rs:184-211 | the saved path is `<temp dir>/ink/<service>.png`, or the write error |
| TrayApi.ResolveTitleAndIcon | src/services/tray_api.rs:226-251 | an empty title falls back to the id; a desktop item's `Name` and `Icon` override; a desktop item that cannot be parsed is `DesktopEntryError` |
| TrayApi.AddIcon | src/services/tray_api.rs:254-270 | succeeds exactly when there is an icon name or the pixmap was fetched and either holds no picture or saves; a non-empty icon name is emitted; otherwise the pixmap fetch or write error, or `icon_path` exactly when a picture was saved |
| TrayApi.Assemble | src/services/tray_api.rs:230-270 | succeeds exactly when there is an icon name or the pixmap step gets through; the map then holds the service, id, status, tool tip, title, the desktop item when non-empty, and one icon entry |
| TrayApi.ProcessedProperties | src/services/tray_api.rs:213-273 | the connection, fetch and desktop-item errors in that order; past them, it succeeds exactly when the resolved icon name is non-empty or the pixmap step gets through, with the map `Merged` describes |
| DbusService.NotificationServer.constructor | src/services/dbus_service.rs:31-33 | a server on its channel |
| DbusService.NotificationServer.Notify | src/services/dbus_service.rs:41-60 | answers 1 and sends one notification with the app name, summary, body and timeout unchanged |
| DbusService.Registered | src/services/dbus_service.rs:81-91 | the list then holds the service and, besides it, exactly the old items |
| DbusService.Announced | src/services/dbus_service.rs:83-90 | at most one update, and none exactly when the service is already known |
| DbusService.StatusNotifierWatcher.constructor | src/services/dbus_service.rs:74-77 | no items yet |
| DbusService.StatusNotifierWatcher.RegisterItem | src/services/dbus_service.rs:81-91 | the list becomes `Registered` of the old one, the channel gets `Announced`, and the list stays free of duplicates |
| DbusService.StatusNotifierWatcher.RegisteredItems | src/services/dbus_service.rs:96-98 | the property is the watcher's item list, and it has no duplicates while the watcher is valid |
| DbusService.RegisteredKeepsDistinct | src/services/dbus_service.rs:81-91 | registering keeps the list free of duplicates |
| DbusService.RegisterIdempotent | src/services/dbus_service.rs:83 | registering twice equals registering once, and the second time sends nothing |
| DbusService.RegisteredAllSpec | src/services/dbus_service.rs:81-98 | after any registrations the list is free of duplicates, holds exactly the earlier and the registered services, and keeps the earlier list as its prefix |
| SystemServices.SsidOfSpec | src/services/system.rs:101-106 | without a `yes:` line the SSID is "Disconnected"; otherwise the first such line decides |
| SystemServices.GetSsid | src/services/system.rs:93-107 | a spawn failure is a `CommandError`, non-UTF-8 output a `Utf8Error`; otherwise the SSID of the lines |
| SystemServices.SsidHasNoPrefix | src/services/system.rs:103 | every leading repetition of `yes:` is stripped |
| SystemServices.BatteryDir | src/services/system.rs:60-64 | the first readable entry whose name starts with `BAT`; `NotFound` exactly when there is none |
| SystemServices.GetCapacity | src/services/system.rs:59-70 | an unreadable directory is `IoError`; no `BAT` entry is `NotFound("No battery found")`; an unreadable `capacity` file is `IoError`; a trimmed text that parses as an i32 gives that value, and one that does not gives `ParseError("Failed to parse capacity: " + IntErrorText(text))` |
| SystemServices.IntErrorText | src/services/system.rs:66-69 | for a string that is not an i32: the empty-string text exactly for the empty string; "invalid digit found in string" for a lone sign, and when the first character after the sign that is not a digit comes before any overflow; "number too large to fit in target type" (too small after a `-`) when a digit overflows first; "number too large" for any non-empty all-digit string; the too-large text only without a leading `-` and the too-small text only with one |
| Text.ScanDigits | src/services/system.rs:66-68 | the digit loop never reports an empty string; it reports no invalid digit when every remaining character is a digit; starting from an accumulator of the loop's sign, it reports overflow past the maximum only for a positive number and past the minimum only for a negative one |
| Text.I32Error | src/services/system.rs:66-68 | the error is the empty-string kind exactly for the empty string; there is no error exactly when `ParseI32` succeeds; a lone sign is an invalid digit; after an optional sign, a non-digit before any overflow is an invalid digit and a digit that overflows first is the overflow of the sign; overflow past the maximum only without a leading `-`, past the minimum only with one |
| Text.ScanStopsFirst | src/services/system.rs:66-68 | from the start, the digit loop reports the first non-digit that comes before any overflow, and the first overflowing digit that comes before any non-digit |
| Text.InvalidDigitReportedFirst | src/services/system.rs:66-68 | when the first k characters are digits whose value fits in an i32 and character k is not a digit, the loop reports an invalid digit, whatever follows |
| Text.ScanAgrees | src/services/system.rs:66-68 | from a digit prefix whose value is in range, the left-to-right loop succeeds exactly when the whole string is digits and its value lies in the i32 range |
| Text.OverflowReportedFirst | src/services/system.rs:66-68 | when the first k+1 characters are digits whose value leaves the i32 range while the first k stay inside it, the loop reports the overflow of the number's sign, whatever characters follow |
| Text.PositiveOverflowFirst | src/services/system.rs:66-68 | "99999999999x" reports positive overflow, not the later invalid digit |
| Text.NegativeOverflowFirst | src/services/system.rs:66-68 | "-99999999999x" reports negative overflow, not the later invalid digit |
| Text.InvalidDigitFirst | src/services/system.rs:66-68 | "12x" and "1a", which do not overflow, report an invalid digit |
| SystemServices.OverflowTextFirst | src/services/system.rs:66-69 | "99999999999x" does not parse and its message is "number too large to fit in target type"; "-99999999999x" does not parse and its message is "number too small to fit in target type" |
| SystemServices.GetStatus | src/services/system.rs:72-82 | an unreadable directory is `IoError`; no `BAT` entry is `NotFound("No battery found")`; an unreadable `status` file is `IoError`; otherwise the trimmed text |
| SystemServices.FieldText | src/services/system.rs:136-156 | the trimmed output of a successful run, and "" on any failure |
| SystemServices.GetMediaInfo | src/services/system.rs:135-160 | always Ok; each field is its trimmed output, or "" when its run failed |
| CliConfig.Parse | src/config.rs:9-30 | the loop gives `Outcome` of the arguments after the program name; when it runs, windowed exactly when `--windowed` is among them |
| CliConfig.NoFlags | src/config.rs:10 | without flags, windowed is false |
| CliConfig.ProgramNameIgnored | src/config.rs:13 | the program name is never read as a flag |
| CliConfig.UnknownArgumentIgnored | src/config.rs:26 | an argument that is neither flag changes nothing wherever it stands |
| CliConfig.HelpWins | src/config.rs:13-25 | `--help` wins over `--windowed` wherever the two stand |

## Left out

- The GTK, Lua and D-Bus runtimes are not modelled. Widgets, windows, Lua values and D-Bus values are plain datatypes; rendering and protocol effects are not.
- Locks (`RwLock`, `Mutex`), `spawn_blocking`, threads and channels' blocking are not modelled. The D-Bus channel is a log of sent updates.
- DbusService.NotificationServer.Notify and DbusService.StatusNotifierWatcher.RegisterItem: `send(..).unwrap()` panics once the receiving end is dropped; the channel here always accepts, so that panic is not modelled.
- File and process I/O is not modelled: reading files, listing directories, running `nmcli` and `playerctl`, and writing the pixmap PNG. Each outcome is a parameter of the member that uses it.
- Metatables are not modelled: every table lookup is raw, whereas mlua's `get` (as in `src/scripting/lua_driver.rs:53` and `src/ui.rs:39-42`) honours an `__index` metamethod. A configuration table with a metatable can read differently.
- Builder.Shell: `Object::with_type` (`src/ui/builder.rs:30`) panics on a registered type GLib cannot instantiate. The builder's outcomes have no panic, so the model makes the widget instead; the types the catalog registers are all concrete classes.
- Builder.SetPropertiesKeys: `set_property` (`src/ui/builder.rs:41`) panics on a property that `find_property` finds but that is read-only or construct-only. The toolkit model does not record writability, and the value is stored.
- LegacyUi.LegacyShell: `set_property("application", app)` on an ApplicationWindow (`src/ui.rs:49-51`) is not modelled; the application object is not part of the model.
- WidgetWrapper.LuaWidget.FindChild and WidgetWrapper.LuaWidget.RemoveChildren: GTK's `first_child`/`next_sibling` walk (`src/scripting/widget_wrapper.rs:38-50`, `:102-119`) also visits a widget's internal children, such as a button's label. A widget's children here are only those the configuration attached, so `FindChildSpec` and `RemoveChildren` speak only of those.
- Floats are reals plus infinities and NaN, not IEEE bit patterns. Float-to-integer casts are Rust's saturating casts. The i64-to-i32 wrap of `src/lua/util.rs:8` is exact.
- An f32 value keeps the double it came from; rounding to the nearest single-precision float is not modelled.
- WidgetWrapper.PropertyValue: an integer's `as f64` is symbolic, so rounding above 2^53 is not modelled.
- LuaDriver.AsNumber: the same holds for an integer's `as f64` here; rounding above 2^53 is not modelled.
- The Markdown parser (pulldown_cmark) is a foreign library. `Pango.MarkdownToPango` takes its event sequence as input.
- Text.Trim: states only that no whitespace is left at either end; `TrimStart` and `TrimEnd` describe each end's removal.
- The `exec`, `exec_async`, `spawn`, `fetch` and `fetch_async` functions of the Lua standard library are processes and HTTP, and are not modelled.
- Audio, the file service, the JSON wrapper, the app listing, the code generator, the signal connector, the `main` entry point and the error boilerplate are outside this model.
- From `src/app.rs`:
  - `setup`, `load_and_build_ui`, the CSS provider loading, Lua execution, reload and the bytecode cache of `load_lua_script` (mtimes, md5) are not modelled.
  - Only the `package.path` composition of `load_and_execute_lua_config` is modelled, with the configuration directory as input.
- App.BuildUiWindows:
  - the UI builder's `build` is a parameter;
  - `register_behavior` and `set_application` are not modelled;
  - failures of creating the Lua tables, setting `app.windows` and registering `get_widget_by_id` are not modelled.
- App.SetupLuaActions: GIO's replacement of an earlier action with the same name is not modelled. The result is the list of actions added, in order.
- From `src/scripting/widget_wrapper.rs`: `get_ancestor`, `insert_text`, `set_visible`, `add_class`, `remove_class`, `grab_focus`, `get_value`, `set_value`, `set_range`, `set_increments`, `add_controller_motion` and `add` are thin GTK delegations, and are not modelled.
- WidgetWrapper.LuaWidget.SetProperty: GObject panics on an unknown property or a value of the wrong type. The model stores the value instead.
- WidgetWrapper.LuaWidget.RemoveChildren: children are removed by position, not by object identity. Aliasing between widget handles is not modelled.
- WidgetWrapper.WithText: GTK's `gtk_label_set_text` also clears markup and mnemonic use. The model records both as false and keeps no other label state.
- CliConfig.Parse: requires a program name at `args[0]`, as `env::args()` always supplies. The usage text printed before `--help` exits is not modelled.
- TrayApi.SavePixmap: the directory creation, image-buffer construction and file write are one parameter. The path's `to_str` is taken never to fail.
- TrayApi.ProcessedProperties: the `IconPixmap` fetch is an input of the item.
- The StatusNotifierWatcher's constant properties (`is_status_notifier_host_registered` true, `protocol_version` 0), the notification capabilities (`body`, `summary`) and the server information are constants, not members.
- `close_notification` and `register_status_notifier_host` do nothing, so they are not modelled.
- Features the code does not implement are not modelled: key bindings, `keyboard_mode`, `margins`, grid placement, per-node key validation and id-to-widget maps.

=== FILE: app.dfy ===
/**
 * The application-level decisions of `App` (`app.rs`): which top-level keys
 * the configuration table may use, which tables describe windows, the windows
 * table handed back to Lua, the actions and the menu read from the
 * configuration, and the `package.path` prefix for the configuration's
 * directory.
 */
module App {
  import opened Wrappers
  import opened Text
  import opened Lua
  import opened LuaDriver
  import opened Gtk

  /** `AppError`, for the errors the modelled steps raise. */
  datatype AppError = AppSetupError(message: string) | GtkError(message: string) | LuaError(message: string)

  // ---- validation -----------------------------------------------------------------

  /** The keys the root table may use besides integer keys. */
  const ValidKeys: seq<string> := [
    "type", "window_mode", "layer", "anchors", "css_path", "css", "properties",
    "children", "signals", "keymaps", "margins", "auto_exclusive_zone",
    "keyboard_mode", "actions", "menu", "id", "realize"
  ]

  /** A root key passes validation when it is listed or parses as an i32. */
  predicate Allowed(k: string) {
    k in ValidKeys || ParseI32(k).Some?
  }

  function UnknownProperty(k: string): string {
    "Unknown configuration property: '" + k + "'"
  }

  /** The first key that is not allowed, if any. */
  method FirstUnknownKey(keys: seq<(string, SV)>) returns (r: Result<(), string>)
    ensures r.Ok? <==> forall i :: 0 <= i < |keys| ==> Allowed(keys[i].0)
    ensures r.Err? ==>
      (exists i :: 0 <= i < |keys| && !Allowed(keys[i].0) && r.error == UnknownProperty(keys[i].0)
        && forall j :: 0 <= j < i ==> Allowed(keys[j].0))
  {
    for i := 0 to |keys|
      invariant forall j :: 0 <= j < i ==> Allowed(keys[j].0)
    {
      var key := keys[i].0;
      if key !in ValidKeys && ParseI32(key).None? {
        return Err(UnknownProperty(key));
      }
    }
    return Ok(());
  }

  /**
   * `validate_lua_config_table`: walks the entries whose key converts to a
   * string and stops at the first key that is not allowed.
   */
  method ValidateConfigTable(entries: seq<(Key, SV)>) returns (r: Result<(), string>)
    ensures var keys := StringPairsFlatten(Pairs(entries));
      r.Ok? <==> forall i :: 0 <= i < |keys| ==> Allowed(keys[i].0)
    ensures var keys := StringPairsFlatten(Pairs(entries));
      r.Err? ==>
        (exists i :: 0 <= i < |keys| && !Allowed(keys[i].0) && r.error == UnknownProperty(keys[i].0)
          && forall j :: 0 <= j < i ==> Allowed(keys[j].0))
  {
    r := FirstUnknownKey(StringPairsFlatten(Pairs(entries)));
  }

  /** `title` and `exclusive_zone` are not root keys: a root table using either is refused. */
  lemma TitleAndZoneRefused()
    ensures !Allowed("title") && !Allowed("exclusive_zone")
  {
    assert !IsDigit("title"[0]) && !IsDigit("exclusive_zone"[0]);
  }

  /** No listed key starts with a digit or a minus sign. */
  lemma ValidKeysStartWithLetters()
    ensures forall j :: 0 <= j < |ValidKeys| ==> ValidKeys[j] != [] && 'a' <= ValidKeys[j][0] <= 'z'
  {
  }

  /**
   * An integer key, as in a list of windows, passes exactly when it fits in 32
   * bits: Lua shows it in decimal, and that text must parse as an i32.
   */
  lemma IntegerKeyAllowed(i: Int64)
    ensures Allowed(KeyToString(KInt(i)).value) <==> MinI32 <= i <= MaxI32
  {
    DecimalParsesAsI32(i);
    var d := Decimal(i);
    assert d != [] && (d[0] == '-' || IsDigit(d[0])) by {
      if i >= 0 {
        assert AllDigits(NatDecimal(i));
      }
    }
    ValidKeysStartWithLetters();
    assert d !in ValidKeys;
  }

  // ---- window configurations --------------------------------------------------

  /** `sequence_values::<Table>()` with the failures dropped: the items that are tables, in order. */
  function TablesIn(vs: seq<SV>): (r: seq<SV>)
    ensures |r| <= |vs|
    ensures forall j :: 0 <= j < |r| ==> r[j].Table? && r[j] in vs
    ensures forall v :: v in vs && v.Table? ==> v in r
    decreases |vs|
  {
    if vs == [] then []
    else
      var rest := TablesIn(vs[1..]);
      assert forall v :: v in vs ==> v == vs[0] || v in vs[1..];
      if vs[0].Table? then [vs[0]] + rest else rest
  }

  /**
   * The window configurations: the sequence tables of the root when `t[1]`
   * is a table, otherwise the root table alone.
   */
  function WindowConfigs(entries: seq<(Key, SV)>): (r: seq<SV>)
    ensures forall j :: 0 <= j < |r| ==> r[j].Table?
  {
    if RawGet(entries, KInt(1)).Table? then TablesIn(SequenceValues(entries)) else [Table(entries)]
  }

  /**
   * A list of windows starts with `t[1]` and holds exactly the tables of the
   * sequence part; any other root is the one window.
   */
  lemma WindowConfigsSpec(entries: seq<(Key, SV)>)
    ensures !RawGet(entries, KInt(1)).Table? ==> WindowConfigs(entries) == [Table(entries)]
    ensures RawGet(entries, KInt(1)).Table? ==> WindowConfigs(entries) != [] && WindowConfigs(entries)[0] == RawGet(entries, KInt(1))
    ensures RawGet(entries, KInt(1)).Table? ==>
      forall v :: v in WindowConfigs(entries) <==> v in SequenceValues(entries) && v.Table?
  {
    if RawGet(entries, KInt(1)).Table? {
      assert entries != [];
      assert SequenceValues(entries)[0] == RawGet(entries, KInt(1));
    }
  }

  /** The windows table after one more root: a window with a string `title` is filed under it. */
  function FileWindow(windows: map<string, Widget>, config: SV, root: Widget): (r: map<string, Widget>)
    ensures r.Keys >= windows.Keys
  {
    if IsA(root.typeName, Window) && StringField(config, "title").Some? then windows[StringField(config, "title").value := root]
    else windows
  }

  /**
   * The outcome of building the windows in order: the first build error,
   * wrapped, or the windows table.
   */
  function WindowsOf(configs: seq<SV>, build: SV -> Result<Widget, string>): Result<map<string, Widget>, AppError>
    decreases |configs|
  {
    if configs == [] then Ok(map[])
    else
      match WindowsOf(configs[..|configs| - 1], build)
      case Err(e) => Err(e)
      case Ok(windows) =>
        match build(configs[|configs| - 1])
        case Err(e) => Err(GtkError("UI Builder Error: " + e))
        case Ok(root) => Ok(FileWindow(windows, configs[|configs| - 1], root))
  }

  /** Whether a configuration builds a window with a string title `t`. */
  predicate TitledWindow(config: SV, build: SV -> Result<Widget, string>, t: string) {
    build(config).Ok? && IsA(build(config).value.typeName, Window) && StringField(config, "title") == Some(t)
  }

  /** The build fails exactly when one window fails, and then with the first failure. */
  lemma {:induction false} WindowsOfError(configs: seq<SV>, build: SV -> Result<Widget, string>)
    ensures WindowsOf(configs, build).Err? <==> exists i :: 0 <= i < |configs| && build(configs[i]).Err?
    ensures WindowsOf(configs, build).Err? ==>
      (exists i :: 0 <= i < |configs| && build(configs[i]).Err?
        && WindowsOf(configs, build).error == GtkError("UI Builder Error: " + build(configs[i]).error)
        && forall j :: 0 <= j < i ==> build(configs[j]).Ok?)
    decreases |configs|
  {
    if configs != [] {
      var before := configs[..|configs| - 1];
      WindowsOfError(before, build);
      assert forall i :: 0 <= i < |before| ==> before[i] == configs[i];
    }
  }

  /** The last configuration that built a window titled `t`, if any. */
  function LastTitled(configs: seq<SV>, build: SV -> Result<Widget, string>, t: string): (r: Option<nat>)
    ensures r.Some? ==> r.value < |configs| && TitledWindow(configs[r.value], build, t)
    decreases |configs|
  {
    if configs == [] then None
    else
      var n := |configs| - 1;
      if TitledWindow(configs[n], build, t) then Some(n)
      else
        LastTitled(configs[..n], build, t)
  }

  /** LastTitled finds nothing only when no configuration builds a window with the title. */
  lemma {:induction false} LastTitledNone(configs: seq<SV>, build: SV -> Result<Widget, string>, t: string)
    ensures LastTitled(configs, build, t).None? <==> forall i :: 0 <= i < |configs| ==> !TitledWindow(configs[i], build, t)
    decreases |configs|
  {
    if configs != [] {
      LastTitledNone(configs[..|configs| - 1], build, t);
    }
  }

  /** What LastTitled finds is the last configuration with the title: no later one has it. */
  lemma {:induction false} LastTitledIsLast(configs: seq<SV>, build: SV -> Result<Widget, string>, t: string)
    ensures LastTitled(configs, build, t).Some? ==>
      forall j :: LastTitled(configs, build, t).value < j < |configs| ==> !TitledWindow(configs[j], build, t)
    decreases |configs|
  {
    if configs != [] {
      LastTitledIsLast(configs[..|configs| - 1], build, t);
    }
  }

  /**
   * On success, a title names a window exactly when some configuration built a
   * window with that title, and it names the last such window.
   */
  lemma {:induction false} WindowsOfTitles(configs: seq<SV>, build: SV -> Result<Widget, string>, t: string)
    requires WindowsOf(configs, build).Ok?
    ensures t in WindowsOf(configs, build).value <==> LastTitled(configs, build, t).Some?
    ensures t in WindowsOf(configs, build).value ==>
      WindowsOf(configs, build).value[t] == build(configs[LastTitled(configs, build, t).value]).value
    decreases |configs|
  {
    if configs != [] {
      var n := |configs| - 1;
      WindowsOfTitles(configs[..n], build, t);
      var r := LastTitled(configs[..n], build, t);
      assert r.Some? ==> configs[..n][r.value] == configs[r.value];
    }
  }

  /** Once a prefix of the configurations fails, the whole loop fails the same way. */
  lemma {:induction false} WindowsOfFailedPrefix(configs: seq<SV>, build: SV -> Result<Widget, string>, k: nat)
    requires k <= |configs| && WindowsOf(configs[..k], build).Err?
    ensures WindowsOf(configs, build) == WindowsOf(configs[..k], build)
    decreases |configs| - k
  {
    if k < |configs| {
      var n := |configs| - 1;
      assert configs[..n][..k] == configs[..k];
      WindowsOfFailedPrefix(configs[..n], build, k);
    } else {
      assert configs[..k] == configs;
    }
  }

  /** One more configuration: how the outcome of the window loop moves on. */
  lemma WindowsStep(configs: seq<SV>, build: SV -> Result<Widget, string>, i: nat)
    requires i < |configs|
    ensures WindowsOf(configs[..i + 1], build) ==
      match WindowsOf(configs[..i], build)
      case Err(e) => Err(e)
      case Ok(windows) =>
        match build(configs[i])
        case Err(e) => Err(GtkError("UI Builder Error: " + e))
        case Ok(root) => Ok(FileWindow(windows, configs[i], root))
  {
    var prefix := configs[..i + 1];
    assert prefix[..i] == configs[..i] && prefix[i] == configs[i];
  }

  /**
   * The window loop of `build_ui_windows` over the root table `entries`.
   * `build` stands for the UI builder's `build`; the loop returns at the first
   * failure and otherwise hands back the windows table.
   */
  method BuildUiWindows(entries: seq<(Key, SV)>, build: SV -> Result<Widget, string>)
    returns (r: Result<map<string, Widget>, AppError>)
    ensures r == WindowsOf(WindowConfigs(entries), build)
  {
    var configs := WindowConfigs(entries);
    var windows: map<string, Widget> := map[];
    for i := 0 to |configs|
      invariant WindowsOf(configs[..i], build) == Ok(windows)
    {
      WindowsStep(configs, build, i);
      var built := build(configs[i]);
      if built.Err? {
        WindowsOfFailedPrefix(configs, build, i + 1);
        return Err(GtkError("UI Builder Error: " + built.error));
      }
      var root := built.value;
      ghost var earlier := windows;
      if IsA(root.typeName, Window) {
        var title := StringField(configs[i], "title");
        if title.Some? {
          windows := windows[title.value := root];
        }
      }
      assert windows == FileWindow(earlier, configs[i], root);
    }
    assert configs[..|configs|] == configs;
    return Ok(windows);
  }

  // ---- actions --------------------------------------------------------------------

  /** An action registered with the application: its name and its Lua callback. */
  datatype Action = Action(name: string, callback: nat)

  /** The action one table describes: it needs a `name` that converts to a string and a function `callback`. */
  function ActionOf(item: SV): (r: Option<Action>)
    requires item.Table?
    ensures r.Some? <==> CoerceToString(RawGet(item.entries, StrKey("name"))).Some? && RawGet(item.entries, StrKey("callback")).Func?
    ensures r.Some? ==> r.value.callback == RawGet(item.entries, StrKey("callback")).id
  {
    match (CoerceToString(RawGet(item.entries, StrKey("name"))), RawGet(item.entries, StrKey("callback")))
    case (Some(name), Func(id)) => Some(Action(name, id))
    case _ => None
  }

  /** The actions of a list of tables, in order. */
  function ActionsOf(items: seq<SV>): seq<Action>
    requires forall j :: 0 <= j < |items| ==> items[j].Table?
    decreases |items|
  {
    if items == [] then []
    else
      var before := ActionsOf(items[..|items| - 1]);
      match ActionOf(items[|items| - 1])
      case Some(a) => before + [a]
      case None => before
  }

  /** An action is registered exactly when some table describes it. */
  lemma {:induction false} ActionsOfMembers(items: seq<SV>, a: Action)
    requires forall j :: 0 <= j < |items| ==> items[j].Table?
    ensures a in ActionsOf(items) <==> exists i :: 0 <= i < |items| && ActionOf(items[i]) == Some(a)
    decreases |items|
  {
    if items != [] {
      var before := items[..|items| - 1];
      ActionsOfMembers(before, a);
      assert forall i :: 0 <= i < |before| ==> before[i] == items[i];
    }
  }

  /** The action tables of the root: the table items of `actions`, when it is a table. */
  function ActionItems(entries: seq<(Key, SV)>): (r: seq<SV>)
    ensures forall j :: 0 <= j < |r| ==> r[j].Table?
  {
    match RawGet(entries, StrKey("actions"))
    case Table(actions) => TablesIn(SequenceValues(actions))
    case _ => []
  }

  /**
   * `setup_lua_actions`: every table of `actions` with a string `name` and a
   * function `callback` is added to the application, in order.
   */
  method SetupLuaActions(entries: seq<(Key, SV)>) returns (added: seq<Action>)
    ensures added == ActionsOf(ActionItems(entries))
    ensures !RawGet(entries, StrKey("actions")).Table? ==> added == []
  {
    var items := ActionItems(entries);
    added := [];
    for i := 0 to |items|
      invariant added == ActionsOf(items[..i])
    {
      assert items[..i + 1][..i] == items[..i];
      var name := CoerceToString(RawGet(items[i].entries, StrKey("name")));
      var callback := RawGet(items[i].entries, StrKey("callback"));
      if name.Some? && callback.Func? {
        added := added + [Action(name.value, callback.id)];
      }
    }
    assert items[..|items|] == items;
  }

  // ---- menu -----------------------------------------------------------------------

  /** A `gio::Menu` entry: a submenu or an item bound to an action. */
  datatype MenuEntry = Submenu(caption: string, entries: seq<MenuEntry>) | MenuItem(caption: string, action: string)

  /** `get::<String>("label").unwrap_or_default()`. */
  function LabelOf(item: SV): string
    requires item.Table?
  {
    CoerceToString(RawGet(item.entries, StrKey("label"))).GetOr("")
  }

  /** The menu a table describes: its table items, each made an entry or skipped. */
  function MenuOf(menu: SV): seq<MenuEntry>
    requires menu.Table?
    decreases menu, 2
  {
    MenuItems(TablesIn(SequenceValues(menu.entries)), menu)
  }

  /**
   * The entries of a list of item tables, in order. A `submenu` table wins
   * over an `action`; an item with neither is skipped.
   */
  function MenuItems(items: seq<SV>, ghost bound: SV): seq<MenuEntry>
    requires forall j :: 0 <= j < |items| ==> items[j].Table? && items[j] < bound
    decreases bound, 1, |items|
  {
    if items == [] then []
    else EntryFor(items[0], bound) + MenuItems(items[1..], bound)
  }

  /** The entry one item table gives, if any. */
  function EntryFor(item: SV, ghost bound: SV): seq<MenuEntry>
    requires item.Table? && item < bound
    decreases bound, 0
  {
    var sub := RawGet(item.entries, StrKey("submenu"));
    RawGetBelow(item.entries, StrKey("submenu"));
    if sub.Table? then [Submenu(LabelOf(item), MenuOf(sub))]
    else match CoerceToString(RawGet(item.entries, StrKey("action")))
      case Some(action) => [MenuItem(LabelOf(item), action)]
      case None => []
  }

  /** Entries keep the order of their items: the menu of two lists is the two menus in turn. */
  lemma {:induction false} MenuItemsAppend(a: seq<SV>, b: seq<SV>, bound: SV)
    requires forall j :: 0 <= j < |a| ==> a[j].Table? && a[j] < bound
    requires forall j :: 0 <= j < |b| ==> b[j].Table? && b[j] < bound
    ensures MenuItems(a + b, bound) == MenuItems(a, bound) + MenuItems(b, bound)
    decreases |a|
  {
    if a == [] {
      assert a + b == b;
    } else {
      assert (a + b)[0] == a[0] && (a + b)[1..] == a[1..] + b;
      MenuItemsAppend(a[1..], b, bound);
    }
  }

  /** One more item: its entry, if any, goes after the entries so far. */
  lemma MenuItemsStep(items: seq<SV>, i: nat, bound: SV)
    requires i < |items|
    requires forall j :: 0 <= j < |items| ==> items[j].Table? && items[j] < bound
    ensures MenuItems(items[..i + 1], bound) == MenuItems(items[..i], bound) + EntryFor(items[i], bound)
  {
    MenuItemsAppend(items[..i], [items[i]], bound);
    assert items[..i + 1] == items[..i] + [items[i]];
  }

  /** Every entry comes from its own item: there are never more entries than item tables. */
  lemma {:induction false} MenuItemsLength(items: seq<SV>, bound: SV)
    requires forall j :: 0 <= j < |items| ==> items[j].Table? && items[j] < bound
    ensures |MenuItems(items, bound)| <= |items|
    decreases |items|
  {
    if items != [] {
      MenuItemsLength(items[1..], bound);
    }
  }

  /** `build_menu_from_lua`: the loop over the item tables, building each submenu first. */
  method BuildMenu(menu: SV) returns (m: seq<MenuEntry>)
    requires menu.Table?
    ensures m == MenuOf(menu)
    decreases menu, 2
  {
    var items := TablesIn(SequenceValues(menu.entries));
    m := [];
    for i := 0 to |items|
      invariant m == MenuItems(items[..i], menu)
    {
      MenuItemsStep(items, i, menu);
      var caption := LabelOf(items[i]);
      var sub := RawGet(items[i].entries, StrKey("submenu"));
      RawGetBelow(items[i].entries, StrKey("submenu"));
      if sub.Table? {
        var submenu := BuildMenu(sub);
        m := m + [Submenu(caption, submenu)];
      } else {
        var action := CoerceToString(RawGet(items[i].entries, StrKey("action")));
        if action.Some? {
          m := m + [MenuItem(caption, action.value)];
        }
      }
    }
    assert items[..|items|] == items;
  }

  // ---- package.path -----------------------------------------------------------

  /** The new `package.path`: the configuration directory's two patterns before the previous path. */
  function PackagePath(dir: string, previous: string): string {
    dir + "/?.lua;" + dir + "/?/init.lua;" + previous
  }

  /** Text without `c` before `t` shifts the position of the first `c` in `t` by its length. */
  lemma {:induction false} IndexOfAfter(a: string, c: char, t: string)
    requires c !in a
    ensures IndexOf(a + t, c) == if IndexOf(t, c).Some? then Some(|a| + IndexOf(t, c).value) else None
    decreases |a|
  {
    if a != [] {
      assert (a + t)[0] == a[0] && (a + t)[1..] == a[1..] + t;
      IndexOfAfter(a[1..], c, t);
    } else {
      assert a + t == t;
    }
  }

  /** `split_once` finds the first separator: text without it, the separator, then anything. */
  lemma SplitOnceAt(a: string, c: char, b: string)
    requires c !in a
    ensures SplitOnce(a + [c] + b, c) == Some((a, b))
  {
    var s := a + [c] + b;
    assert s == a + ([c] + b);
    IndexOfAfter(a, c, [c] + b);
    assert IndexOf([c] + b, c) == Some(0);
    assert s[..|a|] == a && s[|a| + 1..] == b;
  }

  /**
   * For a directory without `;`, the path's first two entries are the
   * directory's `?.lua` and `?/init.lua` patterns, and the rest is the previous
   * path unchanged.
   */
  lemma PackagePathEntries(dir: string, previous: string)
    requires ';' !in dir
    ensures SplitOnce(PackagePath(dir, previous), ';') == Some((dir + "/?.lua", dir + "/?/init.lua;" + previous))
    ensures SplitOnce(dir + "/?/init.lua;" + previous, ';') == Some((dir + "/?/init.lua", previous))
  {
    assert PackagePath(dir, previous) == (dir + "/?.lua") + [';'] + (dir + "/?/init.lua;" + previous);
    SplitOnceAt(dir + "/?.lua", ';', dir + "/?/init.lua;" + previous);
    assert dir + "/?/init.lua;" + previous == (dir + "/?/init.lua") + [';'] + previous;
    SplitOnceAt(dir + "/?/init.lua", ';', previous);
  }
}

=== FILE: builder.dfy ===
/**
 * `UiBuilder`: building a widget tree from a configuration table. Each node
 * names a registered type; its properties, signal handlers and children are
 * applied in that order, and the first error anywhere ends the build.
 */
module Builder {
  import opened Wrappers
  import opened Lua
  import opened Gtk
  import opened LuaDriver
  import opened Converter
  import opened Containers
  import opened TypeRegistry
  import LayerShell
  import WindowStrategy

  const MissingType: string := "Widget missing 'type' field"
  const NotAWidget: string := "Not a widget"

  function UnknownType(name: string): string {
    "Unknown type: " + name
  }

  /** `get_property(key).and_then(get_map_entries)`. */
  function MapField(data: SV, key: string): Option<seq<(string, SV)>> {
    match GetProperty(data, key)
    case Some(v) => GetMapEntries(v)
    case None => None
  }

  /** `get_property("children").and_then(get_array_items)`: each item lies inside `data`. */
  function ChildItems(data: SV): (r: Option<seq<SV>>)
    ensures r.Some? ==> forall i :: 0 <= i < |r.value| ==> r.value[i] < data
  {
    match GetProperty(data, "children")
    case Some(v) => GetArrayItems(v)
    case None => None
  }

  // ---- properties -----------------------------------------------------------------

  /** Whether the entry `k = v` is set on a widget of type `t`: the property exists and the value converts. */
  predicate Accepted(tk: Toolkit, t: string, k: string, v: SV) {
    match FindProperty(tk, t, k)
    case Some(target) => ToGValue(v, target).Ok?
    case None => false
  }

  /** The value an accepted entry sets. */
  function Converted(tk: Toolkit, t: string, k: string, v: SV): GValue
    requires Accepted(tk, t, k, v)
  {
    ToGValue(v, FindProperty(tk, t, k).value).value
  }

  /** One iteration of the property loop. */
  function SetProperty(tk: Toolkit, w: Widget, k: string, v: SV): Widget {
    if Accepted(tk, w.typeName, k, v) then w.(properties := w.properties[k := Converted(tk, w.typeName, k, v)])
    else w
  }

  /** The property loop over `props`, in order. */
  function SetProperties(tk: Toolkit, w: Widget, props: seq<(string, SV)>): Widget
    decreases |props|
  {
    if props == [] then w
    else
      var last := props[|props| - 1];
      SetProperty(tk, SetProperties(tk, w, props[..|props| - 1]), last.0, last.1)
  }

  /** Whether entry `i` is the last accepted entry for its key. */
  predicate LastAccepted(tk: Toolkit, t: string, props: seq<(string, SV)>, i: int)
    requires 0 <= i < |props|
  {
    Accepted(tk, t, props[i].0, props[i].1)
    && forall j :: i < j < |props| && props[j].0 == props[i].0 ==> !Accepted(tk, t, props[j].0, props[j].1)
  }

  /** The property loop only touches the properties. */
  lemma {:induction false} SetPropertiesFrame(tk: Toolkit, w: Widget, props: seq<(string, SV)>)
    ensures SetProperties(tk, w, props).typeName == w.typeName
    ensures SetProperties(tk, w, props).signals == w.signals
    ensures SetProperties(tk, w, props).children == w.children
    decreases |props|
  {
    if props != [] {
      SetPropertiesFrame(tk, w, props[..|props| - 1]);
    }
  }

  /** A property ends up set exactly when it was set before or some entry for it is accepted. */
  lemma {:induction false} SetPropertiesKeys(tk: Toolkit, w: Widget, props: seq<(string, SV)>, k: string)
    ensures k in SetProperties(tk, w, props).properties <==>
      k in w.properties || exists i :: 0 <= i < |props| && props[i].0 == k && Accepted(tk, w.typeName, k, props[i].1)
    decreases |props|
  {
    if props != [] {
      var init := props[..|props| - 1];
      SetPropertiesKeys(tk, w, init, k);
      SetPropertiesFrame(tk, w, init);
      if exists i :: 0 <= i < |props| && props[i].0 == k && Accepted(tk, w.typeName, k, props[i].1) {
        var i :| 0 <= i < |props| && props[i].0 == k && Accepted(tk, w.typeName, k, props[i].1);
        if i < |props| - 1 {
          assert init[i] == props[i];
        }
      }
      if exists i :: 0 <= i < |init| && init[i].0 == k && Accepted(tk, w.typeName, k, init[i].1) {
        var i :| 0 <= i < |init| && init[i].0 == k && Accepted(tk, w.typeName, k, init[i].1);
        assert props[i] == init[i];
      }
    }
  }

  /** A property some entry sets holds the value of the last accepted entry for it. */
  lemma {:induction false} SetPropertiesLast(tk: Toolkit, w: Widget, props: seq<(string, SV)>, i: int)
    requires 0 <= i < |props| && LastAccepted(tk, w.typeName, props, i)
    ensures props[i].0 in SetProperties(tk, w, props).properties
    ensures SetProperties(tk, w, props).properties[props[i].0] == Converted(tk, w.typeName, props[i].0, props[i].1)
    decreases |props|
  {
    var init := props[..|props| - 1];
    SetPropertiesFrame(tk, w, init);
    if i < |props| - 1 {
      assert props[i] == init[i];
      assert LastAccepted(tk, w.typeName, init, i);
      SetPropertiesLast(tk, w, init, i);
    }
  }

  /** A property that no entry sets keeps the value it had. */
  lemma {:induction false} SetPropertiesUntouched(tk: Toolkit, w: Widget, props: seq<(string, SV)>, k: string)
    requires k in w.properties
    requires forall i :: 0 <= i < |props| ==> props[i].0 != k || !Accepted(tk, w.typeName, k, props[i].1)
    ensures k in SetProperties(tk, w, props).properties
    ensures SetProperties(tk, w, props).properties[k] == w.properties[k]
    decreases |props|
  {
    if props != [] {
      var init := props[..|props| - 1];
      assert forall i :: 0 <= i < |init| ==> init[i] == props[i];
      SetPropertiesFrame(tk, w, init);
      SetPropertiesUntouched(tk, w, init, k);
    }
  }

  // ---- signals --------------------------------------------------------------------

  /** The signal loop: only entries whose value is a function are connected, in order. */
  function ConnectSignals(sigs: seq<(string, SV)>): (r: seq<(string, nat)>)
    ensures |r| <= |sigs|
    ensures forall name: string, id: nat :: (name, id) in r <==> (name, Func(id)) in sigs
  {
    if sigs == [] then []
    else
      var rest := ConnectSignals(sigs[1..]);
      assert forall p :: p in sigs <==> p == sigs[0] || p in sigs[1..];
      if IsFunction(sigs[0].1) then [(sigs[0].0, sigs[0].1.id)] + rest else rest
  }

  // ---- the recursive build ----------------------------------------------------------

  /** The node `data` describes, before its children: type resolved, properties set, signals connected. */
  function Shell(tk: Toolkit, reg: Tables, data: SV): (r: Result<Widget, string>)
    ensures StringField(data, "type").None? ==> r == Err(MissingType)
    ensures StringField(data, "type").Some? && StringField(data, "type").value !in reg.types ==>
      r == Err(UnknownType(StringField(data, "type").value))
    ensures (StringField(data, "type").Some? && StringField(data, "type").value in reg.types
      && !IsWidgetType(tk, reg.types[StringField(data, "type").value])) ==> r == Err(NotAWidget)
    ensures r.Ok? ==> (StringField(data, "type").Some? && StringField(data, "type").value in reg.types
      && IsWidgetType(tk, reg.types[StringField(data, "type").value])
      && r.value.typeName == reg.types[StringField(data, "type").value]
      && r.value.children == [])
    ensures (StringField(data, "type").Some? && StringField(data, "type").value in reg.types
      && IsWidgetType(tk, reg.types[StringField(data, "type").value])) ==>
      r == Ok(SetProperties(tk, NewWidget(reg.types[StringField(data, "type").value]), MapField(data, "properties").GetOr([]))
                .(signals := ConnectSignals(MapField(data, "signals").GetOr([]))))
  {
    match StringField(data, "type")
    case None => Err(MissingType)
    case Some(name) =>
      if name !in reg.types then Err(UnknownType(name))
      else if !IsWidgetType(tk, reg.types[name]) then Err(NotAWidget)
      else
        var w := NewWidget(reg.types[name]);
        var w := match MapField(data, "properties") case Some(props) => SetProperties(tk, w, props) case None => w;
        SetPropertiesFrame(tk, NewWidget(reg.types[name]), MapField(data, "properties").GetOr([]));
        match MapField(data, "signals")
        case Some(sigs) => Ok(w.(signals := ConnectSignals(sigs)))
        case None => Ok(w)
  }

  /** `build_recursive`. */
  function Build(tk: Toolkit, reg: Tables, data: SV): (r: Result<Widget, string>)
    decreases data, 1
  {
    match Shell(tk, reg, data)
    case Err(e) => Err(e)
    case Ok(w) =>
      match ChildItems(data)
      case None => Ok(w)
      case Some(kids) =>
        BuildChildren(tk, reg, StrategyFor(reg, StringField(data, "type").value, w), w, kids, data)
  }

  /** The child loop: build each child and attach it at once; the first error ends the loop. */
  function BuildChildren(tk: Toolkit, reg: Tables, s: Strategy, parent: Widget, kids: seq<SV>, ghost bound: SV)
    : (r: Result<Widget, string>)
    requires forall i :: 0 <= i < |kids| ==> kids[i] < bound
    decreases bound, 0, |kids|
  {
    if kids == [] then Ok(parent)
    else
      match Build(tk, reg, kids[0])
      case Err(e) => Err(e)
      case Ok(child) =>
        BuildChildren(tk, reg, s, parent.(children := Attached(s, parent.children, child, kids[0])), kids[1..], bound)
  }

  /** `f` applied to each item in order, or the first error. */
  function Collect<T, U>(f: T -> Result<U, string>, xs: seq<T>): (r: Result<seq<U>, string>)
    ensures r.Ok? ==> |r.value| == |xs|
    decreases |xs|
  {
    if xs == [] then Ok([])
    else
      match f(xs[0])
      case Err(e) => Err(e)
      case Ok(y) =>
        match Collect(f, xs[1..])
        case Err(e) => Err(e)
        case Ok(ys) => Ok([y] + ys)
  }

  /** When nothing fails, item `i` of the result is `f` of item `i`. */
  lemma {:induction false} CollectEach<T, U>(f: T -> Result<U, string>, xs: seq<T>, i: nat)
    requires Collect(f, xs).Ok? && i < |xs|
    ensures f(xs[i]) == Ok(Collect(f, xs).value[i])
    decreases i
  {
    if i > 0 {
      assert xs[i] == xs[1..][i - 1];
      CollectEach(f, xs[1..], i - 1);
    }
  }

  /** Item `i` is the first on which `f` fails, with error `e`. */
  predicate FirstFailure<T, U>(f: T -> Result<U, string>, xs: seq<T>, i: int, e: string) {
    0 <= i < |xs| && f(xs[i]) == Err(e) && forall j :: 0 <= j < i ==> f(xs[j]).Ok?
  }

  /** An error is the error of the first item that fails. */
  lemma {:induction false} CollectFirstError<T, U>(f: T -> Result<U, string>, xs: seq<T>)
    requires Collect(f, xs).Err?
    ensures exists i :: FirstFailure(f, xs, i, Collect(f, xs).error)
    decreases |xs|
  {
    var e := Collect(f, xs).error;
    if f(xs[0]).Err? {
      assert FirstFailure(f, xs, 0, e);
    } else {
      var rest := xs[1..];
      CollectFirstError(f, rest);
      var i :| FirstFailure(f, rest, i, e);
      assert xs[i + 1] == rest[i];
      forall j | 0 <= j < i + 1 ensures f(xs[j]).Ok? {
        if j > 0 {
          assert xs[j] == rest[j - 1];
        }
      }
      assert FirstFailure(f, xs, i + 1, e);
    }
  }

  /** The children built one after the other, or the first error. */
  function BuildAll(tk: Toolkit, reg: Tables, kids: seq<SV>): (r: Result<seq<Widget>, string>)
    ensures r.Ok? ==> |r.value| == |kids|
  {
    Collect(d => Build(tk, reg, d), kids)
  }

  /** When no child fails, every child is built from its own data, in config order. */
  lemma BuildAllBuildsEach(tk: Toolkit, reg: Tables, kids: seq<SV>, i: nat)
    requires BuildAll(tk, reg, kids).Ok? && i < |kids|
    ensures Build(tk, reg, kids[i]) == Ok(BuildAll(tk, reg, kids).value[i])
  {
    CollectEach(d => Build(tk, reg, d), kids, i);
  }

  /** The first child that fails decides the error. */
  lemma BuildAllFirstError(tk: Toolkit, reg: Tables, kids: seq<SV>)
    requires BuildAll(tk, reg, kids).Err?
    ensures exists i :: (0 <= i < |kids| && Build(tk, reg, kids[i]) == Err(BuildAll(tk, reg, kids).error)
      && forall j :: 0 <= j < i ==> Build(tk, reg, kids[j]).Ok?)
  {
    var f := d => Build(tk, reg, d);
    CollectFirstError(f, kids);
    var i :| FirstFailure(f, kids, i, BuildAll(tk, reg, kids).error);
    assert forall j :: 0 <= j < i ==> f(kids[j]) == Build(tk, reg, kids[j]);
  }

  /**
   * The child loop is: build all children (stopping at the first error), then
   * attach them in order, each with its own data, using one strategy.
   */
  lemma {:induction false} BuildChildrenSpec(tk: Toolkit, reg: Tables, s: Strategy, parent: Widget, kids: seq<SV>, bound: SV)
    requires forall i :: 0 <= i < |kids| ==> kids[i] < bound
    ensures BuildChildren(tk, reg, s, parent, kids, bound) ==
      match BuildAll(tk, reg, kids)
      case Err(e) => Err(e)
      case Ok(ws) => Ok(parent.(children := AttachAll(s, parent.children, ws, kids)))
    decreases |kids|
  {
    if kids != [] {
      match Build(tk, reg, kids[0])
      case Err(e) =>
      case Ok(child) =>
        var next := parent.(children := Attached(s, parent.children, child, kids[0]));
        BuildChildrenSpec(tk, reg, s, next, kids[1..], bound);
    }
  }

  /** The type of a built widget is the registered type its data names. */
  lemma BuildResolvesType(tk: Toolkit, reg: Tables, data: SV)
    ensures StringField(data, "type").None? ==> Build(tk, reg, data) == Err(MissingType)
    ensures StringField(data, "type").Some? && StringField(data, "type").value !in reg.types ==>
      Build(tk, reg, data) == Err(UnknownType(StringField(data, "type").value))
    ensures Build(tk, reg, data).Ok? ==>
      (StringField(data, "type").Some? && StringField(data, "type").value in reg.types
       && IsWidgetType(tk, reg.types[StringField(data, "type").value])
       && Build(tk, reg, data).value.typeName == reg.types[StringField(data, "type").value])
  {
    match Shell(tk, reg, data)
    case Err(e) =>
    case Ok(w) =>
      match ChildItems(data)
      case None =>
      case Some(kids) =>
        BuildChildrenSpec(tk, reg, StrategyFor(reg, StringField(data, "type").value, w), w, kids, data);
  }

  /**
   * A node with children: they are built in config order and attached to the
   * new widget in that order, each with its own data, through one strategy looked
   * up from the node's type name; a failing child makes the whole node fail.
   */
  lemma BuildChildrenInOrder(tk: Toolkit, reg: Tables, data: SV)
    requires Shell(tk, reg, data).Ok? && ChildItems(data).Some?
    ensures var w := Shell(tk, reg, data).value;
      var kids := ChildItems(data).value;
      var s := StrategyFor(reg, StringField(data, "type").value, w);
      Build(tk, reg, data) ==
        match BuildAll(tk, reg, kids)
        case Err(e) => Err(e)
        case Ok(ws) => Ok(w.(children := AttachAll(s, [], ws, kids)))
  {
    var w := Shell(tk, reg, data).value;
    BuildChildrenSpec(tk, reg, StrategyFor(reg, StringField(data, "type").value, w), w, ChildItems(data).value, data);
  }

  /** The property loop. */
  method ApplyProperties(tk: Toolkit, w: Widget, props: seq<(string, SV)>) returns (r: Widget)
    ensures r == SetProperties(tk, w, props)
  {
    r := w;
    for i := 0 to |props|
      invariant r == SetProperties(tk, w, props[..i])
    {
      assert props[..i + 1][..i] == props[..i];
      r := SetProperty(tk, r, props[i].0, props[i].1);
    }
    assert props[..|props|] == props;
  }

  /** The signal loop, connecting the function entries. */
  method ConnectFunctions(sigs: seq<(string, SV)>) returns (connected: seq<(string, nat)>)
    ensures connected == ConnectSignals(sigs)
  {
    connected := [];
    var i := |sigs|;
    while i > 0
      invariant 0 <= i <= |sigs|
      invariant connected == ConnectSignals(sigs[i..])
    {
      i := i - 1;
      assert sigs[i..][1..] == sigs[i + 1..];
      if IsFunction(sigs[i].1) {
        connected := [(sigs[i].0, sigs[i].1.id)] + connected;
      }
    }
  }

  /** Resolving the type, creating the object, and the property and signal loops. */
  method MakeShell(tk: Toolkit, reg: Registry, data: SV) returns (r: Result<Widget, string>)
    requires reg.Valid()
    ensures r == Shell(tk, reg.State(), data)
  {
    var typeName := StringField(data, "type");
    if typeName.None? {
      return Err(MissingType);
    }
    var gtype := reg.GetType(typeName.value);
    if gtype.None? {
      return Err(UnknownType(typeName.value));
    }
    if !IsWidgetType(tk, gtype.value) {
      return Err(NotAWidget);
    }
    var widget := NewWidget(gtype.value);
    var props := MapField(data, "properties");
    if props.Some? {
      widget := ApplyProperties(tk, widget, props.value);
    }
    var sigs := MapField(data, "signals");
    if sigs.Some? {
      var connected := ConnectFunctions(sigs.value);
      widget := widget.(signals := connected);
    }
    return Ok(widget);
  }

  /** A node whose shell is built and that lists children goes on to the child loop. */
  lemma BuildNode(tk: Toolkit, reg: Tables, data: SV)
    requires Shell(tk, reg, data).Ok? && ChildItems(data).Some?
    ensures Build(tk, reg, data) == BuildChildren(tk, reg,
      StrategyFor(reg, StringField(data, "type").value, Shell(tk, reg, data).value),
      Shell(tk, reg, data).value, ChildItems(data).value, data)
  {
  }

  /** One turn of the child loop, from child `i` on. */
  lemma BuildChildrenStep(tk: Toolkit, reg: Tables, s: Strategy, parent: Widget, kids: seq<SV>, i: nat, bound: SV)
    requires forall j :: 0 <= j < |kids| ==> kids[j] < bound
    requires i < |kids|
    ensures BuildChildren(tk, reg, s, parent, kids[i..], bound) ==
      match Build(tk, reg, kids[i])
      case Err(e) => Err(e)
      case Ok(child) => BuildChildren(tk, reg, s, parent.(children := Attached(s, parent.children, child, kids[i])),
        kids[i + 1..], bound)
  {
    assert kids[i..][0] == kids[i];
    assert kids[i..][1..] == kids[i + 1..];
  }

  /**
   * `build_recursive` as the source runs it: each child is built and attached
   * in place as soon as it is built.
   */
  method BuildRecursive(tk: Toolkit, reg: Registry, data: SV) returns (r: Result<Widget, string>)
    requires reg.Valid()
    ensures r == Build(tk, reg.State(), data)
    decreases data, 1
  {
    var shell := MakeShell(tk, reg, data);
    if shell.Err? {
      return Err(shell.error);
    }
    var children := ChildItems(data);
    if children.None? {
      return Ok(shell.value);
    }
    var strategy := reg.GetStrategy(StringField(data, "type").value, shell.value);
    BuildNode(tk, reg.State(), data);
    r := AttachChildren(tk, reg, strategy, shell.value, children.value, data);
  }

  /** The child loop of `build_recursive`, on a container holding the new widget. */
  method AttachChildren(tk: Toolkit, reg: Registry, strategy: Strategy, widget: Widget, kids: seq<SV>, ghost data: SV)
    returns (r: Result<Widget, string>)
    requires reg.Valid()
    requires forall j :: 0 <= j < |kids| ==> kids[j] < data
    ensures r == BuildChildren(tk, reg.State(), strategy, widget, kids, data)
    decreases data, 0
  {
    ghost var tables := reg.State();
    ghost var goal := BuildChildren(tk, tables, strategy, widget, kids, data);
    var parent := new ContainerWidget(widget);
    for i := 0 to |kids|
      invariant BuildChildren(tk, tables, strategy, parent.widget, kids[i..], data) == goal
    {
      BuildChildrenStep(tk, tables, strategy, parent.widget, kids, i, data);
      var child := BuildRecursive(tk, reg, kids[i]);
      if child.Err? {
        return Err(child.error);
      }
      parent.AddChild(strategy, child.value, kids[i]);
    }
    assert kids[|kids|..] == [];
    return Ok(parent.widget);
  }

  /**
   * `run`: builds the tree, and when its root is an ApplicationWindow shows it
   * through the window strategy, reading the root table as configuration.
   * `shown` is the root window after that: untouched unless the root is an
   * ApplicationWindow that was built.
   */
  method Run(tk: Toolkit, reg: Registry, data: SV, forceWindowed: bool)
    returns (r: Result<Widget, string>, shown: LayerShell.Window)
    requires reg.Valid()
    ensures r == Build(tk, reg.State(), data)
    ensures (r.Err? || !IsA(r.value.typeName, ApplicationWindow)) ==> shown == LayerShell.Fresh
    ensures (r.Ok? && IsA(r.value.typeName, ApplicationWindow)
      && (forceWindowed || WindowStrategy.Mode(WindowStrategy.LuaScript(), data) == "normal")) ==>
      shown == LayerShell.Perform(LayerShell.Fresh, LayerShell.Present)
    ensures (r.Ok? && IsA(r.value.typeName, ApplicationWindow)
      && !forceWindowed && WindowStrategy.Mode(WindowStrategy.LuaScript(), data) != "normal") ==>
      shown == LayerShell.PerformAll(LayerShell.Fresh, WindowStrategy.LayerShellCalls(WindowStrategy.LuaScript(), data))
  {
    shown := LayerShell.Fresh;
    r := BuildRecursive(tk, reg, data);
    if r.Ok? && IsA(r.value.typeName, ApplicationWindow) {
      shown := WindowStrategy.Apply(WindowStrategy.LuaScript(), forceWindowed, r.value, data, shown);
    }
  }
}

=== FILE: casts.dfy ===
/**
 * Rust's numeric `as` casts between the integer and float types the core uses.
 * Integer-to-integer casts wrap around (two's complement); float-to-integer casts
 * round toward zero and saturate at the target's bounds, with NaN giving 0.
 */
module Casts {
  import opened Text
  import opened Lua

  const TwoTo32: int := 0x1_0000_0000
  const MaxU32: int := 0xffff_ffff

  /** `i as i32` for a wider integer: keep the low 32 bits, read them as signed. */
  function WrapI32(i: int): (r: int)
    ensures MinI32 <= r <= MaxI32
    ensures (r - i) % TwoTo32 == 0
  {
    var low := i % TwoTo32;
    if low > MaxI32 then low - TwoTo32 else low
  }

  /** The wrap is the identity on values that already fit. */
  lemma WrapI32Identity(i: int)
    requires MinI32 <= i <= MaxI32
    ensures WrapI32(i) == i
  {
    if i < 0 {
      assert i % TwoTo32 == i + TwoTo32;
    }
  }

  /** Two integers with the same low 32 bits wrap to the same i32. */
  lemma WrapI32Congruent(i: int, j: int)
    requires (i - j) % TwoTo32 == 0
    ensures WrapI32(i) == WrapI32(j)
  {
    var a, b := WrapI32(i), WrapI32(j);
    assert (a - b) % TwoTo32 == 0 by {
      assert a - b == (a - i) + (i - j) + (j - b);
    }
    assert -TwoTo32 < a - b < TwoTo32;
  }

  /** Rounding toward zero. */
  function Truncate(x: real): (r: int)
    ensures x >= 0.0 ==> r as real <= x < r as real + 1.0
    ensures x < 0.0 ==> r as real - 1.0 < x <= r as real
  {
    if x >= 0.0 then x.Floor else -((-x).Floor)
  }

  /** A float-to-integer `as` cast into the range `lo..hi`. */
  function FloatToInt(f: FloatValue, lo: int, hi: int): (r: int)
    requires lo <= 0 <= hi
    ensures lo <= r <= hi
    ensures f.NaN? ==> r == 0
    ensures f.Finite? && lo <= Truncate(f.r) <= hi ==> r == Truncate(f.r)
  {
    match f
    case NaN => 0
    case Infinity(negative) => if negative then lo else hi
    case Finite(x) =>
      var t := Truncate(x);
      if t < lo then lo else if t > hi then hi else t
  }

  function F64ToI32(f: FloatValue): int { FloatToInt(f, MinI32, MaxI32) }
  function F64ToU32(f: FloatValue): int { FloatToInt(f, 0, MaxU32) }
  function F64ToI64(f: FloatValue): Int64 { FloatToInt(f, MinI64, MaxI64) }

  /**
   * `i as f64` for a Lua integer. Exact for magnitudes up to 2^53; the rounding of
   * larger integers to the nearest double is not modelled.
   */
  function I64ToF64(i: Int64): FloatValue { Finite(i as real) }
}

=== FILE: catalog.dfy ===
/**
 * The widget catalogue: the fixed list of GTK types registered at start-up,
 * 25 with a container strategy and 30 as leaves.
 */
module Catalog {
  import opened Wrappers
  import opened Gtk
  import opened Containers
  import opened TypeRegistry

  /** The types registered with `register_container`, in registration order. */
  const ContainerTypes: seq<string> := [
    "GtkWindow", "GtkApplicationWindow", "GtkAboutDialog", "GtkAppChooserDialog",
    "GtkColorChooserDialog", "GtkDialog", "GtkFileChooserDialog", "GtkFontChooserDialog",
    "GtkMessageDialog", "GtkBox", "GtkCenterBox", "GtkFrame", "GtkAspectFrame", "GtkExpander",
    "GtkScrolledWindow", "GtkOverlay", "GtkPaned", "GtkStack", "GtkNotebook", "GtkHeaderBar",
    "GtkActionBar", "GtkButton", "GtkToggleButton", "GtkLinkButton", "GtkMenuButton"]

  /** The types registered with `register_leaf`, in registration order. */
  const LeafTypes: seq<string> := [
    "GtkGrid", "GtkFixed", "GtkStackSidebar", "GtkStackSwitcher", "GtkSeparator", "GtkLabel",
    "GtkEntry", "GtkPasswordEntry", "GtkSearchEntry", "GtkSpinButton", "GtkSwitch", "GtkScale",
    "GtkProgressBar", "GtkSpinner", "GtkLevelBar", "GtkInfoBar", "GtkStatusbar", "GtkTextView",
    "GtkImage", "GtkPicture", "GtkDrawingArea", "GtkCalendar", "GtkCheckButton", "GtkColorButton",
    "GtkFontButton", "GtkDropDown", "GtkVolumeButton", "GtkSearchBar", "GtkAppChooserButton",
    "GtkListView"]

  /** The factory one of the two registration lists stores for `name`. */
  function FactoryFor(name: string, container: bool): Factory {
    if container then ContainerFactory(name) else LeafFactory
  }

  /** The tables after registering `names` one after the other. */
  function RegisterAll(s: Tables, names: seq<string>, container: bool): Tables
    decreases |names|
  {
    if names == [] then s
    else
      var last := names[|names| - 1];
      Register(RegisterAll(s, names[..|names| - 1], container), last, FactoryFor(last, container))
  }

  /** Registering a list of containers and then a list of leaves. */
  function InitWith(s: Tables, containers: seq<string>, leaves: seq<string>): Tables {
    RegisterAll(RegisterAll(s, containers, true), leaves, false)
  }

  /** `init`: the containers first, then the leaves. */
  function Init(s: Tables): Tables {
    InitWith(s, ContainerTypes, LeafTypes)
  }

  /**
   * Registering a list adds exactly its names to both tables, gives each its
   * factory and keeps every other entry (stated for one name `n`).
   */
  lemma {:induction false} RegisterAllAt(s: Tables, names: seq<string>, container: bool, n: string)
    ensures n in RegisterAll(s, names, container).types <==> n in s.types || n in names
    ensures n in RegisterAll(s, names, container).strategies <==> n in s.strategies || n in names
    ensures n in names ==>
      RegisterAll(s, names, container).types[n] == n
      && RegisterAll(s, names, container).strategies[n] == FactoryFor(n, container)
    ensures n !in names && n in s.types ==> RegisterAll(s, names, container).types[n] == s.types[n]
    ensures n !in names && n in s.strategies ==> RegisterAll(s, names, container).strategies[n] == s.strategies[n]
    decreases |names|
  {
    if names != [] {
      var init := names[..|names| - 1];
      var last := names[|names| - 1];
      RegisterAllAt(s, init, container, n);
      assert n in names <==> n in init || n == last by {
        assert names == init + [last];
      }
    }
  }

  /** Registering a list keeps the two tables consistent. */
  lemma {:induction false} RegisterAllConsistent(s: Tables, names: seq<string>, container: bool)
    requires Consistent(s)
    ensures Consistent(RegisterAll(s, names, container))
    decreases |names|
  {
    if names != [] {
      var last := names[|names| - 1];
      RegisterAllConsistent(s, names[..|names| - 1], container);
      RegisterKeepsConsistent(RegisterAll(s, names[..|names| - 1], container), last, FactoryFor(last, container));
    }
  }

  /** Both lists, for one name that is not in both: where it ends up and with which factory. */
  lemma InitWithAt(s: Tables, containers: seq<string>, leaves: seq<string>, n: string)
    requires !(n in containers && n in leaves)
    ensures n in InitWith(s, containers, leaves).types <==> n in s.types || n in containers || n in leaves
    ensures n in InitWith(s, containers, leaves).strategies <==> n in s.strategies || n in containers || n in leaves
    ensures n in containers ==>
      InitWith(s, containers, leaves).types[n] == n
      && InitWith(s, containers, leaves).strategies[n] == ContainerFactory(n)
    ensures n in leaves ==>
      InitWith(s, containers, leaves).types[n] == n && InitWith(s, containers, leaves).strategies[n] == LeafFactory
    ensures n !in containers && n !in leaves && n in s.types ==>
      InitWith(s, containers, leaves).types[n] == s.types[n]
    ensures n !in containers && n !in leaves && n in s.strategies ==>
      InitWith(s, containers, leaves).strategies[n] == s.strategies[n]
  {
    RegisterAllAt(s, containers, true, n);
    RegisterAllAt(RegisterAll(s, containers, true), leaves, false, n);
  }

  /** Every listed container type has a `WidgetContainer` implementation, as `register_container` demands. */
  lemma ContainersHaveImpls()
    ensures forall i :: 0 <= i < |ContainerTypes| ==> ImplOf(ContainerTypes[i]).Some?
  {
  }

  /** The leaf list shares no name with the first twelve containers. */
  lemma LeavesAreNotEarlyContainers()
    ensures forall i, j :: 0 <= i < 12 && 0 <= j < |LeafTypes| ==> ContainerTypes[i] != LeafTypes[j]
  {
  }

  /** The leaf list shares no name with the last thirteen containers. */
  lemma LeavesAreNotLateContainers()
    ensures forall i, j :: 12 <= i < |ContainerTypes| && 0 <= j < |LeafTypes| ==> ContainerTypes[i] != LeafTypes[j]
  {
  }

  /** The two lists are disjoint, so every registered name has exactly one kind. */
  lemma ListsAreDisjoint()
    ensures forall n :: n in ContainerTypes ==> n !in LeafTypes
  {
    LeavesAreNotEarlyContainers();
    LeavesAreNotLateContainers();
  }

  /** After `init`, each listed container type has its container factory. */
  lemma InitRegistersContainers(s: Tables)
    ensures forall n :: n in ContainerTypes ==>
      n in Init(s).types && n in Init(s).strategies
      && Init(s).types[n] == n && Init(s).strategies[n] == ContainerFactory(n)
  {
    ListsAreDisjoint();
    forall n | n in ContainerTypes
      ensures n in Init(s).types && n in Init(s).strategies
      ensures Init(s).types[n] == n && Init(s).strategies[n] == ContainerFactory(n)
    {
      InitWithAt(s, ContainerTypes, LeafTypes, n);
    }
  }

  /** After `init`, each listed leaf type has the leaf factory. */
  lemma InitRegistersLeaves(s: Tables)
    ensures forall n :: n in LeafTypes ==>
      n in Init(s).types && n in Init(s).strategies
      && Init(s).types[n] == n && Init(s).strategies[n] == LeafFactory
  {
    ListsAreDisjoint();
    forall n | n in LeafTypes
      ensures n in Init(s).types && n in Init(s).strategies
      ensures Init(s).types[n] == n && Init(s).strategies[n] == LeafFactory
    {
      InitWithAt(s, ContainerTypes, LeafTypes, n);
    }
  }

  /** `init` adds exactly the 55 listed names and keeps every other entry. */
  lemma InitKeys(s: Tables)
    ensures forall n :: n in Init(s).types <==> n in s.types || n in ContainerTypes || n in LeafTypes
    ensures forall n :: n in s.strategies && n !in ContainerTypes && n !in LeafTypes ==>
      n in Init(s).strategies && Init(s).strategies[n] == s.strategies[n]
  {
    ListsAreDisjoint();
    forall n
      ensures n in Init(s).types <==> n in s.types || n in ContainerTypes || n in LeafTypes
      ensures n in s.strategies && n !in ContainerTypes && n !in LeafTypes ==>
        n in Init(s).strategies && Init(s).strategies[n] == s.strategies[n]
    {
      InitWithAt(s, ContainerTypes, LeafTypes, n);
    }
  }

  /** `init` keeps the two tables consistent. */
  lemma InitConsistent(s: Tables)
    requires Consistent(s)
    ensures Consistent(Init(s))
  {
    RegisterAllConsistent(s, ContainerTypes, true);
    RegisterAllConsistent(RegisterAll(s, ContainerTypes, true), LeafTypes, false);
  }

  /** With disjoint lists, registering both lists twice is the same as once. */
  lemma InitWithIdempotent(s: Tables, containers: seq<string>, leaves: seq<string>)
    requires forall n :: n in containers ==> n !in leaves
    ensures InitWith(InitWith(s, containers, leaves), containers, leaves) == InitWith(s, containers, leaves)
  {
    var once := InitWith(s, containers, leaves);
    var twice := InitWith(once, containers, leaves);
    forall n
      ensures n in twice.types <==> n in once.types
      ensures n in once.types ==> twice.types[n] == once.types[n]
      ensures n in twice.strategies <==> n in once.strategies
      ensures n in once.strategies ==> twice.strategies[n] == once.strategies[n]
    {
      InitWithAt(s, containers, leaves, n);
      InitWithAt(once, containers, leaves, n);
    }
    assert twice.types == once.types;
    assert twice.strategies == once.strategies;
  }

  /** Running `init` a second time changes nothing. */
  lemma InitIdempotent(s: Tables)
    ensures Init(Init(s)) == Init(s)
  {
    ListsAreDisjoint();
    InitWithIdempotent(s, ContainerTypes, LeafTypes);
  }

  /**
   * After `init`, a widget of a registered container type gets its own
   * `WidgetContainer` implementation from `get_strategy`.
   */
  lemma ContainerStrategies(s: Tables, w: Widget)
    requires w.typeName in ContainerTypes
    ensures ImplOf(w.typeName).Some? && StrategyFor(Init(s), w.typeName, w) == Container(ImplOf(w.typeName).value)
  {
    ListsAreDisjoint();
    ContainersHaveImpls();
    InitWithAt(s, ContainerTypes, LeafTypes, w.typeName);
  }

  lemma CheckButtonHasImpl()
    ensures ImplOf("GtkCheckButton") == Some(ChildProperty)
  {
  }

  /**
   * GtkGrid and GtkCheckButton are registered as leaves, so children given to
   * them go to the leaf strategy, although GtkCheckButton has an implementation.
   */
  lemma GridAndCheckButtonAreLeaves(s: Tables, w: Widget)
    ensures StrategyFor(Init(s), "GtkGrid", w) == Leaf
    ensures StrategyFor(Init(s), "GtkCheckButton", w) == Leaf
    ensures ImplOf("GtkCheckButton") == Some(ChildProperty)
  {
    CheckButtonHasImpl();
    ListsAreDisjoint();
    assert LeafTypes[0] == "GtkGrid";
    assert LeafTypes[22] == "GtkCheckButton";
    InitWithAt(s, ContainerTypes, LeafTypes, "GtkGrid");
    InitWithAt(s, ContainerTypes, LeafTypes, "GtkCheckButton");
  }

  /** Types with an implementation that `init` never registers. */
  const NeverRegistered: seq<string> :=
    ["GtkListBox", "GtkFlowBox", "GtkViewport", "GtkPopover", "GtkRevealer", "GtkWindowHandle"]

  lemma NeverRegisteredHaveImpls()
    ensures forall i :: 0 <= i < |NeverRegistered| ==> ImplOf(NeverRegistered[i]).Some?
  {
  }

  lemma NeverRegisteredAreListedNowhere()
    ensures forall n :: n in NeverRegistered ==> n !in ContainerTypes && n !in LeafTypes
  {
    assert forall i, j :: 0 <= i < |NeverRegistered| && 0 <= j < |ContainerTypes| ==> NeverRegistered[i] != ContainerTypes[j];
    assert forall i, j :: 0 <= i < |NeverRegistered| && 0 <= j < |LeafTypes| ==> NeverRegistered[i] != LeafTypes[j];
  }

  /**
   * GtkListBox, GtkFlowBox, GtkViewport, GtkPopover, GtkRevealer and
   * GtkWindowHandle have implementations but `init` does not register them:
   * `get_type` finds one of them afterwards only if it was registered before.
   */
  lemma UnregisteredTypes(s: Tables, n: string)
    requires n in NeverRegistered
    ensures n in Init(s).types <==> n in s.types
    ensures ImplOf(n).Some?
  {
    NeverRegisteredHaveImpls();
    NeverRegisteredAreListedNowhere();
    InitWithAt(s, ContainerTypes, LeafTypes, n);
  }

  /** Registers `names` with the factory of one list, one call per name. */
  method RegisterEach(r: Registry, names: seq<string>, container: bool)
    requires r.Valid()
    requires container ==> forall i :: 0 <= i < |names| ==> ImplOf(names[i]).Some?
    modifies r
    ensures r.Valid() && r.State() == RegisterAll(old(r.State()), names, container)
  {
    for i := 0 to |names|
      invariant r.Valid() && r.State() == RegisterAll(old(r.State()), names[..i], container)
    {
      assert names[..i + 1][..i] == names[..i];
      if container {
        r.RegisterContainer(names[i]);
      } else {
        r.RegisterLeaf(names[i]);
      }
    }
    assert names[..|names|] == names;
  }

  /** `init` on the shared registry. */
  method InitRegistry(r: Registry)
    requires r.Valid()
    modifies r
    ensures r.Valid() && r.State() == Init(old(r.State()))
  {
    ContainersHaveImpls();
    RegisterEach(r, ContainerTypes, true);
    RegisterEach(r, LeafTypes, false);
  }
}

=== FILE: config.dfy ===
/**
 * The command line (`Config::parse`): one flag turns on windowed mode, another
 * prints the usage text and ends the process with exit code 0.
 */
module CliConfig {

  datatype Config = Config(windowed: bool)

  /** `Config::default()`. */
  const Default: Config := Config(false)

  /** How parsing ends: with a configuration, or by leaving the process with an exit code. */
  datatype Parsed = Run(config: Config) | Exit(code: int)

  /** What parsing does with the arguments after the program name. */
  function Outcome(flags: seq<string>): Parsed {
    if "--help" in flags then Exit(0) else Run(Config("--windowed" in flags))
  }

  /**
   * `Config::parse` over `args` (`env::args()`, the program name first). The
   * loop stops at the first `--help`; `--windowed` before it sets the flag, and
   * every other argument is passed over.
   */
  method Parse(args: seq<string>) returns (r: Parsed)
    requires args != []
    ensures r == Outcome(args[1..])
    ensures r.Run? ==> (r.config.windowed <==> exists i :: 1 <= i < |args| && args[i] == "--windowed")
  {
    var config := Default;
    var flags := args[1..];
    for i := 0 to |flags|
      invariant "--help" !in flags[..i]
      invariant config.windowed <==> "--windowed" in flags[..i]
    {
      assert flags[..i + 1] == flags[..i] + [flags[i]];
      if flags[i] == "--windowed" {
        config := config.(windowed := true);
      } else if flags[i] == "--help" {
        return Exit(0);
      }
    }
    assert flags[..|flags|] == flags;
    r := Run(config);
    assert forall a :: a in flags <==> exists i :: 1 <= i < |args| && args[i] == a by {
      forall a ensures a in flags <==> exists i :: 1 <= i < |args| && args[i] == a {
        if a in flags {
          var j :| 0 <= j < |flags| && flags[j] == a;
          assert args[j + 1] == a;
        }
      }
    }
  }

  /** Without flags the default configuration is used. */
  lemma NoFlags(program: string)
    ensures Outcome([program][1..]) == Run(Default)
  {
  }

  /** The program name is never read as a flag, whatever it is. */
  lemma ProgramNameIgnored(a: string, b: string, flags: seq<string>)
    ensures Outcome(([a] + flags)[1..]) == Outcome(([b] + flags)[1..])
  {
    assert ([a] + flags)[1..] == flags == ([b] + flags)[1..];
  }

  /** An argument that is neither flag can be added anywhere without effect. */
  lemma {:induction false} UnknownArgumentIgnored(flags: seq<string>, i: nat, x: string)
    requires i <= |flags| && x != "--windowed" && x != "--help"
    ensures Outcome(flags[..i] + [x] + flags[i..]) == Outcome(flags)
  {
    var longer := flags[..i] + [x] + flags[i..];
    assert forall a :: a in longer <==> a == x || a in flags by {
      assert flags == flags[..i] + flags[i..];
    }
  }

  /** `--help` wins over `--windowed` wherever the two stand. */
  lemma HelpWins(before: seq<string>, after: seq<string>)
    ensures Outcome(before + ["--help"] + after) == Exit(0)
  {
    assert (before + ["--help"] + after)[|before|] == "--help";
  }
}

=== FILE: containers.dfy ===
/**
 * The container strategies: how each kind of GTK container takes a child
 * (`WidgetContainer::add_child`), and the leaf strategy that refuses.
 */
module Containers {
  import opened Wrappers
  import opened Lua
  import opened Gtk
  import opened LuaDriver

  /** One `WidgetContainer` implementation each. */
  datatype ContainerKind =
    | SetChild             // set_child: windows, dialogs, frames, buttons, ...
    | ChildProperty        // the "child" property: CheckButton, MenuButton
    | LockButtonImpl       // refuses with a warning
    | ListBoxAppend
    | FlowBoxInsert        // insert at position -1, the end
    | BoxAppend
    | CenterBoxSlots
    | HeaderBarPackEnd
    | StackTitled
    | ActionBarPackStart
    | NotebookPages
    | PanedPanes

  /** What `add_child` dispatches to: the leaf strategy or one container implementation. */
  datatype Strategy = Leaf | Container(kind: ContainerKind)

  const SetChildTypes: set<string> := {
    "GtkWindow", "GtkApplicationWindow", "GtkDialog", "GtkAboutDialog", "GtkAppChooserDialog",
    "GtkColorChooserDialog", "GtkFileChooserDialog", "GtkFontChooserDialog", "GtkMessageDialog",
    "GtkFrame", "GtkAspectFrame", "GtkScrolledWindow", "GtkOverlay", "GtkExpander", "GtkViewport",
    "GtkPopover", "GtkButton", "GtkToggleButton", "GtkLinkButton", "GtkRevealer", "GtkWindowHandle"}

  /** The `WidgetContainer` implementation a GTK type has, if any. */
  function ImplOf(t: string): (r: Option<ContainerKind>)
    ensures t in SetChildTypes ==> r == Some(SetChild)
  {
    if t in SetChildTypes then Some(SetChild)
    else if t == "GtkCheckButton" || t == "GtkMenuButton" then Some(ChildProperty)
    else if t == "GtkLockButton" then Some(LockButtonImpl)
    else if t == "GtkListBox" then Some(ListBoxAppend)
    else if t == "GtkFlowBox" then Some(FlowBoxInsert)
    else if t == "GtkBox" then Some(BoxAppend)
    else if t == "GtkCenterBox" then Some(CenterBoxSlots)
    else if t == "GtkHeaderBar" then Some(HeaderBarPackEnd)
    else if t == "GtkStack" then Some(StackTitled)
    else if t == "GtkActionBar" then Some(ActionBarPackStart)
    else if t == "GtkNotebook" then Some(NotebookPages)
    else if t == "GtkPaned" then Some(PanedPanes)
    else None
  }

  const LeafWarning: string := "Warn: Cannot add child to this widget (it might be a leaf)."
  const LockButtonWarning: string := "Warn: LockButton does not support adding arbitrary children."

  // ---- the child list -----------------------------------------------------------

  /** The widgets a parent holds in `slot`, in order. */
  function InSlot<W>(children: seq<(Slot, W)>, slot: Slot): (r: seq<W>)
    ensures |r| <= |children|
  {
    if children == [] then []
    else (if children[0].0 == slot then [children[0].1] else []) + InSlot(children[1..], slot)
  }

  /** The children with `slot` taken out. */
  function WithoutSlot(children: seq<(Slot, Widget)>, slot: Slot): (r: seq<(Slot, Widget)>)
    ensures forall i :: 0 <= i < |r| ==> r[i].0 != slot && r[i] in children
  {
    if children == [] then []
    else (if children[0].0 == slot then [] else [children[0]]) + WithoutSlot(children[1..], slot)
  }

  lemma {:induction false} InSlotAppend<W>(a: seq<(Slot, W)>, b: seq<(Slot, W)>, slot: Slot)
    ensures InSlot(a + b, slot) == InSlot(a, slot) + InSlot(b, slot)
  {
    if a == [] {
      assert a + b == b;
    } else {
      var c := a[0];
      var head: seq<W> := if c.0 == slot then [c.1] else [];
      assert a == [c] + a[1..];
      assert a + b == [c] + (a[1..] + b);
      InSlotCons(c, a[1..], slot);
      InSlotCons(c, a[1..] + b, slot);
      InSlotAppend(a[1..], b, slot);
      assert head + (InSlot(a[1..], slot) + InSlot(b, slot)) == (head + InSlot(a[1..], slot)) + InSlot(b, slot);
    }
  }

  lemma InSlotCons<W>(c: (Slot, W), rest: seq<(Slot, W)>, slot: Slot)
    ensures InSlot([c] + rest, slot) == (if c.0 == slot then [c.1] else []) + InSlot(rest, slot)
  {
    assert ([c] + rest)[0] == c;
    assert ([c] + rest)[1..] == rest;
  }

  lemma {:induction false} InSlotWithout(children: seq<(Slot, Widget)>, slot: Slot, other: Slot)
    ensures InSlot(WithoutSlot(children, slot), slot) == []
    ensures other != slot ==> InSlot(WithoutSlot(children, slot), other) == InSlot(children, other)
  {
    if children != [] {
      InSlotWithout(children[1..], slot, other);
      var head := if children[0].0 == slot then [] else [children[0]];
      InSlotAppend(head, WithoutSlot(children[1..], slot), slot);
      InSlotAppend(head, WithoutSlot(children[1..], slot), other);
    }
  }

  /** Setting the widget of a one-child slot: the old occupant leaves, the new one comes last. */
  function ReplaceSlot(children: seq<(Slot, Widget)>, slot: Slot, child: Widget): seq<(Slot, Widget)> {
    WithoutSlot(children, slot) + [(slot, child)]
  }

  /** After a replacement the slot holds exactly the new child, and no other slot changes. */
  lemma ReplaceSlotSpec(children: seq<(Slot, Widget)>, slot: Slot, child: Widget, other: Slot)
    ensures InSlot(ReplaceSlot(children, slot, child), slot) == [child]
    ensures other != slot ==> InSlot(ReplaceSlot(children, slot, child), other) == InSlot(children, other)
  {
    InSlotWithout(children, slot, other);
    InSlotAppend(WithoutSlot(children, slot), [(slot, child)], slot);
    InSlotAppend(WithoutSlot(children, slot), [(slot, child)], other);
  }

  // ---- add_child ----------------------------------------------------------------

  /** Which CenterBox slot a child goes to, from the `type_pos` field of its data. */
  function CenterSlotFor(data: SV): Slot {
    match StringField(data, "type_pos")
    case Some("start") => StartSlot
    case Some("end") => EndSlot
    case _ => CenterSlot
  }

  /** The child list after `add_child(child, data)` with strategy `s`. */
  function Attached(s: Strategy, children: seq<(Slot, Widget)>, child: Widget, data: SV): seq<(Slot, Widget)> {
    match s
    case Leaf => children
    case Container(kind) =>
      match kind
      case SetChild => ReplaceSlot(children, SingleChild, child)
      case ChildProperty => ReplaceSlot(children, SingleChild, child)
      case LockButtonImpl => children
      case ListBoxAppend => children + [(Appended, child)]
      case FlowBoxInsert => children + [(Appended, child)]
      case BoxAppend => children + [(Appended, child)]
      case CenterBoxSlots => ReplaceSlot(children, CenterSlotFor(data), child)
      case HeaderBarPackEnd => children + [(PackedEnd, child)]
      case StackTitled =>
        children + [(StackPage(StringField(data, "name"), StringField(data, "title").GetOr("Page")), child)]
      case ActionBarPackStart => children + [(PackedStart, child)]
      case NotebookPages => children + [(NotebookPage(Some(StringField(data, "tab_label").GetOr(""))), child)]
      case PanedPanes =>
        if InSlot(children, StartSlot) == [] then ReplaceSlot(children, StartSlot, child)
        else ReplaceSlot(children, EndSlot, child)
  }

  /** The warnings `add_child` prints. */
  function Warnings(s: Strategy): seq<string> {
    match s
    case Leaf => [LeafWarning]
    case Container(LockButtonImpl) => [LockButtonWarning]
    case _ => []
  }

  /** A GTK container widget whose child list `add_child` changes in place. */
  class ContainerWidget {
    var widget: Widget
    var warnings: seq<string>

    constructor (w: Widget)
      ensures widget == w && warnings == []
    {
      widget := w;
      warnings := [];
    }

    method AddChild(s: Strategy, child: Widget, data: SV)
      modifies this
      ensures widget == old(widget).(children := Attached(s, old(widget).children, child, data))
      ensures warnings == old(warnings) + Warnings(s)
    {
      match s {
        case Leaf =>
          warnings := warnings + [LeafWarning];
        case Container(kind) =>
          var children := widget.children;
          match kind {
            case SetChild =>
              children := ReplaceSlot(children, SingleChild, child);
            case ChildProperty =>
              children := ReplaceSlot(children, SingleChild, child);
            case LockButtonImpl =>
              warnings := warnings + [LockButtonWarning];
            case ListBoxAppend =>
              children := children + [(Appended, child)];
            case FlowBoxInsert =>
              children := children + [(Appended, child)];
            case BoxAppend =>
              children := children + [(Appended, child)];
            case CenterBoxSlots =>
              var pos := StringField(data, "type_pos");
              if pos == Some("start") {
                children := ReplaceSlot(children, StartSlot, child);
              } else if pos == Some("end") {
                children := ReplaceSlot(children, EndSlot, child);
              } else {
                children := ReplaceSlot(children, CenterSlot, child);
              }
            case HeaderBarPackEnd =>
              children := children + [(PackedEnd, child)];
            case StackTitled =>
              var name := StringField(data, "name");
              var title := StringField(data, "title");
              children := children + [(StackPage(name, title.GetOr("Page")), child)];
            case ActionBarPackStart =>
              children := children + [(PackedStart, child)];
            case NotebookPages =>
              var labelText := StringField(data, "tab_label");
              children := children + [(NotebookPage(Some(labelText.GetOr(""))), child)];
            case PanedPanes =>
              if InSlot(children, StartSlot) == [] {
                children := ReplaceSlot(children, StartSlot, child);
              } else {
                children := ReplaceSlot(children, EndSlot, child);
              }
          }
          widget := widget.(children := children);
      }
    }
  }

  // ---- what the strategies promise ------------------------------------------------

  /** The leaf strategy and LockButton change nothing (they only warn). */
  lemma RefusingStrategiesChangeNothing(children: seq<(Slot, Widget)>, child: Widget, data: SV)
    ensures Attached(Leaf, children, child, data) == children
    ensures Attached(Container(LockButtonImpl), children, child, data) == children
    ensures Warnings(Leaf) != [] && Warnings(Container(LockButtonImpl)) != []
  {
  }

  /** Attaching children one after another, each with its own data. */
  function AttachAll(s: Strategy, children: seq<(Slot, Widget)>, kids: seq<Widget>, data: seq<SV>): seq<(Slot, Widget)>
    requires |kids| == |data|
    decreases |kids|
  {
    if kids == [] then children
    else AttachAll(s, Attached(s, children, kids[0], data[0]), kids[1..], data[1..])
  }

  /** The set-child family keeps at most one child: the last one given. */
  lemma {:induction false} SetChildKeepsLast(kind: ContainerKind, children: seq<(Slot, Widget)>, kids: seq<Widget>, data: seq<SV>)
    requires kind == SetChild || kind == ChildProperty
    requires |kids| == |data| && kids != []
    ensures InSlot(AttachAll(Container(kind), children, kids, data), SingleChild) == [kids[|kids| - 1]]
    decreases |kids|
  {
    var next := Attached(Container(kind), children, kids[0], data[0]);
    ReplaceSlotSpec(children, SingleChild, kids[0], SingleChild);
    if |kids| > 1 {
      SetChildKeepsLast(kind, next, kids[1..], data[1..]);
    }
  }

  /** Box, ListBox and FlowBox add at the end, so children stay in call order. */
  lemma AppendKeepsCallOrder(kind: ContainerKind, children: seq<(Slot, Widget)>, kids: seq<Widget>, data: seq<SV>)
    requires kind == BoxAppend || kind == ListBoxAppend || kind == FlowBoxInsert
    requires |kids| == |data|
    ensures AttachAll(Container(kind), children, kids, data) == children + Tagged(Appended, kids)
    ensures InSlot(AttachAll(Container(kind), children, kids, data), Appended) == InSlot(children, Appended) + kids
  {
    AppendAll(kind, children, kids, data);
    TaggedInSlot(Appended, kids);
    InSlotAppend(children, Tagged(Appended, kids), Appended);
  }

  lemma AttachedAppends(kind: ContainerKind, children: seq<(Slot, Widget)>, child: Widget, d: SV)
    requires kind == BoxAppend || kind == ListBoxAppend || kind == FlowBoxInsert
    ensures Attached(Container(kind), children, child, d) == children + [(Appended, child)]
  {
  }

  lemma {:induction false} AppendAll(kind: ContainerKind, children: seq<(Slot, Widget)>, kids: seq<Widget>, data: seq<SV>)
    requires kind == BoxAppend || kind == ListBoxAppend || kind == FlowBoxInsert
    requires |kids| == |data|
    ensures AttachAll(Container(kind), children, kids, data) == children + Tagged(Appended, kids)
    decreases |kids|
  {
    if kids == [] {
      assert children + Tagged(Appended, kids) == children;
    } else {
      var next := children + [(Appended, kids[0])];
      AttachedAppends(kind, children, kids[0], data[0]);
      assert AttachAll(Container(kind), children, kids, data) == AttachAll(Container(kind), next, kids[1..], data[1..]);
      AppendAll(kind, next, kids[1..], data[1..]);
      var t := Tagged(Appended, kids[1..]);
      assert Tagged(Appended, kids) == [(Appended, kids[0])] + t;
      assert next + t == children + ([(Appended, kids[0])] + t);
    }
  }

  /** The widgets `kids`, each placed in `slot`. */
  function Tagged(slot: Slot, kids: seq<Widget>): (r: seq<(Slot, Widget)>)
    ensures |r| == |kids|
  {
    if kids == [] then [] else [(slot, kids[0])] + Tagged(slot, kids[1..])
  }

  /** The `i`th tagged entry is the `i`th widget, in `slot`. */
  lemma {:induction false} TaggedAt(slot: Slot, kids: seq<Widget>, i: nat)
    requires i < |kids|
    ensures Tagged(slot, kids)[i] == (slot, kids[i])
  {
    if i > 0 {
      TaggedAt(slot, kids[1..], i - 1);
    }
  }

  lemma {:induction false} TaggedInSlot(slot: Slot, kids: seq<Widget>)
    ensures InSlot(Tagged(slot, kids), slot) == kids
  {
    if kids != [] {
      TaggedInSlot(slot, kids[1..]);
    }
  }

  /** CenterBox: `type_pos` "start" and "end" pick those slots, anything else the center; other slots keep their widget. */
  lemma CenterBoxPlacement(children: seq<(Slot, Widget)>, child: Widget, data: SV, other: Slot)
    ensures var after := Attached(Container(CenterBoxSlots), children, child, data);
      var slot := if StringField(data, "type_pos") == Some("start") then StartSlot
        else if StringField(data, "type_pos") == Some("end") then EndSlot else CenterSlot;
      InSlot(after, slot) == [child] && (other != slot ==> InSlot(after, other) == InSlot(children, other))
  {
    ReplaceSlotSpec(children, CenterSlotFor(data), child, other);
  }

  /**
   * Paned: on an empty pane, the first child becomes the start pane and is never
   * replaced; every later child replaces the end pane.
   */
  lemma {:induction false} PanedStartThenEnd(children: seq<(Slot, Widget)>, kids: seq<Widget>, data: seq<SV>)
    requires |kids| == |data| && kids != []
    requires InSlot(children, StartSlot) == []
    ensures InSlot(AttachAll(Container(PanedPanes), children, kids, data), StartSlot) == [kids[0]]
    ensures |kids| > 1 ==> InSlot(AttachAll(Container(PanedPanes), children, kids, data), EndSlot) == [kids[|kids| - 1]]
  {
    var first := Attached(Container(PanedPanes), children, kids[0], data[0]);
    ReplaceSlotSpec(children, StartSlot, kids[0], EndSlot);
    if |kids| > 1 {
      PanedLaterKids(first, kids[0], kids[1..], data[1..]);
    }
  }

  lemma {:induction false} PanedLaterKids(children: seq<(Slot, Widget)>, start: Widget, kids: seq<Widget>, data: seq<SV>)
    requires |kids| == |data| && kids != []
    requires InSlot(children, StartSlot) == [start]
    ensures InSlot(AttachAll(Container(PanedPanes), children, kids, data), StartSlot) == [start]
    ensures InSlot(AttachAll(Container(PanedPanes), children, kids, data), EndSlot) == [kids[|kids| - 1]]
    decreases |kids|
  {
    var next := Attached(Container(PanedPanes), children, kids[0], data[0]);
    ReplaceSlotSpec(children, EndSlot, kids[0], StartSlot);
    if |kids| > 1 {
      PanedLaterKids(next, start, kids[1..], data[1..]);
    }
  }

  /** Stack pages carry the optional `name` and the `title`, which defaults to "Page". */
  lemma StackPageTitle(children: seq<(Slot, Widget)>, child: Widget, data: SV)
    ensures var page := Attached(Container(StackTitled), children, child, data)[|children|];
      page.1 == child && page.0.pageName == StringField(data, "name")
      && page.0.title == (if StringField(data, "title").Some? then StringField(data, "title").value else "Page")
  {
  }

  /** Notebook tabs are labelled from `tab_label`, with an empty label when it is absent. */
  lemma NotebookTabLabel(children: seq<(Slot, Widget)>, child: Widget, data: SV)
    ensures var page := Attached(Container(NotebookPages), children, child, data)[|children|];
      page.1 == child && page.0.tabLabel == Some(if StringField(data, "tab_label").Some? then StringField(data, "tab_label").value else "")
  {
  }

  /** HeaderBar packs at the end and ActionBar at the start; nothing is replaced. */
  lemma BarsPack(children: seq<(Slot, Widget)>, child: Widget, data: SV)
    ensures Attached(Container(HeaderBarPackEnd), children, child, data) == children + [(PackedEnd, child)]
    ensures Attached(Container(ActionBarPackStart), children, child, data) == children + [(PackedStart, child)]
  {
  }
}

=== FILE: converter.dfy ===
/**
 * `GenericConverter`: turning a script value into a `glib::Value` of a given
 * property type, or saying why it cannot be done.
 */
module Converter {
  import opened Wrappers
  import opened Lua
  import opened Casts
  import opened Gtk
  import opened LuaDriver

  /** Which refusal produced an `UnsupportedType` (each has its own message). */
  datatype Unsupported =
    | StringTo             // "Cannot convert string to target type"
    | EnumHasNoClass       // "Target type is not an enum"
    | BoolTo               // "Cannot convert boolean to target type"
    | NumberTo             // "Cannot convert number to target type"
    | ArrayTo              // "Cannot convert array to target type"
    | NoConversion(value: SV)  // "No suitable conversion found for value"

  datatype ConversionError =
    | UnsupportedType(why: Unsupported, target: Target)
    | InvalidValue(message: string)
    | EnumConversion(value: string, target: Target)
    | Other(message: string)

  predicate IsEnumType(t: Target) { !t.enumInfo.NotEnum? }

  /** The position of the first member with that nick. */
  function NickIndex(members: seq<EnumMember>, nick: string): (r: Option<nat>)
    ensures r.None? <==> forall i :: 0 <= i < |members| ==> members[i].nick != nick
    ensures r.Some? ==> (r.value < |members| && members[r.value].nick == nick
      && forall j :: 0 <= j < r.value ==> members[j].nick != nick)
  {
    if members == [] then None
    else if members[0].nick == nick then Some(0)
    else
      match NickIndex(members[1..], nick)
      case None => None
      case Some(i) => Some(i + 1)
  }

  /** `value_by_nick`: the value of the first member with that nick. */
  function ValueByNick(members: seq<EnumMember>, nick: string): Option<int> {
    match NickIndex(members, nick)
    case Some(i) => Some(members[i].value)
    case None => None
  }

  function ConvertString(v: SV, target: Target): Result<GValue, ConversionError> {
    match AsString(v)
    case None => Err(InvalidValue("Expected string"))
    case Some(s) =>
      if target == StringType then Ok(GStr(s))
      else if IsEnumType(target) then
        match target.enumInfo
        case EnumClass(members) =>
          (match ValueByNick(members, s)
           case Some(n) => Ok(GEnum(target.name, n))
           case None => Err(EnumConversion(s, target)))
        case _ => Err(UnsupportedType(EnumHasNoClass, target))
      else Err(UnsupportedType(StringTo, target))
  }

  function ConvertBool(v: SV, target: Target): Result<GValue, ConversionError> {
    if target == BoolType then
      match AsBool(v)
      case Some(b) => Ok(GBool(b))
      case None => Err(InvalidValue("Expected boolean"))
    else Err(UnsupportedType(BoolTo, target))
  }

  function ConvertNumber(v: SV, target: Target): Result<GValue, ConversionError> {
    match AsNumber(v)
    case None => Err(InvalidValue("Expected number"))
    case Some(n) =>
      if target == I32Type then Ok(GI32(F64ToI32(n)))
      else if target == U32Type then Ok(GU32(F64ToU32(n)))
      else if target == I64Type then Ok(GI64(F64ToI64(n)))
      else if target == F64Type then Ok(GF64(n))
      else if target == F32Type then Ok(GF32(n))
      else Err(UnsupportedType(NumberTo, target))
  }

  /** The `filter_map(as_string)` over array items: the valid UTF-8 strings, in order. */
  function StringItems(items: seq<SV>): (r: seq<string>)
    ensures |r| <= |items|
    ensures forall s :: s in r <==> Str(Utf8(s)) in items
    ensures (forall i :: 0 <= i < |items| ==> AsString(items[i]).Some?) ==>
      |r| == |items| && forall i :: 0 <= i < |items| ==> items[i] == Str(Utf8(r[i]))
  {
    if items == [] then []
    else
      var rest := StringItems(items[1..]);
      match AsString(items[0])
      case Some(s) => [s] + rest
      case None => rest
  }

  /** One item contributes its text when it is a valid string, and nothing otherwise. */
  lemma StringItemsOne(x: SV)
    ensures StringItems([x]) == if AsString(x).Some? then [AsString(x).value] else []
  {
    assert [x][1..] == [];
  }

  /**
   * The strings of two runs of items are those of the first run followed by those of the
   * second: non-string items are dropped and the order of the rest is kept.
   */
  lemma {:induction false} StringItemsAppend(a: seq<SV>, b: seq<SV>)
    ensures StringItems(a + b) == StringItems(a) + StringItems(b)
  {
    if a != [] {
      assert (a + b)[0] == a[0] && (a + b)[1..] == a[1..] + b;
      StringItemsAppend(a[1..], b);
    } else {
      assert a + b == b;
    }
  }

  /** A mixed array keeps its strings in order, e.g. `{"a", 1, "b"}` gives `["a", "b"]`. */
  lemma StringItemsMixed()
    ensures StringItems([Str(Utf8("a")), Int(1), Str(Utf8("b"))]) == ["a", "b"]
  {
    var x, y, z := Str(Utf8("a")), Int(1), Str(Utf8("b"));
    assert [x, y, z] == [x] + ([y] + [z]);
    StringItemsAppend([x], [y] + [z]);
    StringItemsAppend([y], [z]);
    StringItemsOne(x);
    StringItemsOne(y);
    StringItemsOne(z);
  }

  function ConvertArray(v: SV, target: Target): Result<GValue, ConversionError> {
    if target == StrVType then
      match GetArrayItems(v)
      case Some(items) => Ok(GStrV(StringItems(items)))
      case None => Err(InvalidValue("Expected array"))
    else Err(UnsupportedType(ArrayTo, target))
  }

  /**
   * `to_gvalue`: strings, then booleans, then numbers, then tables; anything else
   * is unsupported. A produced value always has the requested type.
   */
  function ToGValue(v: SV, target: Target): (r: Result<GValue, ConversionError>)
    ensures r.Ok? ==> TypeOf(r.value) == target.name
    ensures (v.Nil? || v.Func? || v.UserData?) ==> r == Err(UnsupportedType(NoConversion(v), target))
  {
    if IsString(v) then ConvertString(v, target)
    else if IsBool(v) then ConvertBool(v, target)
    else if IsNumber(v) then ConvertNumber(v, target)
    else if GetArrayItems(v).Some? then ConvertArray(v, target)
    else Err(UnsupportedType(NoConversion(v), target))
  }

  /** A valid string becomes exactly that string for a String property. */
  lemma StringToStringProperty(s: string)
    ensures ToGValue(Str(Utf8(s)), StringType) == Ok(GStr(s))
  {
  }

  /**
   * A string for an enum property selects the first member with that nick, and is
   * an `EnumConversion` error when no nick matches.
   */
  lemma StringToEnumProperty(s: string, name: string, members: seq<EnumMember>)
    requires Target(name, EnumClass(members)) != StringType
    ensures var r := ToGValue(Str(Utf8(s)), Target(name, EnumClass(members)));
      (exists i :: 0 <= i < |members| && members[i].nick == s && r == Ok(GEnum(name, members[i].value))
        && forall j :: 0 <= j < i ==> members[j].nick != s)
      || ((forall i :: 0 <= i < |members| ==> members[i].nick != s)
        && r == Err(EnumConversion(s, Target(name, EnumClass(members)))))
  {
  }

  /** A string for a property that is neither a string nor an enum with a class is unsupported. */
  lemma StringToOtherProperty(s: string, target: Target)
    requires target != StringType && !target.enumInfo.EnumClass?
    ensures ToGValue(Str(Utf8(s)), target).Err? && ToGValue(Str(Utf8(s)), target).error.UnsupportedType?
  {
  }

  /** A string whose bytes are not UTF-8 is refused whatever the property. */
  lemma BinaryStringIsInvalid(bytes: seq<bv8>, target: Target)
    ensures ToGValue(Str(NotUtf8(bytes)), target) == Err(InvalidValue("Expected string"))
  {
  }

  /** A boolean converts to a boolean property and to nothing else. */
  lemma BoolConvertsOnlyToBool(b: bool, target: Target)
    ensures ToGValue(Bool(b), target) ==
      if target == BoolType then Ok(GBool(b)) else Err(UnsupportedType(BoolTo, target))
  {
  }

  /** A number converts exactly to the five numeric property types. */
  lemma NumberTargets(v: SV, target: Target)
    requires IsNumber(v)
    ensures ToGValue(v, target).Ok? <==> target in {I32Type, U32Type, I64Type, F64Type, F32Type}
    ensures target == I32Type ==> ToGValue(v, target) == Ok(GI32(F64ToI32(AsNumber(v).value)))
    ensures target == U32Type ==> ToGValue(v, target) == Ok(GU32(F64ToU32(AsNumber(v).value)))
    ensures target == I64Type ==> ToGValue(v, target) == Ok(GI64(F64ToI64(AsNumber(v).value)))
    ensures target == F64Type ==> ToGValue(v, target) == Ok(GF64(AsNumber(v).value))
    ensures target == F32Type ==> ToGValue(v, target) == Ok(GF32(AsNumber(v).value))
  {
  }

  /**
   * A table converts only to a string-list property: its valid strings, in order.
   * Every other value kind is refused.
   */
  lemma TableTargets(v: SV, target: Target)
    requires v.Table?
    ensures ToGValue(v, target) ==
      if target == StrVType then Ok(GStrV(StringItems(SequenceValues(v.entries))))
      else Err(UnsupportedType(ArrayTo, target))
  {
  }
}

=== FILE: dbus.dfy ===
/**
 * The two D-Bus services (`org.freedesktop.Notifications` and
 * `org.kde.StatusNotifierWatcher`): what each method answers and what it sends
 * on the channel to the Lua side.
 */
module DbusService {

  datatype Notification = Notification(appName: string, summary: string, body: string, timeout: int)

  datatype TrayUpdate = ItemRegistered(service: string)

  datatype DbusUpdate = NotificationUpdate(n: Notification) | Tray(t: TrayUpdate)

  /** `get_capabilities`. */
  const Capabilities: seq<string> := ["body", "summary"]

  /** `get_server_information`: name, vendor, version, specification version. */
  const ServerInformation: (string, string, string, string) := ("Ink", "ink-org", "0.1.0", "1.2")

  /** `is_status_notifier_host_registered` and `protocol_version`. */
  const HostRegistered: bool := true
  const ProtocolVersion: int := 0

  /** The sending end of the update channel, as the log of what went through it. */
  class Channel {
    var sent: seq<DbusUpdate>

    constructor ()
      ensures sent == []
    {
      sent := [];
    }
  }

  class NotificationServer {
    const sender: Channel

    constructor (sender: Channel)
      ensures this.sender == sender
    {
      this.sender := sender;
    }

    /**
     * `notify`: forwards the application name, summary, body and timeout
     * unchanged and answers 1; the id to replace, the icon, the actions and the
     * hints are not used.
     */
    method Notify(appName: string, replacesId: int, appIcon: string, summary: string, body: string,
                  actions: seq<string>, timeout: int) returns (id: int)
      modifies sender
      ensures id == 1
      ensures sender.sent == old(sender.sent) + [NotificationUpdate(Notification(appName, summary, body, timeout))]
    {
      sender.sent := sender.sent + [NotificationUpdate(Notification(appName, summary, body, timeout))];
      id := 1;
    }
  }

  /** A list with no element twice. */
  predicate NoDuplicates(items: seq<string>) {
    forall i, j :: 0 <= i < j < |items| ==> items[i] != items[j]
  }

  /** The item list after a registration: a new service is added at the end, a known one changes nothing. */
  function Registered(items: seq<string>, service: string): (r: seq<string>)
    ensures service in r
    ensures forall s :: s in r <==> s in items || s == service
  {
    if service in items then items else items + [service]
  }

  /** The updates a registration sends: one for a new service, none for a known one. */
  function Announced(items: seq<string>, service: string): (r: seq<DbusUpdate>)
    ensures |r| <= 1
    ensures r == [] <==> service in items
  {
    if service in items then [] else [Tray(ItemRegistered(service))]
  }

  class StatusNotifierWatcher {
    const sender: Channel
    var items: seq<string>

    /** The item list never holds a service twice. */
    ghost predicate Valid()
      reads this
    {
      NoDuplicates(items)
    }

    constructor (sender: Channel)
      ensures this.sender == sender && items == [] && Valid()
    {
      this.sender := sender;
      items := [];
    }

    /** `register_status_notifier_item`. */
    method RegisterItem(service: string)
      requires Valid()
      modifies this, sender
      ensures Valid()
      ensures items == Registered(old(items), service)
      ensures sender.sent == old(sender.sent) + Announced(old(items), service)
    {
      if service !in items {
        items := items + [service];
        sender.sent := sender.sent + [Tray(ItemRegistered(service))];
      }
    }

    /** `registered_status_notifier_items`: the services, in the order they registered. */
    function RegisteredItems(): (r: seq<string>)
      reads this
      ensures r == items
      ensures Valid() ==> NoDuplicates(r)
    {
      items
    }
  }

  /** Registering keeps the list free of duplicates. */
  lemma RegisteredKeepsDistinct(items: seq<string>, service: string)
    requires NoDuplicates(items)
    ensures NoDuplicates(Registered(items, service))
  {
  }

  /** Registering twice is registering once, and the second time sends nothing. */
  lemma RegisterIdempotent(items: seq<string>, service: string)
    ensures Registered(Registered(items, service), service) == Registered(items, service)
    ensures Announced(Registered(items, service), service) == []
  {
  }

  /** Services registered one after the other, each new one at the end. */
  function RegisteredAll(items: seq<string>, services: seq<string>): seq<string>
    decreases |services|
  {
    if services == [] then items else RegisteredAll(Registered(items, services[0]), services[1..])
  }

  /**
   * After any sequence of registrations the list holds every service once:
   * exactly the ones registered, the earlier list kept as its prefix.
   */
  lemma {:induction false} RegisteredAllSpec(items: seq<string>, services: seq<string>)
    requires NoDuplicates(items)
    ensures NoDuplicates(RegisteredAll(items, services))
    ensures forall s :: s in RegisteredAll(items, services) <==> s in items || s in services
    ensures |items| <= |RegisteredAll(items, services)| && RegisteredAll(items, services)[..|items|] == items
    decreases |services|
  {
    if services != [] {
      var next := Registered(items, services[0]);
      RegisteredKeepsDistinct(items, services[0]);
      RegisteredAllSpec(next, services[1..]);
      assert forall s :: s in services <==> s == services[0] || s in services[1..] by {
        assert services == [services[0]] + services[1..];
      }
      assert next[..|items|] == items;
      assert RegisteredAll(items, services)[..|items|] == RegisteredAll(items, services)[..|next|][..|items|];
    }
  }
}

=== FILE: desktop_entry.dfy ===
/**
 * The `[Desktop Entry]` reader (`DesktopEntry::parse_from_string`): the
 * application name and icon of a `.desktop` file.
 */
module DesktopEntry {
  import opened Wrappers
  import opened Text

  datatype Entry = Entry(name: Option<string>, icon: Option<string>)

  const SectionHeader: string := "[Desktop Entry]"

  /** A trimmed line that opens a section: it starts with `[` and ends with `]`. */
  predicate IsHeader(t: string) {
    t != [] && t[0] == '[' && t[|t| - 1] == ']'
  }

  /** Whether the lines after `line` are inside the desktop-entry section. */
  function SectionAfter(line: string, inSection: bool): bool {
    var t := Trim(line);
    if IsHeader(t) then t == SectionHeader else inSection
  }

  /** Whether the lines after all of `lines` are inside the section (none are before the first header). */
  function SectionAt(lines: seq<string>): bool
    decreases |lines|
  {
    if lines == [] then false else SectionAfter(lines[|lines| - 1], SectionAt(lines[..|lines| - 1]))
  }

  /**
   * The key and value one line contributes: none for a header, a line outside
   * the section, a blank or `#` line, or a line without `=`; otherwise the line
   * split at its first `=`, both halves trimmed.
   */
  function PairOf(line: string, inSection: bool): (r: Option<(string, string)>)
    ensures r.Some? ==> inSection && '=' in Trim(line)
  {
    var t := Trim(line);
    if IsHeader(t) || !inSection || t == [] || t[0] == '#' then None
    else match SplitOnce(t, '=')
      case None => None
      case Some((k, v)) => Some((Trim(k), Trim(v)))
  }

  /** The key/value pairs the lines contribute, in order. */
  function Pairs(lines: seq<string>): seq<(string, string)>
    decreases |lines|
  {
    if lines == [] then []
    else
      var before := lines[..|lines| - 1];
      match PairOf(lines[|lines| - 1], SectionAt(before))
      case Some(p) => Pairs(before) + [p]
      case None => Pairs(before)
  }

  predicate IsLocalisedName(k: string) {
    StartsWith(k, "Name[")
  }

  /** The value of the last pair with key `key`. */
  function LastValue(pairs: seq<(string, string)>, key: string): Option<string>
    decreases |pairs|
  {
    if pairs == [] then None
    else if pairs[|pairs| - 1].0 == key then Some(pairs[|pairs| - 1].1)
    else LastValue(pairs[..|pairs| - 1], key)
  }

  /** LastValue finds the last pair with the key, and finds nothing only when there is none. */
  lemma {:induction false} LastValueSpec(pairs: seq<(string, string)>, key: string)
    ensures LastValue(pairs, key).None? <==> forall i :: 0 <= i < |pairs| ==> pairs[i].0 != key
    ensures LastValue(pairs, key).Some? ==>
      (exists i :: 0 <= i < |pairs| && pairs[i] == (key, LastValue(pairs, key).value)
        && (forall j :: i < j < |pairs| ==> pairs[j].0 != key))
    decreases |pairs|
  {
    if pairs != [] && pairs[|pairs| - 1].0 != key {
      var before := pairs[..|pairs| - 1];
      LastValueSpec(before, key);
      assert forall i :: 0 <= i < |before| ==> before[i] == pairs[i];
    }
  }

  /** The value of the first pair with a localised name key (`Name[...]`). */
  function FirstLocalisedName(pairs: seq<(string, string)>): Option<string>
    decreases |pairs|
  {
    if pairs == [] then None
    else
      match FirstLocalisedName(pairs[..|pairs| - 1])
      case Some(v) => Some(v)
      case None => if IsLocalisedName(pairs[|pairs| - 1].0) then Some(pairs[|pairs| - 1].1) else None
  }

  /** FirstLocalisedName finds the first localised name, and finds nothing only when there is none. */
  lemma {:induction false} FirstLocalisedNameSpec(pairs: seq<(string, string)>)
    ensures FirstLocalisedName(pairs).None? <==> forall i :: 0 <= i < |pairs| ==> !IsLocalisedName(pairs[i].0)
    ensures FirstLocalisedName(pairs).Some? ==>
      (exists i :: 0 <= i < |pairs| && IsLocalisedName(pairs[i].0)
        && pairs[i].1 == FirstLocalisedName(pairs).value && (forall j :: 0 <= j < i ==> !IsLocalisedName(pairs[j].0)))
    decreases |pairs|
  {
    if pairs != [] {
      var before := pairs[..|pairs| - 1];
      FirstLocalisedNameSpec(before);
      assert forall i :: 0 <= i < |before| ==> before[i] == pairs[i];
    }
  }

  /** The name: the last plain `Name`, and only without one the first localised name. */
  function NameOf(pairs: seq<(string, string)>): Option<string> {
    match LastValue(pairs, "Name")
    case Some(v) => Some(v)
    case None => FirstLocalisedName(pairs)
  }

  /** The entry a list of pairs describes, if it names anything. */
  function EntryOf(pairs: seq<(string, string)>): Option<Entry> {
    var name := NameOf(pairs);
    var icon := LastValue(pairs, "Icon");
    if name.Some? || icon.Some? then Some(Entry(name, icon)) else None
  }

  /** There is no entry exactly when no pair is a name, a localised name or an icon. */
  lemma EntryOfNone(pairs: seq<(string, string)>)
    ensures EntryOf(pairs).None? <==> forall i :: 0 <= i < |pairs| ==>
      pairs[i].0 != "Name" && !IsLocalisedName(pairs[i].0) && pairs[i].0 != "Icon"
  {
    LastValueSpec(pairs, "Name");
    LastValueSpec(pairs, "Icon");
    FirstLocalisedNameSpec(pairs);
  }

  /** One more line: the section flag moves on and the line's pair, if any, is added. */
  lemma PairsStep(lines: seq<string>, i: nat)
    requires i < |lines|
    ensures SectionAt(lines[..i + 1]) == SectionAfter(lines[i], SectionAt(lines[..i]))
    ensures Pairs(lines[..i + 1]) == match PairOf(lines[i], SectionAt(lines[..i]))
      case Some(p) => Pairs(lines[..i]) + [p]
      case None => Pairs(lines[..i])
  {
    var prefix := lines[..i + 1];
    assert prefix[..i] == lines[..i] && prefix[i] == lines[i];
  }

  /** One more pair: how the name and the icon change. */
  lemma NameIconStep(pairs: seq<(string, string)>, k: string, v: string)
    ensures NameOf(pairs + [(k, v)]) ==
      if k == "Name" || (IsLocalisedName(k) && NameOf(pairs).None?) then Some(v) else NameOf(pairs)
    ensures LastValue(pairs + [(k, v)], "Icon") == if k == "Icon" then Some(v) else LastValue(pairs, "Icon")
  {
    var after := pairs + [(k, v)];
    assert after[..|after| - 1] == pairs;
  }

  /**
   * `parse_from_string`: walks the lines keeping the name, the icon and whether
   * the current line is inside the section. A plain `Name` always sets the
   * name, a localised one only while no name is set; the last `Icon` wins.
   */
  method ParseFromString(content: string) returns (r: Option<Entry>)
    ensures r == EntryOf(Pairs(Lines(content)))
  {
    var lines := Lines(content);
    var name: Option<string> := None;
    var icon: Option<string> := None;
    var inSection := false;
    for i := 0 to |lines|
      invariant inSection == SectionAt(lines[..i])
      invariant name == NameOf(Pairs(lines[..i]))
      invariant icon == LastValue(Pairs(lines[..i]), "Icon")
    {
      PairsStep(lines, i);
      var line := Trim(lines[i]);
      if IsHeader(line) {
        inSection := line == SectionHeader;
        continue;
      }
      if !inSection || line == [] || line[0] == '#' {
        continue;
      }
      match SplitOnce(line, '=') {
        case None =>
        case Some((k, v)) =>
          var key := Trim(k);
          var value := Trim(v);
          NameIconStep(Pairs(lines[..i]), key, value);
          if key == "Name" || IsLocalisedName(key) {
            if name.None? || key == "Name" {
              name := Some(value);
            }
          } else if key == "Icon" {
            icon := Some(value);
          }
      }
    }
    assert lines[..|lines|] == lines;
    if name.Some? || icon.Some? {
      r := Some(Entry(name, icon));
    } else {
      r := None;
    }
  }

  /**
   * `parse_from_file`: the entry of the file's text, or None when the file
   * cannot be read (`read` is the outcome of reading it).
   */
  method ParseFromFile(read: Option<string>) returns (r: Option<Entry>)
    ensures read.None? ==> r.None?
    ensures read.Some? ==> r == EntryOf(Pairs(Lines(read.value)))
  {
    if read.None? {
      return None;
    }
    r := ParseFromString(read.value);
  }

  /** Lines before any `[Desktop Entry]` header count for nothing. */
  lemma {:induction false} NoSectionNoPairs(lines: seq<string>)
    requires forall i :: 0 <= i < |lines| ==> Trim(lines[i]) != SectionHeader
    ensures !SectionAt(lines) && Pairs(lines) == []
    decreases |lines|
  {
    if lines != [] {
      var before := lines[..|lines| - 1];
      assert forall i :: 0 <= i < |before| ==> before[i] == lines[i];
      NoSectionNoPairs(before);
    }
  }

  /** A plain `Name` pair anywhere beats every localised name: the name is the last plain one. */
  lemma PlainNameWins(pairs: seq<(string, string)>, i: nat)
    requires i < |pairs| && pairs[i].0 == "Name"
    ensures NameOf(pairs).Some?
    ensures exists j :: i <= j < |pairs| && pairs[j] == ("Name", NameOf(pairs).value)
  {
    LastValueSpec(pairs, "Name");
  }
}

=== FILE: gtk.dfy ===
/**
 * The slice of GTK 4 and GLib the core talks to: type names and the is-a
 * relation between them, `glib::Value`s, property types, and widgets as trees.
 *
 * A GLib type is identified by its name: GLib keeps type names unique, and the
 * core only ever looks types up by name (`Type::from_name`, `t.name()`).
 */
module Gtk {
  import opened Wrappers
  import opened Text
  import opened Lua

  const ApplicationWindow: string := "GtkApplicationWindow"
  const Window: string := "GtkWindow"
  const Button: string := "GtkButton"
  const Box: string := "GtkBox"
  const Label: string := "GtkLabel"
  const Editable: string := "GtkEditable"

  /** Types that are a GtkWindow (GTK 4 class hierarchy). */
  const WindowTypes: set<string> := {
    "GtkWindow", "GtkApplicationWindow", "GtkDialog", "GtkAboutDialog", "GtkAppChooserDialog",
    "GtkColorChooserDialog", "GtkFileChooserDialog", "GtkFontChooserDialog", "GtkMessageDialog",
    "GtkAssistant", "GtkShortcutsWindow", "GtkPageSetupUnixDialog", "GtkPrintUnixDialog"}

  /** Types that are a GtkButton. GtkCheckButton, GtkMenuButton and GtkColorButton are not. */
  const ButtonTypes: set<string> := {"GtkButton", "GtkToggleButton", "GtkLinkButton", "GtkLockButton"}

  /** Types that are a GtkBox. */
  const BoxTypes: set<string> := {"GtkBox", "GtkShortcutsSection", "GtkShortcutsGroup"}

  /** Types that implement the GtkEditable interface. */
  const EditableTypes: set<string> := {
    "GtkEditable", "GtkEntry", "GtkPasswordEntry", "GtkSearchEntry", "GtkSpinButton", "GtkText",
    "GtkEditableLabel"}

  /**
   * `is::<T>()` / `downcast_ref::<T>()`: whether type `t` is `ancestor` or derives
   * from it. Every other type named here (GtkFrame, GtkGrid, GtkNotebook, ...)
   * has no subclass in GTK 4, so for it is-a is equality.
   */
  predicate IsA(t: string, ancestor: string) {
    t == ancestor
    || (ancestor == Window && t in WindowTypes)
    || (ancestor == Button && t in ButtonTypes)
    || (ancestor == Box && t in BoxTypes)
    || (ancestor == Editable && t in EditableTypes)
  }

  /** What GLib knows about an enum type: its class, if one can be obtained. */
  datatype EnumInfo = NotEnum | EnumWithoutClass | EnumClass(members: seq<EnumMember>)
  datatype EnumMember = EnumMember(nick: string, value: int)

  /** The value type of a property (`pspec.value_type()`). */
  datatype Target = Target(name: string, enumInfo: EnumInfo)

  const StringType: Target := Target("gchararray", NotEnum)
  const BoolType: Target := Target("gboolean", NotEnum)
  const I32Type: Target := Target("gint", NotEnum)
  const U32Type: Target := Target("guint", NotEnum)
  const I64Type: Target := Target("gint64", NotEnum)
  const F64Type: Target := Target("gdouble", NotEnum)
  const F32Type: Target := Target("gfloat", NotEnum)
  const StrVType: Target := Target("GStrv", NotEnum)

  /** A GLib `gint`. */
  type I32 = x: int | MinI32 <= x <= MaxI32

  /**
   * A `glib::Value`. `F32` holds the double it was made from: the rounding to the
   * nearest single-precision float is not modelled.
   */
  datatype GValue =
    | GStr(s: string)
    | GBool(b: bool)
    | GI32(i: I32)
    | GU32(u: int)
    | GI64(l: int)
    | GF64(f: FloatValue)
    | GF32(nearest: FloatValue)
    | GEnum(enumType: string, value: int)
    | GStrV(items: seq<string>)

  /** The type name a value carries. */
  function TypeOf(v: GValue): string {
    match v
    case GStr(_) => "gchararray"
    case GBool(_) => "gboolean"
    case GI32(_) => "gint"
    case GU32(_) => "guint"
    case GI64(_) => "gint64"
    case GF64(_) => "gdouble"
    case GF32(_) => "gfloat"
    case GEnum(t, _) => t
    case GStrV(_) => "GStrv"
  }

  /** How a child is held by its parent. */
  datatype Slot =
    | SingleChild                                      // set_child, or the "child" property
    | Appended                                         // append / insert at the end
    | PackedStart                                      // pack_start
    | PackedEnd                                        // pack_end
    | StartSlot | CenterSlot | EndSlot                 // CenterBox widgets, Paned children
    | StackPage(pageName: Option<string>, title: string)
    | NotebookPage(tabLabel: Option<string>)           // Some(text): a GtkLabel tab
    | GridCell(column: int, row: int, width: int, height: int)

  /**
   * A widget: its type, the properties set on it, the signal handlers connected
   * to it (signal name, Lua function id) and its children in GTK's sibling order.
   */
  datatype Widget = Widget(
    typeName: string,
    properties: map<string, GValue>,
    signals: seq<(string, nat)>,
    children: seq<(Slot, Widget)>)

  /** `Object::with_type`: a widget of type `t` with nothing set on it. */
  function NewWidget(t: string): (w: Widget)
    ensures w.typeName == t && w.properties == map[] && w.signals == [] && w.children == []
  {
    Widget(t, map[], [], [])
  }

  /** `widget_name()`: the "name" property when it is set, otherwise the type name. */
  function WidgetName(w: Widget): (n: string)
    ensures ("name" in w.properties && w.properties["name"].GStr?) ==> n == w.properties["name"].s
    ensures !("name" in w.properties && w.properties["name"].GStr?) ==> n == w.typeName
  {
    if "name" in w.properties && w.properties["name"].GStr? then w.properties["name"].s else w.typeName
  }

  /**
   * What GLib knows about a registered type: whether it is a widget type, the
   * error `Object::with_type` reports for it (Some for an abstract type or one
   * that is not an object type, None when it can be instantiated), and its
   * properties.
   */
  datatype TypeInfo = TypeInfo(isWidget: bool, createError: Option<string>, properties: map<string, Target>)

  /**
   * The GLib type system as the program sees it: the types registered so far
   * (`Type::from_name` finds only those), and whether a property of a given type
   * accepts a value (same type, or one GLib can transform).
   */
  datatype Toolkit = Toolkit(types: map<string, TypeInfo>, accepts: (Target, GValue) -> bool)

  predicate IsWidgetType(tk: Toolkit, t: string) {
    t in tk.types && tk.types[t].isWidget
  }

  /** Whether `Object::with_type` can make an instance of the registered type `t`. */
  predicate Instantiable(tk: Toolkit, t: string) {
    t in tk.types && tk.types[t].createError.None?
  }

  /** `find_property(key)` on a widget of type `t`: the property's value type. */
  function FindProperty(tk: Toolkit, t: string, key: string): (r: Option<Target>)
    ensures r.Some? <==> t in tk.types && key in tk.types[t].properties
  {
    if t in tk.types && key in tk.types[t].properties then Some(tk.types[t].properties[key]) else None
  }
}

=== FILE: layer_shell.dfy ===
/**
 * The layer-shell side of a window (`gtk4_layer_shell::LayerShell`), as a
 * record of what has been asked of it: the calls made, in order, and the state
 * they leave behind.
 */
module LayerShell {
  import opened Wrappers

  datatype Layer = BackgroundLayer | BottomLayer | TopLayer | OverlayLayer

  datatype Edge = Top | Bottom | Left | Right

  /** The window calls the core makes. */
  datatype Call =
    | InitLayerShell
    | Present
    | SetLayer(layer: Layer)
    | SetAnchor(edge: Edge, anchored: bool)
    | SetExclusiveZone(zone: int)
    | AutoExclusiveZone

  /**
   * A window: whether it was presented and turned into a layer surface, its
   * layer, the anchor set per edge, its exclusive zone, whether the automatic
   * exclusive zone is on, and every call made on it, oldest first.
   */
  datatype Window = Window(
    presented: bool,
    layerShell: bool,
    layer: Option<Layer>,
    anchors: map<Edge, bool>,
    zone: Option<int>,
    autoZone: bool,
    calls: seq<Call>)

  const Fresh: Window := Window(false, false, None, map[], None, false, [])

  /** One call on a window: it sets what it names and is appended to the log. */
  function Perform(w: Window, c: Call): (r: Window)
    ensures r.calls == w.calls + [c]
    ensures c.SetAnchor? ==> r.anchors == w.anchors[c.edge := c.anchored]
    ensures !c.SetAnchor? ==> r.anchors == w.anchors
    ensures r.presented == (w.presented || c.Present?)
    ensures r.layerShell == (w.layerShell || c.InitLayerShell?)
    ensures r.layer == (if c.SetLayer? then Some(c.layer) else w.layer)
    ensures r.zone == (if c.SetExclusiveZone? then Some(c.zone) else w.zone)
    ensures r.autoZone == (w.autoZone || c.AutoExclusiveZone?)
  {
    var w := w.(calls := w.calls + [c]);
    match c
    case InitLayerShell => w.(layerShell := true)
    case Present => w.(presented := true)
    case SetLayer(l) => w.(layer := Some(l))
    case SetAnchor(e, b) => w.(anchors := w.anchors[e := b])
    case SetExclusiveZone(z) => w.(zone := Some(z))
    case AutoExclusiveZone => w.(autoZone := true)
  }

  /** Calls made one after the other. */
  function PerformAll(w: Window, cs: seq<Call>): Window
    decreases |cs|
  {
    if cs == [] then w else PerformAll(Perform(w, cs[0]), cs[1..])
  }

  /** The anchor map after a sequence of anchor settings: the last setting per edge wins. */
  function AnchorsAfter(anchors: map<Edge, bool>, cs: seq<Call>): map<Edge, bool>
    decreases |cs|
  {
    if cs == [] then anchors
    else AnchorsAfter(if cs[0].SetAnchor? then anchors[cs[0].edge := cs[0].anchored] else anchors, cs[1..])
  }

  /**
   * Making several calls logs them in order; each field ends up as the calls
   * leave it, and a field no call touches keeps its value.
   */
  lemma {:induction false} PerformAllSpec(w: Window, cs: seq<Call>)
    ensures PerformAll(w, cs).calls == w.calls + cs
    ensures PerformAll(w, cs).anchors == AnchorsAfter(w.anchors, cs)
    ensures PerformAll(w, cs).presented == (w.presented || Present in cs)
    ensures PerformAll(w, cs).layerShell == (w.layerShell || InitLayerShell in cs)
    ensures PerformAll(w, cs).autoZone == (w.autoZone || AutoExclusiveZone in cs)
    ensures (forall i :: 0 <= i < |cs| ==> !cs[i].SetLayer?) ==> PerformAll(w, cs).layer == w.layer
    ensures (forall i :: 0 <= i < |cs| ==> !cs[i].SetExclusiveZone?) ==> PerformAll(w, cs).zone == w.zone
    decreases |cs|
  {
    if cs != [] {
      PerformAllSpec(Perform(w, cs[0]), cs[1..]);
      assert forall c :: c in cs <==> c == cs[0] || c in cs[1..];
      assert (forall i :: 0 <= i < |cs| ==> !cs[i].SetLayer?) ==> (forall i :: 0 <= i < |cs[1..]| ==> !cs[1..][i].SetLayer?);
      assert (forall i :: 0 <= i < |cs| ==> !cs[i].SetExclusiveZone?) ==>
        (forall i :: 0 <= i < |cs[1..]| ==> !cs[1..][i].SetExclusiveZone?);
    }
  }

  /** Making calls in two batches is making them all. */
  lemma {:induction false} PerformAllAppend(w: Window, a: seq<Call>, b: seq<Call>)
    ensures PerformAll(w, a + b) == PerformAll(PerformAll(w, a), b)
    decreases |a|
  {
    if a == [] {
      assert a + b == b;
    } else {
      assert (a + b)[1..] == a[1..] + b;
      PerformAllAppend(Perform(w, a[0]), a[1..], b);
    }
  }

  /** The anchor settings for distinct edges, one call each: every listed edge gets its value, the others stay. */
  lemma {:induction false} AnchorsAfterDistinct(anchors: map<Edge, bool>, cs: seq<Call>)
    requires forall i :: 0 <= i < |cs| ==> cs[i].SetAnchor?
    requires forall i, j :: 0 <= i < j < |cs| ==> cs[i].edge != cs[j].edge
    ensures forall i :: 0 <= i < |cs| ==>
      cs[i].edge in AnchorsAfter(anchors, cs) && AnchorsAfter(anchors, cs)[cs[i].edge] == cs[i].anchored
    ensures forall e :: (forall i :: 0 <= i < |cs| ==> cs[i].edge != e) ==>
      (e in AnchorsAfter(anchors, cs) <==> e in anchors)
      && (e in anchors ==> AnchorsAfter(anchors, cs)[e] == anchors[e])
    decreases |cs|
  {
    if cs != [] {
      var next := anchors[cs[0].edge := cs[0].anchored];
      AnchorsAfterDistinct(next, cs[1..]);
      forall i | 0 <= i < |cs|
        ensures cs[i].edge in AnchorsAfter(anchors, cs) && AnchorsAfter(anchors, cs)[cs[i].edge] == cs[i].anchored
      {
        if i > 0 {
          assert cs[i] == cs[1..][i - 1];
        } else {
          assert forall j :: 0 <= j < |cs[1..]| ==> cs[1..][j].edge != cs[0].edge by {
            forall j | 0 <= j < |cs[1..]| ensures cs[1..][j].edge != cs[0].edge {
              assert cs[1..][j] == cs[j + 1];
            }
          }
        }
      }
      forall e | forall i :: 0 <= i < |cs| ==> cs[i].edge != e
        ensures (e in AnchorsAfter(anchors, cs) <==> e in anchors)
        ensures e in anchors ==> AnchorsAfter(anchors, cs)[e] == anchors[e]
      {
        assert cs[0].edge != e;
        assert forall i :: 0 <= i < |cs[1..]| ==> cs[1..][i].edge != e by {
          forall i | 0 <= i < |cs[1..]| ensures cs[1..][i].edge != e {
            assert cs[1..][i] == cs[i + 1];
          }
        }
      }
    }
  }

  /**
   * After calls that set no layer, the log has grown by them, the layer is
   * unchanged, and a window that was a presented layer surface still is one.
   */
  lemma {:induction false} PerformAllKeepsLayer(w: Window, cs: seq<Call>)
    requires forall i :: 0 <= i < |cs| ==> !cs[i].SetLayer?
    ensures PerformAll(w, cs).calls == w.calls + cs
    ensures PerformAll(w, cs).layer == w.layer
    ensures w.presented ==> PerformAll(w, cs).presented
    ensures w.layerShell ==> PerformAll(w, cs).layerShell
    decreases |cs|
  {
    if cs != [] {
      assert forall i :: 0 <= i < |cs[1..]| ==> cs[1..][i] == cs[i + 1];
      PerformAllKeepsLayer(Perform(w, cs[0]), cs[1..]);
      assert w.calls + [cs[0]] + cs[1..] == w.calls + cs;
    }
  }

  lemma PerformOne(w: Window, c: Call)
    ensures PerformAll(w, [c]) == Perform(w, c)
  {
    assert [c][1..] == [];
  }

  lemma PerformThree(w: Window, a: Call, b: Call, c: Call)
    ensures PerformAll(w, [a, b, c]) == Perform(Perform(Perform(w, a), b), c)
  {
    assert [a, b, c][1..] == [b, c];
    assert [b, c][1..] == [c];
    PerformOne(Perform(Perform(w, a), b), c);
  }

  /** Anchor settings in two batches. */
  lemma {:induction false} AnchorsAfterAppend(anchors: map<Edge, bool>, a: seq<Call>, b: seq<Call>)
    ensures AnchorsAfter(anchors, a + b) == AnchorsAfter(AnchorsAfter(anchors, a), b)
    decreases |a|
  {
    if a == [] {
      assert a + b == b;
    } else {
      assert (a + b)[1..] == a[1..] + b;
      AnchorsAfterAppend(if a[0].SetAnchor? then anchors[a[0].edge := a[0].anchored] else anchors, a[1..], b);
    }
  }

  /** Calls that set no anchor leave the anchors alone. */
  lemma {:induction false} NoAnchorCalls(anchors: map<Edge, bool>, cs: seq<Call>)
    requires forall i :: 0 <= i < |cs| ==> !cs[i].SetAnchor?
    ensures AnchorsAfter(anchors, cs) == anchors
    decreases |cs|
  {
    if cs != [] {
      NoAnchorCalls(anchors, cs[1..]);
    }
  }
}

=== FILE: legacy_ui.dfy ===
/**
 * The first UI loader: builds widgets straight from a Lua table (no registry),
 * attaches children only to boxes and application windows, and shows the root
 * window with a fixed layer-shell setup.
 *
 * Unlike the later builder, it panics on an unknown type, on a property the
 * widget rejects and on a root that is not an application window; a panic is an
 * outcome here.
 */
module LegacyUi {
  import opened Wrappers
  import opened Lua
  import opened Casts
  import opened Gtk
  import opened Containers
  import opened LuaUtil
  import LayerShell

  /** Why the loader panics. */
  datatype Panic =
    | UnknownWidgetType(name: string)
    | CannotCreate(name: string)        // `Object::with_type` on a type GLib cannot instantiate
    | PropertyRejected(key: string)     // `set_property` on a missing property or a value of the wrong type
    | NotAWidget(name: string)          // `downcast::<Widget>().unwrap()`
    | RootNotAWindow                    // "Root widget must be a window type"

  /** A call that returns, fails with a Lua error, or panics. */
  datatype Outcome<T> = Done(value: T) | Failed(error: LuaError) | Panicked(panic: Panic)

  /**
   * `to_glib_value`: a string (an invalid one as `""`), an integer wrapped to
   * i32, a number as a single-precision float, a boolean; any other value has none.
   */
  function ToGlibValue(v: SV): (r: Option<GValue>)
    ensures r.Some? <==> v.Str? || v.Int? || v.Num? || v.Bool?
    ensures v.Str? && v.s.NotUtf8? ==> r == Some(GStr(""))
    ensures v.Num? ==> r == Some(GF32(v.f.value))
  {
    match v
    case Str(Utf8(text)) => Some(GStr(text))
    case Str(NotUtf8(_)) => Some(GStr(""))
    case Int(i) => Some(GI32(WrapI32(i)))
    case Num(f) => Some(GF32(f.value))
    case Bool(b) => Some(GBool(b))
    case _ => None
  }

  /**
   * Against the later helper: this one takes the same four kinds, never fails on
   * a string, agrees on strings, integers and booleans, and makes numbers single
   * precision where the other keeps them double.
   */
  lemma AgreesWithUtil(v: SV)
    ensures ToGlibValue(v).Some? <==> ToGValue(v).Ok? || (v.Str? && v.s.NotUtf8?)
    ensures ToGValue(v).Ok? && !v.Num? ==> ToGlibValue(v) == Some(ToGValue(v).value)
    ensures v.Num? ==> ToGlibValue(v).value.GF32? && ToGValue(v).value.GF64? && ToGlibValue(v).value.nearest == ToGValue(v).value.f
  {
  }

  /** `t.get(key)` read as a table: its entries, or None when the value is not a table. */
  function TableField(entries: seq<(Key, SV)>, key: string): (r: Option<seq<(Key, SV)>>)
    ensures r.Some? ==> Table(r.value) < Table(entries)
  {
    match RawGet(entries, StrKey(key))
    case Table(es) => Some(es)
    case _ => None
  }

  /**
   * Whether one pair gets through the property loop on a widget of type `t`: its
   * key reads as a string, and its value either has no GLib form or is one the
   * widget's property of that name takes.
   */
  predicate GlibPairPasses(tk: Toolkit, t: string, p: (Key, SV)) {
    KeyToString(p.0).Some?
    && (ToGlibValue(p.1).None?
        || (FindProperty(tk, t, KeyToString(p.0).value).Some?
            && tk.accepts(FindProperty(tk, t, KeyToString(p.0).value).value, ToGlibValue(p.1).value)))
  }

  /** How a pair that does not get through ends the loop: a key that is not a string fails, a rejected property panics. */
  function GlibPairFailure(p: (Key, SV)): Outcome<Widget> {
    match KeyToString(p.0)
    case None => Failed(ConversionError)
    case Some(key) => Panicked(PropertyRejected(key))
  }

  /** Pair `i` is the last one that sets its key: no later pair with that key has a GLib value. */
  predicate LastGlibPair(pairs: seq<(Key, SV)>, i: int)
    requires 0 <= i < |pairs|
  {
    KeyToString(pairs[i].0).Some? && ToGlibValue(pairs[i].1).Some?
    && forall j :: i < j < |pairs| ==> !(KeyToString(pairs[j].0) == KeyToString(pairs[i].0) && ToGlibValue(pairs[j].1).Some?)
  }

  /**
   * The property loop: a key that is not a string fails; a value with no GLib
   * form is skipped; any other value is set, and a property the widget does
   * not have, or that refuses the value, panics. The first pair that does not
   * get through decides the outcome.
   */
  function SetGlibProperties(tk: Toolkit, w: Widget, pairs: seq<(Key, SV)>): (r: Outcome<Widget>)
    ensures r.Done? <==> forall i :: 0 <= i < |pairs| ==> GlibPairPasses(tk, w.typeName, pairs[i])
    ensures !r.Done? ==> exists i :: (0 <= i < |pairs| && !GlibPairPasses(tk, w.typeName, pairs[i])
      && r == GlibPairFailure(pairs[i]) && forall j :: 0 <= j < i ==> GlibPairPasses(tk, w.typeName, pairs[j]))
    ensures r.Done? ==> r.value.typeName == w.typeName && r.value.children == w.children && r.value.signals == w.signals
    ensures r.Done? ==> forall k :: k in r.value.properties ==> (k in w.properties
      || exists i :: 0 <= i < |pairs| && KeyToString(pairs[i].0) == Some(k) && ToGlibValue(pairs[i].1).Some?)
    ensures pairs == [] ==> r == Done(w)
    decreases |pairs|
  {
    if pairs == [] then Done(w)
    else
      match KeyToString(pairs[0].0)
      case None => Failed(ConversionError)
      case Some(key) =>
        match ToGlibValue(pairs[0].1)
        case None =>
          var rest := SetGlibProperties(tk, w, pairs[1..]);
          assert forall i :: 0 <= i < |pairs[1..]| ==> pairs[1..][i] == pairs[i + 1];
          rest
        case Some(g) =>
          match FindProperty(tk, w.typeName, key)
          case None => Panicked(PropertyRejected(key))
          case Some(target) =>
            if !tk.accepts(target, g) then Panicked(PropertyRejected(key))
            else
              var rest := SetGlibProperties(tk, w.(properties := w.properties[key := g]), pairs[1..]);
              assert forall i :: 0 <= i < |pairs[1..]| ==> pairs[1..][i] == pairs[i + 1];
              rest
  }

  /**
   * A property the loop sets holds the GLib form of the last pair that sets it:
   * each `set_property` overwrites the one before.
   */
  lemma {:induction false} SetGlibPropertiesLast(tk: Toolkit, w: Widget, pairs: seq<(Key, SV)>, i: int)
    requires SetGlibProperties(tk, w, pairs).Done?
    requires 0 <= i < |pairs| && LastGlibPair(pairs, i)
    ensures KeyToString(pairs[i].0).value in SetGlibProperties(tk, w, pairs).value.properties
    ensures SetGlibProperties(tk, w, pairs).value.properties[KeyToString(pairs[i].0).value] == ToGlibValue(pairs[i].1).value
    decreases |pairs|
  {
    var key := KeyToString(pairs[0].0).value;
    var rest := pairs[1..];
    var next := if ToGlibValue(pairs[0].1).None? then w else w.(properties := w.properties[key := ToGlibValue(pairs[0].1).value]);
    assert SetGlibProperties(tk, w, pairs) == SetGlibProperties(tk, next, rest);
    if i == 0 {
      forall j | 0 <= j < |rest|
        ensures KeyToString(rest[j].0) != Some(key) || ToGlibValue(rest[j].1).None?
      {
        assert rest[j] == pairs[j + 1];
      }
      SetGlibPropertiesUntouched(tk, next, rest, key);
    } else {
      assert rest[i - 1] == pairs[i];
      assert LastGlibPair(rest, i - 1) by {
        forall j | i - 1 < j < |rest| ensures rest[j] == pairs[j + 1] { }
      }
      SetGlibPropertiesLast(tk, next, rest, i - 1);
    }
  }

  /** A property no pair sets keeps the value it had. */
  lemma {:induction false} SetGlibPropertiesUntouched(tk: Toolkit, w: Widget, pairs: seq<(Key, SV)>, k: string)
    requires SetGlibProperties(tk, w, pairs).Done?
    requires k in w.properties
    requires forall i :: 0 <= i < |pairs| ==> KeyToString(pairs[i].0) != Some(k) || ToGlibValue(pairs[i].1).None?
    ensures k in SetGlibProperties(tk, w, pairs).value.properties
    ensures SetGlibProperties(tk, w, pairs).value.properties[k] == w.properties[k]
    decreases |pairs|
  {
    if pairs != [] {
      var key := KeyToString(pairs[0].0).value;
      var rest := pairs[1..];
      var next := if ToGlibValue(pairs[0].1).None? then w else w.(properties := w.properties[key := ToGlibValue(pairs[0].1).value]);
      assert SetGlibProperties(tk, w, pairs) == SetGlibProperties(tk, next, rest);
      assert forall j :: 0 <= j < |rest| ==> rest[j] == pairs[j + 1];
      SetGlibPropertiesUntouched(tk, next, rest, k);
    }
  }

  /** How the loader attaches a child: appended to a box, the single child of an application window, otherwise dropped. */
  function LegacyAttached(t: string, children: seq<(Slot, Widget)>, child: Widget): seq<(Slot, Widget)> {
    if IsA(t, Box) then children + [(Appended, child)]
    else if IsA(t, ApplicationWindow) then ReplaceSlot(children, SingleChild, child)
    else children
  }

  /**
   * How the node's outcome follows from the property loop's outcome `loop` for an
   * instantiable type `name`: it completes exactly when the loop completes and the type is a
   * widget type, holding the loop's widget; a completed loop on a non-widget type panics; a
   * failure or panic inside the loop passes through unchanged.
   */
  predicate ShellFromLoop(tk: Toolkit, name: string, loop: Outcome<Widget>, r: Outcome<Widget>)
  {
    && (r.Done? <==> loop.Done? && IsWidgetType(tk, name))
    && (r.Done? ==> r.value == loop.value)
    && (loop.Done? && !IsWidgetType(tk, name) ==> r == Panicked(NotAWidget(name)))
    && (loop.Failed? ==> r == loop)
    && (loop.Panicked? ==> r == loop)
  }

  /** The node before its children: type, properties, and the widget check. */
  function LegacyShell(tk: Toolkit, entries: seq<(Key, SV)>): (r: Outcome<Widget>)
    ensures CoerceToString(RawGet(entries, StrKey("type"))).None? ==> r == Failed(ConversionError)
    ensures CoerceToString(RawGet(entries, StrKey("type"))).Some? && CoerceToString(RawGet(entries, StrKey("type"))).value !in tk.types
      ==> r == Panicked(UnknownWidgetType(CoerceToString(RawGet(entries, StrKey("type"))).value))
    ensures CoerceToString(RawGet(entries, StrKey("type"))).Some? && CoerceToString(RawGet(entries, StrKey("type"))).value in tk.types
      && !Instantiable(tk, CoerceToString(RawGet(entries, StrKey("type"))).value)
      ==> r == Panicked(CannotCreate(CoerceToString(RawGet(entries, StrKey("type"))).value))
    ensures r.Done? ==> (CoerceToString(RawGet(entries, StrKey("type"))).Some?
      && r.value.typeName == CoerceToString(RawGet(entries, StrKey("type"))).value
      && Instantiable(tk, r.value.typeName) && IsWidgetType(tk, r.value.typeName) && r.value.children == [])
    ensures r.Done? && TableField(entries, "properties").None? ==> r.value.properties == map[]
    ensures (CoerceToString(RawGet(entries, StrKey("type"))).Some? && CoerceToString(RawGet(entries, StrKey("type"))).value in tk.types
      && Instantiable(tk, CoerceToString(RawGet(entries, StrKey("type"))).value)) ==>
      ShellFromLoop(tk, CoerceToString(RawGet(entries, StrKey("type"))).value,
        SetGlibProperties(tk, NewWidget(CoerceToString(RawGet(entries, StrKey("type"))).value),
          Pairs(TableField(entries, "properties").GetOr([]))), r)
  {
    match CoerceToString(RawGet(entries, StrKey("type")))
    case None => Failed(ConversionError)
    case Some(name) =>
      var props := TableField(entries, "properties").GetOr([]);
      if name !in tk.types then Panicked(UnknownWidgetType(name))
      else if tk.types[name].createError.Some? then Panicked(CannotCreate(name))
      else
        match SetGlibProperties(tk, NewWidget(name), Pairs(props))
        case Done(w) => if IsWidgetType(tk, name) then Done(w) else Panicked(NotAWidget(name))
        case Failed(e) => Failed(e)
        case Panicked(p) => Panicked(p)
  }

  /** `create_widget` on a table's entries. */
  function Create(tk: Toolkit, entries: seq<(Key, SV)>): (r: Outcome<Widget>)
    decreases Table(entries), 1
  {
    match LegacyShell(tk, entries)
    case Done(w) =>
      (match TableField(entries, "children")
       case None => Done(w)
       case Some(kids) => CreateChildren(tk, w, SequenceValues(kids), Table(entries)))
    case Failed(e) => Failed(e)
    case Panicked(p) => Panicked(p)
  }

  /** The child loop: each item must be a table; it is created and attached at once; the first failure ends the loop. */
  function CreateChildren(tk: Toolkit, parent: Widget, kids: seq<SV>, ghost bound: SV): (r: Outcome<Widget>)
    requires forall i :: 0 <= i < |kids| ==> kids[i] < bound
    decreases bound, 0, |kids|
  {
    if kids == [] then Done(parent)
    else if !kids[0].Table? then Failed(ConversionError)
    else
      match Create(tk, kids[0].entries)
      case Done(child) =>
        CreateChildren(tk, parent.(children := LegacyAttached(parent.typeName, parent.children, child)), kids[1..], bound)
      case Failed(e) => Failed(e)
      case Panicked(p) => Panicked(p)
  }

  /** The children of a node, each created from its own table, until the first failure. */
  function CreateAll(tk: Toolkit, kids: seq<SV>, ghost bound: SV): (r: Outcome<seq<Widget>>)
    requires forall i :: 0 <= i < |kids| ==> kids[i] < bound
    ensures r.Done? ==> |r.value| == |kids| && forall i :: 0 <= i < |kids| ==> kids[i].Table?
    decreases bound, 0, |kids|
  {
    if kids == [] then Done([])
    else if !kids[0].Table? then Failed(ConversionError)
    else
      match Create(tk, kids[0].entries)
      case Done(child) =>
        (match CreateAll(tk, kids[1..], bound)
         case Done(rest) => Done([child] + rest)
         case Failed(e) => Failed(e)
         case Panicked(p) => Panicked(p))
      case Failed(e) => Failed(e)
      case Panicked(p) => Panicked(p)
  }

  /** Attaching several children in order. */
  function LegacyAttachAll(t: string, children: seq<(Slot, Widget)>, ws: seq<Widget>): seq<(Slot, Widget)>
    decreases |ws|
  {
    if ws == [] then children else LegacyAttachAll(t, LegacyAttached(t, children, ws[0]), ws[1..])
  }

  /** The child loop is: create them all (stopping at the first failure), then attach them in order. */
  lemma {:induction false} CreateChildrenSpec(tk: Toolkit, parent: Widget, kids: seq<SV>, bound: SV)
    requires forall i :: 0 <= i < |kids| ==> kids[i] < bound
    ensures CreateChildren(tk, parent, kids, bound) ==
      match CreateAll(tk, kids, bound)
      case Done(ws) => Done(parent.(children := LegacyAttachAll(parent.typeName, parent.children, ws)))
      case Failed(e) => Failed(e)
      case Panicked(p) => Panicked(p)
    decreases |kids|
  {
    if kids != [] && kids[0].Table? {
      match Create(tk, kids[0].entries)
      case Done(child) =>
        var next := parent.(children := LegacyAttached(parent.typeName, parent.children, child));
        CreateChildrenSpec(tk, next, kids[1..], bound);
      case Failed(_) =>
      case Panicked(_) =>
    }
  }

  /** A box holds its children appended in order; nothing else happens to it. */
  lemma {:induction false} BoxAppendsAll(t: string, children: seq<(Slot, Widget)>, ws: seq<Widget>)
    requires IsA(t, Box)
    ensures LegacyAttachAll(t, children, ws) == children + Tagged(Appended, ws)
    decreases |ws|
  {
    if ws != [] {
      BoxAppendsAll(t, children + [(Appended, ws[0])], ws[1..]);
      assert Tagged(Appended, ws) == [(Appended, ws[0])] + Tagged(Appended, ws[1..]);
    }
  }

  /** An application window that is no box keeps only the last child it is given. */
  lemma WindowKeepsLast(t: string, children: seq<(Slot, Widget)>, ws: seq<Widget>)
    requires IsA(t, ApplicationWindow) && !IsA(t, Box)
    requires ws != []
    ensures InSlot(LegacyAttachAll(t, children, ws), SingleChild) == [ws[|ws| - 1]]
  {
    var rest := ReplacedLast(t, children, ws);
    ReplaceSlotSpec(rest, SingleChild, ws[|ws| - 1], SingleChild);
  }

  /** For such a window, attaching a list of children ends with the last one replacing the single child. */
  lemma {:induction false} ReplacedLast(t: string, children: seq<(Slot, Widget)>, ws: seq<Widget>)
    returns (rest: seq<(Slot, Widget)>)
    requires IsA(t, ApplicationWindow) && !IsA(t, Box)
    requires ws != []
    ensures LegacyAttachAll(t, children, ws) == ReplaceSlot(rest, SingleChild, ws[|ws| - 1])
    decreases |ws|
  {
    var next := ReplaceSlot(children, SingleChild, ws[0]);
    assert LegacyAttached(t, children, ws[0]) == next;
    if |ws| == 1 {
      assert ws[1..] == [];
      rest := children;
    } else {
      assert ws[1..][|ws[1..]| - 1] == ws[|ws| - 1];
      rest := ReplacedLast(t, next, ws[1..]);
    }
  }

  /** Any other parent that is neither a box nor an application window drops every child. */
  lemma {:induction false} OthersDropChildren(t: string, children: seq<(Slot, Widget)>, ws: seq<Widget>)
    requires !IsA(t, ApplicationWindow) && !IsA(t, Box)
    ensures LegacyAttachAll(t, children, ws) == children
    decreases |ws|
  {
    if ws != [] {
      assert LegacyAttached(t, children, ws[0]) == children;
      OthersDropChildren(t, children, ws[1..]);
    }
  }

  /** A node whose shell is made and that lists children goes on to the child loop. */
  lemma CreateNode(tk: Toolkit, entries: seq<(Key, SV)>)
    requires LegacyShell(tk, entries).Done? && TableField(entries, "children").Some?
    ensures Create(tk, entries) == CreateChildren(tk, LegacyShell(tk, entries).value,
      SequenceValues(TableField(entries, "children").value), Table(entries))
  {
  }

  /** One turn of the child loop, from child `i` on. */
  lemma CreateChildrenStep(tk: Toolkit, parent: Widget, kids: seq<SV>, i: nat, bound: SV)
    requires forall j :: 0 <= j < |kids| ==> kids[j] < bound
    requires i < |kids|
    ensures CreateChildren(tk, parent, kids[i..], bound) ==
      if !kids[i].Table? then Failed(ConversionError)
      else
        match Create(tk, kids[i].entries)
        case Done(child) =>
          CreateChildren(tk, parent.(children := LegacyAttached(parent.typeName, parent.children, child)), kids[i + 1..], bound)
        case Failed(e) => Failed(e)
        case Panicked(p) => Panicked(p)
  {
    assert kids[i..][0] == kids[i];
    assert kids[i..][1..] == kids[i + 1..];
  }

  /**
   * `create_widget` as the source runs it: the children are created and
   * attached in place, one at a time.
   */
  method CreateWidget(tk: Toolkit, entries: seq<(Key, SV)>) returns (r: Outcome<Widget>)
    ensures r == Create(tk, entries)
    decreases Table(entries), 1
  {
    var shell := LegacyShell(tk, entries);
    if !shell.Done? {
      return shell;
    }
    var children := TableField(entries, "children");
    if children.None? {
      return shell;
    }
    CreateNode(tk, entries);
    r := CreateChildWidgets(tk, shell.value, SequenceValues(children.value), Table(entries));
  }

  /** The child loop of `create_widget`, on a container holding the new widget. */
  method CreateChildWidgets(tk: Toolkit, widget: Widget, kids: seq<SV>, ghost bound: SV) returns (r: Outcome<Widget>)
    requires forall j :: 0 <= j < |kids| ==> kids[j] < bound
    ensures r == CreateChildren(tk, widget, kids, bound)
    decreases bound, 0
  {
    ghost var goal := CreateChildren(tk, widget, kids, bound);
    var parent := new ContainerWidget(widget);
    for i := 0 to |kids|
      invariant CreateChildren(tk, parent.widget, kids[i..], bound) == goal
    {
      CreateChildrenStep(tk, parent.widget, kids, i, bound);
      if !kids[i].Table? {
        return Failed(ConversionError);
      }
      var child := CreateWidget(tk, kids[i].entries);
      if !child.Done? {
        return match child case Failed(e) => Failed(e) case Panicked(p) => Panicked(p) case Done(_) => child;
      }
      parent.widget := parent.widget.(children := LegacyAttached(parent.widget.typeName, parent.widget.children, child.value));
    }
    assert kids[|kids|..] == [];
    return Done(parent.widget);
  }

  // ---- showing the root ----------------------------------------------------------------

  /** `init_layer_shell`: layer surface, Top layer, automatic zone, anchored top, left and right. */
  const InitCalls: seq<LayerShell.Call> := [
    LayerShell.InitLayerShell, LayerShell.SetLayer(LayerShell.TopLayer), LayerShell.AutoExclusiveZone,
    LayerShell.SetAnchor(LayerShell.Top, true), LayerShell.SetAnchor(LayerShell.Left, true),
    LayerShell.SetAnchor(LayerShell.Right, true)]

  /** The setup calls and `present`, one at a time. */
  lemma InitThenPresentSteps(w: LayerShell.Window)
    ensures LayerShell.PerformAll(w, InitCalls + [LayerShell.Present]) ==
      LayerShell.Perform(LayerShell.Perform(LayerShell.Perform(LayerShell.Perform(LayerShell.Perform(LayerShell.Perform(
        LayerShell.Perform(w, InitCalls[0]), InitCalls[1]), InitCalls[2]), InitCalls[3]), InitCalls[4]), InitCalls[5]),
        LayerShell.Present)
  {
    var setup := [LayerShell.InitLayerShell, LayerShell.SetLayer(LayerShell.TopLayer), LayerShell.AutoExclusiveZone];
    var anchors := [LayerShell.SetAnchor(LayerShell.Top, true), LayerShell.SetAnchor(LayerShell.Left, true),
      LayerShell.SetAnchor(LayerShell.Right, true)];
    assert InitCalls + [LayerShell.Present] == setup + (anchors + [LayerShell.Present]);
    LayerShell.PerformAllAppend(w, setup, anchors + [LayerShell.Present]);
    var w1 := LayerShell.PerformAll(w, setup);
    LayerShell.PerformThree(w, setup[0], setup[1], setup[2]);
    LayerShell.PerformAllAppend(w1, anchors, [LayerShell.Present]);
    var w2 := LayerShell.PerformAll(w1, anchors);
    LayerShell.PerformThree(w1, anchors[0], anchors[1], anchors[2]);
    LayerShell.PerformOne(w2, LayerShell.Present);
  }

  /** The root window after `init_layer_shell` and `present`. */
  lemma InitThenPresent(w: LayerShell.Window)
    ensures var r := LayerShell.PerformAll(w, InitCalls + [LayerShell.Present]);
      && r.layerShell && r.presented && r.autoZone && r.zone == w.zone
      && r.layer == Some(LayerShell.TopLayer)
      && LayerShell.Top in r.anchors && r.anchors[LayerShell.Top]
      && LayerShell.Left in r.anchors && r.anchors[LayerShell.Left]
      && LayerShell.Right in r.anchors && r.anchors[LayerShell.Right]
      && (LayerShell.Bottom in r.anchors <==> LayerShell.Bottom in w.anchors)
      && r.calls == w.calls + InitCalls + [LayerShell.Present]
  {
    InitThenPresentSteps(w);
  }

  /**
   * `build_from_file` once the file has been run: the chunk's value must be a
   * table; the root is created; unless windowed, an application-window root
   * gets the layer-shell setup; then it is presented, and any other root panics.
   * The result is the root window.
   */
  method BuildFromFile(tk: Toolkit, root: SV, windowed: bool) returns (r: Outcome<LayerShell.Window>)
    ensures !root.Table? ==> r == Failed(ConversionError)
    ensures root.Table? && !Create(tk, root.entries).Done? ==>
      r == match Create(tk, root.entries) case Failed(e) => Failed(e) case Panicked(p) => Panicked(p) case Done(_) => r
    ensures root.Table? && Create(tk, root.entries).Done? && !IsA(Create(tk, root.entries).value.typeName, ApplicationWindow) ==>
      r == Panicked(RootNotAWindow)
    ensures root.Table? && Create(tk, root.entries).Done? && IsA(Create(tk, root.entries).value.typeName, ApplicationWindow) ==>
      r == Done(LayerShell.PerformAll(LayerShell.Fresh, (if windowed then [] else InitCalls) + [LayerShell.Present]))
  {
    if !root.Table? {
      return Failed(ConversionError);
    }
    var widget := CreateWidget(tk, root.entries);
    if !widget.Done? {
      return match widget case Failed(e) => Failed(e) case Panicked(p) => Panicked(p) case Done(_) => Panicked(RootNotAWindow);
    }
    var window := LayerShell.Fresh;
    if !windowed && IsA(widget.value.typeName, ApplicationWindow) {
      window := LayerShell.PerformAll(window, InitCalls);
    }
    if IsA(widget.value.typeName, ApplicationWindow) {
      LayerShell.PerformAllAppend(LayerShell.Fresh, if windowed then [] else InitCalls, [LayerShell.Present]);
      LayerShell.PerformOne(window, LayerShell.Present);
      window := LayerShell.Perform(window, LayerShell.Present);
      return Done(window);
    }
    return Panicked(RootNotAWindow);
  }
}

=== FILE: lua.dfy ===
/**
 * Lua values as the mlua crate hands them to Rust, and the few table
 * operations of mlua the core relies on: `get`, `raw_get`, `sequence_values`,
 * `pairs` and the coercion of a value to a Rust `String`.
 *
 * Metatables are not modelled: every lookup is a raw lookup.
 */
module Lua {
  import opened Wrappers
  import opened Text

  const MinI64: int := -0x8000_0000_0000_0000
  const MaxI64: int := 0x7fff_ffff_ffff_ffff

  /** Lua's integer subtype is a 64-bit two's-complement integer. */
  type Int64 = x: int | MinI64 <= x <= MaxI64

  /** An IEEE 754 double, by the value it denotes. */
  datatype FloatValue = Finite(r: real) | Infinity(negative: bool) | NaN

  /**
   * A Lua float. `shown` is the text Lua produces when the number is used as a
   * string (the `%.14g` rendering); the model carries it instead of formatting floats.
   */
  datatype LuaFloat = LuaFloat(value: FloatValue, shown: string)

  /**
   * A Lua string is a byte string. Either it is valid UTF-8 and is known by the
   * text it encodes, or it is not, and only its bytes are known.
   */
  datatype LuaString = Utf8(text: string) | NotUtf8(bytes: seq<bv8>)

  /** A table key: strings, numbers, booleans, or a reference (table, function, userdata). */
  datatype Key = KStr(s: LuaString) | KInt(i: Int64) | KNum(f: LuaFloat) | KBool(b: bool) | KRef(id: nat)

  /**
   * `mlua::Value`. A table is the list of its entries in the order `next` visits
   * them; an entry whose key already occurred earlier, or whose value is nil, is
   * not part of the table (a Lua table never holds either).
   */
  datatype SV =
    | Nil
    | Bool(b: bool)
    | Int(i: Int64)
    | Num(f: LuaFloat)
    | Str(s: LuaString)
    | Table(entries: seq<(Key, SV)>)
    | Func(id: nat)
    | UserData(id: nat)

  /** The key a Rust `&str` becomes when it indexes a table. */
  function StrKey(name: string): Key { KStr(Utf8(name)) }

  /** `t[k]` without metamethods: the value of the first entry with key `k`, or nil. */
  function RawGet(entries: seq<(Key, SV)>, k: Key): (v: SV)
    ensures v != Nil ==> (k, v) in entries
    ensures (forall i :: 0 <= i < |entries| ==> entries[i].0 != k) ==> v == Nil
  {
    if entries == [] then Nil
    else if entries[0].0 == k then entries[0].1
    else RawGet(entries[1..], k)
  }

  /** A lookup yields the value of the first entry with the key. */
  lemma {:induction false} RawGetFirst(entries: seq<(Key, SV)>, k: Key, i: nat)
    requires i < |entries| && entries[i].0 == k
    requires forall j :: 0 <= j < i ==> entries[j].0 != k
    ensures RawGet(entries, k) == entries[i].1
  {
    if i > 0 {
      RawGetFirst(entries[1..], k, i - 1);
    }
  }

  /** A value read from a table lies inside it. */
  lemma RawGetBelow(entries: seq<(Key, SV)>, k: Key)
    ensures RawGet(entries, k) != Nil ==> RawGet(entries, k) < Table(entries)
  {
    if RawGet(entries, k) != Nil {
      var i :| 0 <= i < |entries| && entries[i] == (k, RawGet(entries, k));
    }
  }

  /** The entries of a table as `pairs` visits them: shadowed and nil entries dropped. */
  function Pairs(entries: seq<(Key, SV)>): seq<(Key, SV)> {
    PairsSeen(entries, {})
  }

  function PairsSeen(entries: seq<(Key, SV)>, seen: set<Key>): (r: seq<(Key, SV)>)
    ensures forall i :: 0 <= i < |r| ==> r[i] in entries && r[i].1 != Nil && r[i].0 !in seen
  {
    if entries == [] then []
    else
      var rest := PairsSeen(entries[1..], seen + {entries[0].0});
      if entries[0].0 in seen || entries[0].1 == Nil then rest else [entries[0]] + rest
  }

  /** Every pair `pairs` visits is what a lookup of its key finds, and every key is visited once. */
  lemma {:induction false} PairsAgreeWithRawGet(entries: seq<(Key, SV)>, seen: set<Key>)
    ensures forall i :: 0 <= i < |PairsSeen(entries, seen)| ==>
      RawGet(entries, PairsSeen(entries, seen)[i].0) == PairsSeen(entries, seen)[i].1
    ensures forall i, j :: 0 <= i < j < |PairsSeen(entries, seen)| ==>
      PairsSeen(entries, seen)[i].0 != PairsSeen(entries, seen)[j].0
  {
    if entries != [] {
      var k := entries[0].0;
      PairsAgreeWithRawGet(entries[1..], seen + {k});
      var rest := PairsSeen(entries[1..], seen + {k});
      assert forall i :: 0 <= i < |rest| ==> rest[i].0 != k;
    }
  }

  /** A key whose lookup finds a value is visited by `pairs`. */
  lemma {:induction false} RawGetIsVisited(entries: seq<(Key, SV)>, seen: set<Key>, k: Key)
    requires k !in seen && RawGet(entries, k) != Nil
    ensures (k, RawGet(entries, k)) in PairsSeen(entries, seen)
  {
    if entries[0].0 != k {
      RawGetIsVisited(entries[1..], seen + {entries[0].0}, k);
    }
  }

  /**
   * `sequence_values`: `t[1]`, `t[2]`, ... up to the first nil. A table with n
   * entries holds at most n consecutive integer keys (SequenceBound), so stopping
   * at index |entries| + 1 never cuts the sequence short.
   */
  function SequenceValues(entries: seq<(Key, SV)>): (r: seq<SV>)
    ensures forall j :: 0 <= j < |r| ==> r[j] != Nil && r[j] < Table(entries)
  {
    SequenceFromBelow(entries, 1);
    SequenceFrom(entries, 1)
  }

  function SequenceFrom(entries: seq<(Key, SV)>, i: nat): (r: seq<SV>)
    requires i >= 1
    decreases |entries| + 1 - i
  {
    if i > |entries| || i > MaxI64 then []
    else
      var v := RawGet(entries, KInt(i));
      if v == Nil then [] else [v] + SequenceFrom(entries, i + 1)
  }

  /** The sequence part of a table holds no nil, and each item lies inside the table. */
  lemma {:induction false} SequenceFromBelow(entries: seq<(Key, SV)>, i: nat)
    requires i >= 1
    ensures forall j :: 0 <= j < |SequenceFrom(entries, i)| ==>
      SequenceFrom(entries, i)[j] != Nil && SequenceFrom(entries, i)[j] < Table(entries)
    decreases |entries| + 1 - i
  {
    if i <= |entries| && i <= MaxI64 && RawGet(entries, KInt(i)) != Nil {
      RawGetBelow(entries, KInt(i));
      SequenceFromBelow(entries, i + 1);
    }
  }

  /** The keys a table's entries use. */
  function KeysOf(entries: seq<(Key, SV)>): (ks: set<Key>)
    ensures |ks| <= |entries|
    ensures forall i :: 0 <= i < |entries| ==> entries[i].0 in ks
  {
    if entries == [] then {} else {entries[0].0} + KeysOf(entries[1..])
  }

  function IntKeys(lo: nat, hi: nat): (ks: set<Key>)
    requires 1 <= lo && hi <= MaxI64
    ensures forall j :: lo <= j < hi ==> KInt(j) in ks
    ensures forall k :: k in ks ==> k.KInt? && lo <= k.i < hi
    decreases hi - lo
  {
    if lo >= hi then {} else {KInt(lo)} + IntKeys(lo + 1, hi)
  }

  lemma {:induction false} IntKeysSize(lo: nat, hi: nat)
    requires 1 <= lo <= hi <= MaxI64
    ensures |IntKeys(lo, hi)| == hi - lo
    decreases hi - lo
  {
    if lo < hi {
      IntKeysSize(lo + 1, hi);
      assert KInt(lo) !in IntKeys(lo + 1, hi);
    }
  }

  lemma {:induction false} RawGetFindsKey(entries: seq<(Key, SV)>, k: Key)
    requires RawGet(entries, k) != Nil
    ensures k in KeysOf(entries)
  {
    if entries[0].0 != k {
      RawGetFindsKey(entries[1..], k);
    }
  }

  /** Integer keys whose values are all non-nil are keys of the table. */
  lemma {:induction false} IntKeysPresent(entries: seq<(Key, SV)>, lo: nat, hi: nat)
    requires 1 <= lo && hi <= MaxI64
    requires forall j :: lo <= j < hi ==> RawGet(entries, KInt(j)) != Nil
    ensures IntKeys(lo, hi) <= KeysOf(entries)
    decreases hi - lo
  {
    if lo < hi {
      RawGetFindsKey(entries, KInt(lo));
      IntKeysPresent(entries, lo + 1, hi);
    }
  }

  /** Holding the keys 1 .. n takes at least n entries. */
  lemma IntKeysBound(entries: seq<(Key, SV)>, n: nat)
    requires n < MaxI64
    requires IntKeys(1, n + 1) <= KeysOf(entries)
    ensures n <= |entries|
  {
    IntKeysSize(1, n + 1);
    SubsetSize(IntKeys(1, n + 1), KeysOf(entries));
  }

  lemma {:induction false} SubsetSize(a: set<Key>, b: set<Key>)
    requires a <= b
    ensures |a| <= |b|
    decreases |a|
  {
    if a != {} {
      var x :| x in a;
      SubsetSize(a - {x}, b - {x});
    }
  }

  /** A table in which `t[1]` .. `t[n]` are all non-nil has at least n entries. */
  lemma SequenceBound(entries: seq<(Key, SV)>, n: nat)
    requires n < MaxI64
    requires forall j :: 1 <= j <= n ==> RawGet(entries, KInt(j)) != Nil
    ensures n <= |entries|
  {
    IntKeysPresent(entries, 1, n + 1);
    IntKeysBound(entries, n);
  }

  /** Past the last entry, the next integer key is absent. */
  lemma SequenceStops(entries: seq<(Key, SV)>, i: nat)
    requires |entries| < MaxI64 - 1 && i == |entries| + 1
    requires forall j :: 1 <= j < i ==> RawGet(entries, KInt(j)) != Nil
    ensures RawGet(entries, KInt(i)) == Nil
  {
    if RawGet(entries, KInt(i)) != Nil {
      SequenceBound(entries, i);
    }
  }

  /** `sequence_values` never reads past index |entries| + 1. */
  lemma {:induction false} SequenceFromLength(entries: seq<(Key, SV)>, i: nat)
    requires |entries| < MaxI64 - 1 && 1 <= i <= |entries| + 1
    ensures i + |SequenceFrom(entries, i)| <= |entries| + 1
    decreases |entries| + 1 - i
  {
    if i <= |entries| && RawGet(entries, KInt(i)) != Nil {
      SequenceFromLength(entries, i + 1);
    }
  }

  /** Item `j` of `sequence_values` from index `i` is `t[i + j]`. */
  lemma {:induction false} SequenceFromItem(entries: seq<(Key, SV)>, i: nat, j: nat)
    requires |entries| < MaxI64 - 1 && 1 <= i <= |entries| + 1
    requires j < |SequenceFrom(entries, i)|
    ensures i + j <= |entries|
    ensures SequenceFrom(entries, i)[j] == RawGet(entries, KInt(i + j))
    decreases j
  {
    SequenceFromLength(entries, i);
    if j > 0 {
      SequenceFromItem(entries, i + 1, j - 1);
    }
  }

  /** `sequence_values` stops only at a nil. */
  lemma {:induction false} SequenceFromStops(entries: seq<(Key, SV)>, i: nat)
    requires |entries| < MaxI64 - 1 && 1 <= i <= |entries| + 1
    requires forall j :: 1 <= j < i ==> RawGet(entries, KInt(j)) != Nil
    ensures i + |SequenceFrom(entries, i)| <= |entries| + 1
    ensures RawGet(entries, KInt(i + |SequenceFrom(entries, i)|)) == Nil
    decreases |entries| + 1 - i
  {
    SequenceFromLength(entries, i);
    if i > |entries| {
      SequenceStops(entries, i);
    } else if RawGet(entries, KInt(i)) != Nil {
      SequenceFromStops(entries, i + 1);
    }
  }

  /**
   * mlua's conversion of a value to a Rust `String` (`FromLua for String`): a
   * UTF-8 string as is, a number coerced to its Lua text, anything else an error.
   */
  function CoerceToString(v: SV): (r: Option<string>)
    ensures r.Some? <==> (v.Str? && v.s.Utf8?) || v.Int? || v.Num?
    ensures v.Int? ==> r == Some(Decimal(v.i))
  {
    match v
    case Str(Utf8(t)) => Some(t)
    case Int(i) => Some(Decimal(i))
    case Num(f) => Some(f.shown)
    case _ => None
  }

  /** The same conversion applied to a table key. */
  function KeyToString(k: Key): (r: Option<string>)
    ensures r.Some? <==> (k.KStr? && k.s.Utf8?) || k.KInt? || k.KNum?
  {
    match k
    case KStr(Utf8(t)) => Some(t)
    case KInt(i) => Some(Decimal(i))
    case KNum(f) => Some(f.shown)
    case _ => None
  }

  /** `pairs::<String, Value>()` collected into a `Result`: None as soon as one key does not convert. */
  function StringPairsAll(pairs: seq<(Key, SV)>): (r: Option<seq<(string, SV)>>)
    ensures r.Some? <==> forall i :: 0 <= i < |pairs| ==> KeyToString(pairs[i].0).Some?
    ensures r.Some? ==> |r.value| == |pairs| && forall i :: 0 <= i < |pairs| ==>
      r.value[i] == (KeyToString(pairs[i].0).value, pairs[i].1)
  {
    if pairs == [] then Some([])
    else
      match (KeyToString(pairs[0].0), StringPairsAll(pairs[1..]))
      case (Some(k), Some(rest)) => Some([(k, pairs[0].1)] + rest)
      case _ => None
  }

  /** `pairs::<String, Value>().flatten()`: the pairs whose key converts, in order. */
  function StringPairsFlatten(pairs: seq<(Key, SV)>): (r: seq<(string, SV)>)
    ensures |r| <= |pairs|
    ensures forall p :: p in r ==> exists i :: 0 <= i < |pairs| && KeyToString(pairs[i].0) == Some(p.0) && pairs[i].1 == p.1
  {
    if pairs == [] then []
    else
      var rest := StringPairsFlatten(pairs[1..]);
      match KeyToString(pairs[0].0)
      case Some(k) => [(k, pairs[0].1)] + rest
      case None => rest
  }

  /** When no key fails to convert, skipping failures and collecting agree. */
  lemma {:induction false} FlattenAgreesWithCollect(pairs: seq<(Key, SV)>)
    requires StringPairsAll(pairs).Some?
    ensures StringPairsFlatten(pairs) == StringPairsAll(pairs).value
  {
    if pairs != [] {
      FlattenAgreesWithCollect(pairs[1..]);
    }
  }
}

=== FILE: lua_api.dfy ===
/**
 * The older Lua API: `create_widget(type, props)`, the `gtk` table of widget
 * constructors keyed by short name, and the `layer_shell` table (`init`,
 * `set_layer`, `set_anchor`).
 */
module LuaApi {
  import opened Wrappers
  import opened Text
  import opened Lua
  import opened Gtk
  import opened LuaUtil
  import LayerShell

  function UnknownWidgetType(t: string): string {
    "Unknown widget type: " + t
  }

  function FailedToCreate(t: string, e: string): string {
    "Failed to create " + t + ": " + e
  }

  function NotAWidgetType(t: string): string {
    t + " is not a widget type"
  }

  // ---- create_gtk_widget ----------------------------------------------------------------

  /**
   * `widget.set_property(key, value)`: set when the widget has the property and
   * it accepts the value; otherwise the failure is only logged.
   */
  function TrySet(tk: Toolkit, w: Widget, key: string, g: GValue): (r: Widget)
    ensures r.typeName == w.typeName && r.signals == w.signals && r.children == w.children
  {
    match FindProperty(tk, w.typeName, key)
    case Some(target) => if tk.accepts(target, g) then w.(properties := w.properties[key := g]) else w
    case None => w
  }

  /** Whether one pair of the property table gets through the loop: its key reads as a string and its value converts. */
  predicate PairPasses(p: (Key, SV)) {
    KeyToString(p.0).Some? && ToGValue(p.1).Ok?
  }

  /** The error a failing pair raises. */
  function PairError(p: (Key, SV)): LuaError
    requires !PairPasses(p)
  {
    if KeyToString(p.0).None? then ConversionError else ToGValue(p.1).error
  }

  /**
   * The property loop over `pairs::<String, Value>()`: each pair is set in turn;
   * a key that is not a string or a value that does not convert ends the loop
   * with that error.
   */
  function SetAll(tk: Toolkit, w: Widget, pairs: seq<(Key, SV)>): (r: Result<Widget, LuaError>)
    ensures r.Ok? <==> forall i :: 0 <= i < |pairs| ==> PairPasses(pairs[i])
    ensures r.Err? ==> exists i :: (0 <= i < |pairs| && !PairPasses(pairs[i]) && r.error == PairError(pairs[i])
      && forall j :: 0 <= j < i ==> PairPasses(pairs[j]))
    ensures r.Ok? ==> r.value.typeName == w.typeName && r.value.signals == w.signals && r.value.children == w.children
    ensures r.Ok? ==> forall k :: k in r.value.properties && (k !in w.properties || r.value.properties[k] != w.properties[k]) ==>
      exists i :: 0 <= i < |pairs| && KeyToString(pairs[i].0) == Some(k) && ToGValue(pairs[i].1) == Ok(r.value.properties[k])
    ensures r.Ok? ==> w.properties.Keys <= r.value.properties.Keys
    decreases |pairs|
  {
    if pairs == [] then Ok(w)
    else if !PairPasses(pairs[0]) then Err(PairError(pairs[0]))
    else
      var next := TrySet(tk, w, KeyToString(pairs[0].0).value, ToGValue(pairs[0].1).value);
      var rest := SetAll(tk, next, pairs[1..]);
      assert forall i :: 0 <= i < |pairs[1..]| ==> pairs[1..][i] == pairs[i + 1];
      rest
  }

  /** `create_gtk_widget` as a function of its inputs. */
  function Created(tk: Toolkit, typeName: string, props: Option<seq<(Key, SV)>>): (r: Result<Widget, LuaError>)
    ensures typeName !in tk.types ==> r == Err(RuntimeError(UnknownWidgetType(typeName)))
    ensures typeName in tk.types && tk.types[typeName].createError.Some?
      ==> r == Err(RuntimeError(FailedToCreate(typeName, tk.types[typeName].createError.value)))
    ensures Instantiable(tk, typeName) && !IsWidgetType(tk, typeName) ==> r == Err(RuntimeError(NotAWidgetType(typeName)))
    ensures r.Ok? ==> r.value.typeName == typeName && r.value.children == [] && r.value.signals == []
    ensures r.Ok? <==> (Instantiable(tk, typeName) && IsWidgetType(tk, typeName)
      && (props.Some? ==> forall i :: 0 <= i < |Pairs(props.value)| ==> PairPasses(Pairs(props.value)[i])))
  {
    if typeName !in tk.types then Err(RuntimeError(UnknownWidgetType(typeName)))
    else if tk.types[typeName].createError.Some? then
      Err(RuntimeError(FailedToCreate(typeName, tk.types[typeName].createError.value)))
    else if !IsWidgetType(tk, typeName) then Err(RuntimeError(NotAWidgetType(typeName)))
    else if props.None? then Ok(NewWidget(typeName))
    else SetAll(tk, NewWidget(typeName), Pairs(props.value))
  }

  /**
   * `create_gtk_widget`: looks the type up, makes the object, checks that it is
   * a widget, then walks the property table with `pairs`.
   */
  method CreateGtkWidget(tk: Toolkit, typeName: string, props: Option<seq<(Key, SV)>>) returns (r: Result<Widget, LuaError>)
    ensures r == Created(tk, typeName, props)
  {
    if typeName !in tk.types {
      return Err(RuntimeError(UnknownWidgetType(typeName)));
    }
    var created := tk.types[typeName].createError;
    if created.Some? {
      return Err(RuntimeError(FailedToCreate(typeName, created.value)));
    }
    if !IsWidgetType(tk, typeName) {
      return Err(RuntimeError(NotAWidgetType(typeName)));
    }
    var widget := NewWidget(typeName);
    if props.Some? {
      var pairs := Pairs(props.value);
      for i := 0 to |pairs|
        invariant SetAll(tk, widget, pairs[i..]) == SetAll(tk, NewWidget(typeName), pairs)
      {
        assert pairs[i..][1..] == pairs[i + 1..];
        var p := pairs[i];
        var key := KeyToString(p.0);
        if key.None? {
          return Err(ConversionError);
        }
        var g := ToGValue(p.1);
        if g.Err? {
          return Err(g.error);
        }
        widget := TrySet(tk, widget, key.value, g.value);
      }
    }
    return Ok(widget);
  }

  // ---- the gtk constructor table ------------------------------------------------------

  /** The types that get a constructor in the `gtk` table, in table order. */
  const WidgetTypes: seq<string> := [
    "GtkApplicationWindow", "GtkWindow", "GtkButton", "GtkLabel",
    "GtkEntry", "GtkBox", "GtkGrid", "GtkNotebook", "GtkPaned",
    "GtkScrolledWindow", "GtkViewport", "GtkFrame", "GtkAspectFrame",
    "GtkCheckButton", "GtkRadioButton", "GtkToggleButton", "GtkSwitch",
    "GtkScale", "GtkSpinButton", "GtkProgressBar", "GtkLevelBar",
    "GtkImage", "GtkPicture", "GtkVideo", "GtkSpinner",
    "GtkTextView", "GtkTreeView", "GtkListBox", "GtkFlowBox",
    "GtkMenuButton", "GtkDropDown", "GtkComboBox", "GtkSearchEntry",
    "GtkPasswordEntry", "GtkCalendar", "GtkColorButton", "GtkFontButton",
    "GtkFileChooserButton", "GtkSeparator", "GtkExpander"]

  /** `strip_prefix("Gtk").unwrap_or(name)`. */
  function ShortName(t: string): (r: string)
    ensures StartsWith(t, "Gtk") ==> "Gtk" + r == t
    ensures !StartsWith(t, "Gtk") ==> r == t
  {
    if StartsWith(t, "Gtk") then t[3..] else t
  }

  /** A constructor in the table: `create_gtk_widget` for a type, or the application-window one. */
  datatype Constructor = ForType(typeName: string) | AppWindow

  /** The table after the loop over `names`: each short name bound to its type's constructor. */
  function Constructors(names: seq<string>): map<string, Constructor>
    decreases |names|
  {
    if names == [] then map[]
    else
      var last := names[|names| - 1];
      Constructors(names[..|names| - 1])[ShortName(last) := ForType(last)]
  }

  /** The keys after the loop are exactly the short names. */
  lemma {:induction false} ConstructorsKeys(names: seq<string>, k: string)
    ensures k in Constructors(names) <==> exists i :: 0 <= i < |names| && ShortName(names[i]) == k
    decreases |names|
  {
    if names != [] {
      var n := |names|;
      var init := names[..n - 1];
      ConstructorsKeys(init, k);
      if exists i :: 0 <= i < |names| && ShortName(names[i]) == k {
        var i :| 0 <= i < |names| && ShortName(names[i]) == k;
        if i < n - 1 {
          assert init[i] == names[i];
        }
      }
      if exists i :: 0 <= i < |init| && ShortName(init[i]) == k {
        var i :| 0 <= i < |init| && ShortName(init[i]) == k;
        assert names[i] == init[i];
      }
    }
  }

  /** The `gtk` table: the loop, then the ApplicationWindow entry overwritten. */
  function ConstructorTable(names: seq<string>): map<string, Constructor> {
    Constructors(names)["ApplicationWindow" := AppWindow]
  }

  /** The loop, as the source writes it. */
  method MakeConstructorTable(names: seq<string>) returns (m: map<string, Constructor>)
    ensures m == ConstructorTable(names)
  {
    m := map[];
    for i := 0 to |names|
      invariant m == Constructors(names[..i])
    {
      assert names[..i + 1][..i] == names[..i];
      m := m[ShortName(names[i]) := ForType(names[i])];
    }
    assert names[..|names|] == names;
    m := m["ApplicationWindow" := AppWindow];
  }

  /**
   * With names all starting with "Gtk", each name's short form leads to that
   * name's constructor: two names with one short form are the same name.
   */
  lemma {:induction false} ConstructorsAt(names: seq<string>, j: int)
    requires forall i :: 0 <= i < |names| ==> StartsWith(names[i], "Gtk")
    requires 0 <= j < |names|
    ensures ShortName(names[j]) in Constructors(names) && Constructors(names)[ShortName(names[j])] == ForType(names[j])
    decreases |names|
  {
    var n := |names|;
    var init := names[..n - 1];
    var last := names[n - 1];
    assert Constructors(names) == Constructors(init)[ShortName(last) := ForType(last)];
    if j < n - 1 {
      assert init[j] == names[j];
      assert forall i :: 0 <= i < |init| ==> init[i] == names[i];
      ConstructorsAt(init, j);
      if ShortName(last) == ShortName(names[j]) {
        SameShortName(last, names[j]);
      }
    }
  }

  /** Two "Gtk" names with one short form are the same name. */
  lemma SameShortName(a: string, b: string)
    requires StartsWith(a, "Gtk") && StartsWith(b, "Gtk") && ShortName(a) == ShortName(b)
    ensures a == b
  {
    assert a == "Gtk" + ShortName(a);
    assert b == "Gtk" + ShortName(b);
  }

  /** Every listed type starts with "Gtk". */
  lemma WidgetTypesArePrefixed()
    ensures forall i :: 0 <= i < |WidgetTypes| ==> StartsWith(WidgetTypes[i], "Gtk")
  {
  }

  /** The table for any list of "Gtk" names: every name under its short form, but for the one `ApplicationWindow` takes. */
  lemma TableAt(names: seq<string>, j: int)
    requires forall i :: 0 <= i < |names| ==> StartsWith(names[i], "Gtk")
    requires 0 <= j < |names| && ShortName(names[j]) != "ApplicationWindow"
    ensures ShortName(names[j]) in ConstructorTable(names) && ConstructorTable(names)[ShortName(names[j])] == ForType(names[j])
    ensures "ApplicationWindow" in ConstructorTable(names) && ConstructorTable(names)["ApplicationWindow"] == AppWindow
  {
    ConstructorsAt(names, j);
  }

  /**
   * In the `gtk` table every listed type but GtkApplicationWindow is reachable
   * under its name without "Gtk", and `ApplicationWindow` is the application-window
   * constructor.
   */
  lemma GtkTable(j: int)
    requires 0 <= j < |WidgetTypes| && ShortName(WidgetTypes[j]) != "ApplicationWindow"
    ensures ShortName(WidgetTypes[j]) in ConstructorTable(WidgetTypes)
      && ConstructorTable(WidgetTypes)[ShortName(WidgetTypes[j])] == ForType(WidgetTypes[j])
    ensures "ApplicationWindow" in ConstructorTable(WidgetTypes) && ConstructorTable(WidgetTypes)["ApplicationWindow"] == AppWindow
  {
    WidgetTypesArePrefixed();
    TableAt(WidgetTypes, j);
  }

  /** The keys of the `gtk` table are exactly the short names. */
  lemma GtkTableKeys(k: string)
    ensures k in ConstructorTable(WidgetTypes) <==> exists i :: 0 <= i < |WidgetTypes| && ShortName(WidgetTypes[i]) == k
  {
    var i := 0;
    assert WidgetTypes[i] == "GtkApplicationWindow";
    assert ShortName(WidgetTypes[i]) == "ApplicationWindow";
    TableKeys(WidgetTypes, k, i);
  }

  /** The keys of the table for names among which one has the short name `ApplicationWindow`. */
  lemma TableKeys(names: seq<string>, k: string, app: int)
    requires 0 <= app < |names| && ShortName(names[app]) == "ApplicationWindow"
    ensures k in ConstructorTable(names) <==> exists i :: 0 <= i < |names| && ShortName(names[i]) == k
  {
    ConstructorsKeys(names, k);
  }

  /**
   * `gtk.ApplicationWindow(props)`: a new application window with the
   * properties set by the same loop. Unlike `create_widget`, it cannot fail on
   * the type.
   */
  function CreatedAppWindow(tk: Toolkit, props: Option<seq<(Key, SV)>>): (r: Result<Widget, LuaError>)
    ensures r.Ok? <==> (props.Some? ==> forall i :: 0 <= i < |Pairs(props.value)| ==> PairPasses(Pairs(props.value)[i]))
    ensures r.Ok? ==> r.value.typeName == ApplicationWindow && r.value.children == []
  {
    if props.None? then Ok(NewWidget(ApplicationWindow)) else SetAll(tk, NewWidget(ApplicationWindow), Pairs(props.value))
  }

  // ---- the layer_shell table ------------------------------------------------------------

  /** Whether a widget can take the layer-shell calls: an ApplicationWindow or a Window. */
  predicate IsWindow(t: string) {
    IsA(t, ApplicationWindow) || IsA(t, Gtk.Window)
  }

  /** `layer_shell.init`. */
  function Init(t: string, w: LayerShell.Window): (r: LayerShell.Window)
    ensures IsWindow(t) ==> r.layerShell && r.calls == w.calls + [LayerShell.InitLayerShell]
    ensures !IsWindow(t) ==> r == w
  {
    if IsWindow(t) then LayerShell.Perform(w, LayerShell.InitLayerShell) else w
  }

  /** The layer `set_layer` names: the four names, and Overlay for anything else. */
  function LayerCalled(name: string): (l: LayerShell.Layer)
    ensures name == "background" <==> l == LayerShell.BackgroundLayer
    ensures name == "bottom" <==> l == LayerShell.BottomLayer
    ensures name == "top" <==> l == LayerShell.TopLayer
  {
    match name
    case "background" => LayerShell.BackgroundLayer
    case "bottom" => LayerShell.BottomLayer
    case "top" => LayerShell.TopLayer
    case "overlay" => LayerShell.OverlayLayer
    case _ => LayerShell.OverlayLayer
  }

  /** `layer_shell.set_layer`. */
  function SetLayerOn(t: string, w: LayerShell.Window, name: string): (r: LayerShell.Window)
    ensures IsWindow(t) ==> r.layer == Some(LayerCalled(name)) && r.anchors == w.anchors
    ensures !IsWindow(t) ==> r == w
  {
    if IsWindow(t) then LayerShell.Perform(w, LayerShell.SetLayer(LayerCalled(name))) else w
  }

  /** The edge an anchor name denotes. */
  function EdgeNamed(s: string): Option<LayerShell.Edge> {
    match s
    case "top" => Some(LayerShell.Top)
    case "bottom" => Some(LayerShell.Bottom)
    case "left" => Some(LayerShell.Left)
    case "right" => Some(LayerShell.Right)
    case _ => None
  }

  const Edges: seq<LayerShell.Edge> := [LayerShell.Top, LayerShell.Bottom, LayerShell.Left, LayerShell.Right]

  /** The calls for the listed names: one anchoring call per recognised name, in order. */
  function AnchorCallsFor(names: seq<string>): (cs: seq<LayerShell.Call>)
    ensures forall i :: 0 <= i < |cs| ==> cs[i].SetAnchor? && cs[i].anchored
    decreases |names|
  {
    if names == [] then []
    else
      var last := names[|names| - 1];
      var init := AnchorCallsFor(names[..|names| - 1]);
      assert forall i :: 0 <= i < |names| - 1 ==> names[..|names| - 1][i] == names[i];
      match EdgeNamed(last)
      case Some(e) => init + [LayerShell.SetAnchor(e, true)]
      case None => init
  }

  /** An edge gets an anchoring call exactly when some name denotes it. */
  lemma {:induction false} AnchorCallsForEdges(names: seq<string>, e: LayerShell.Edge)
    ensures (exists i :: 0 <= i < |AnchorCallsFor(names)| && AnchorCallsFor(names)[i].edge == e)
      <==> (exists i :: 0 <= i < |names| && EdgeNamed(names[i]) == Some(e))
    decreases |names|
  {
    if names != [] {
      var n := |names|;
      var init := names[..n - 1];
      AnchorCallsForEdges(init, e);
      var cs := AnchorCallsFor(names);
      var ics := AnchorCallsFor(init);
      assert forall i :: 0 <= i < |ics| ==> cs[i] == ics[i];
      if exists i :: 0 <= i < |names| && EdgeNamed(names[i]) == Some(e) {
        var i :| 0 <= i < |names| && EdgeNamed(names[i]) == Some(e);
        if i < n - 1 {
          assert init[i] == names[i];
        } else {
          assert cs[|cs| - 1].edge == e;
        }
      }
      if exists i :: 0 <= i < |cs| && cs[i].edge == e {
        var i :| 0 <= i < |cs| && cs[i].edge == e;
        if i < |ics| {
          var k :| 0 <= k < |init| && EdgeNamed(init[k]) == Some(e);
          assert names[k] == init[k];
        } else {
          assert EdgeNamed(names[n - 1]) == Some(e);
        }
      }
    }
  }

  /** The calls `set_anchor(names)` makes on a window: clear the four edges, then anchor the named ones. */
  function SetAnchorCalls(names: seq<string>): seq<LayerShell.Call> {
    ClearCalls + AnchorCallsFor(names)
  }

  /** The first loop of `set_anchor`: every edge set to false. */
  const ClearCalls: seq<LayerShell.Call> := [
    LayerShell.SetAnchor(LayerShell.Top, false), LayerShell.SetAnchor(LayerShell.Bottom, false),
    LayerShell.SetAnchor(LayerShell.Left, false), LayerShell.SetAnchor(LayerShell.Right, false)]

  /** After the first loop every edge is present and false. */
  lemma Cleared(anchors: map<LayerShell.Edge, bool>, e: LayerShell.Edge)
    ensures e in LayerShell.AnchorsAfter(anchors, ClearCalls) && !LayerShell.AnchorsAfter(anchors, ClearCalls)[e]
  {
    var m1 := anchors[LayerShell.Top := false];
    assert ClearCalls[1..] == [LayerShell.SetAnchor(LayerShell.Bottom, false),
      LayerShell.SetAnchor(LayerShell.Left, false), LayerShell.SetAnchor(LayerShell.Right, false)];
    assert LayerShell.AnchorsAfter(anchors, ClearCalls) == LayerShell.AnchorsAfter(m1, ClearCalls[1..]);
    var m2 := m1[LayerShell.Bottom := false];
    assert ClearCalls[2..] == ClearCalls[1..][1..];
    assert LayerShell.AnchorsAfter(anchors, ClearCalls) == LayerShell.AnchorsAfter(m2, ClearCalls[2..]);
    var m3 := m2[LayerShell.Left := false];
    assert ClearCalls[3..] == ClearCalls[2..][1..];
    assert LayerShell.AnchorsAfter(anchors, ClearCalls) == LayerShell.AnchorsAfter(m3, ClearCalls[3..]);
    var m4 := m3[LayerShell.Right := false];
    assert ClearCalls[3..][1..] == [];
    assert LayerShell.AnchorsAfter(anchors, ClearCalls) == m4;
  }

  /** `layer_shell.set_anchor`: the two loops, on a window; anything else is left alone. */
  method SetAnchorOn(t: string, w: LayerShell.Window, names: seq<string>) returns (r: LayerShell.Window)
    ensures IsWindow(t) ==> r == LayerShell.PerformAll(w, SetAnchorCalls(names))
    ensures !IsWindow(t) ==> r == w
  {
    if !IsWindow(t) {
      return w;
    }
    r := w;
    ghost var clears: seq<LayerShell.Call> := [];
    for i := 0 to |Edges|
      invariant clears == seq(i, k requires 0 <= k < i => LayerShell.SetAnchor(Edges[k], false))
      invariant r == LayerShell.PerformAll(w, clears)
    {
      LayerShell.PerformAllAppend(w, clears, [LayerShell.SetAnchor(Edges[i], false)]);
      LayerShell.PerformOne(r, LayerShell.SetAnchor(Edges[i], false));
      r := LayerShell.Perform(r, LayerShell.SetAnchor(Edges[i], false));
      clears := clears + [LayerShell.SetAnchor(Edges[i], false)];
    }
    ghost var cleared := r;
    for i := 0 to |names|
      invariant r == LayerShell.PerformAll(cleared, AnchorCallsFor(names[..i]))
    {
      assert names[..i + 1][..i] == names[..i];
      var e := EdgeNamed(names[i]);
      if e.Some? {
        LayerShell.PerformAllAppend(cleared, AnchorCallsFor(names[..i]), [LayerShell.SetAnchor(e.value, true)]);
        LayerShell.PerformOne(r, LayerShell.SetAnchor(e.value, true));
        r := LayerShell.Perform(r, LayerShell.SetAnchor(e.value, true));
      }
    }
    assert names[..|names|] == names;
    assert clears == ClearCalls;
    LayerShell.PerformAllAppend(w, clears, AnchorCallsFor(names));
  }

  /** Anchoring calls only: an edge ends up true if some call names it, and keeps its value otherwise. */
  lemma {:induction false} AnchoringCalls(anchors: map<LayerShell.Edge, bool>, cs: seq<LayerShell.Call>, e: LayerShell.Edge)
    requires forall i :: 0 <= i < |cs| ==> cs[i].SetAnchor? && cs[i].anchored
    ensures (exists i :: 0 <= i < |cs| && cs[i].edge == e) ==> e in LayerShell.AnchorsAfter(anchors, cs) && LayerShell.AnchorsAfter(anchors, cs)[e]
    ensures (forall i :: 0 <= i < |cs| ==> cs[i].edge != e) ==>
      (e in LayerShell.AnchorsAfter(anchors, cs) <==> e in anchors) && (e in anchors ==> LayerShell.AnchorsAfter(anchors, cs)[e] == anchors[e])
    decreases |cs|
  {
    if cs != [] {
      var next := anchors[cs[0].edge := cs[0].anchored];
      assert forall i :: 0 <= i < |cs[1..]| ==> cs[1..][i] == cs[i + 1];
      AnchoringCalls(next, cs[1..], e);
      if cs[0].edge != e && exists i :: 0 <= i < |cs| && cs[i].edge == e {
        var i :| 0 <= i < |cs| && cs[i].edge == e;
        assert cs[1..][i - 1].edge == e;
      }
    }
  }

  /**
   * After `set_anchor(names)` on a window, the anchored edges are exactly the
   * recognised names; every other edge is set to false, and unknown names do nothing.
   */
  lemma SetAnchorResult(w: LayerShell.Window, names: seq<string>, e: LayerShell.Edge)
    ensures var r := LayerShell.PerformAll(w, SetAnchorCalls(names)).anchors;
      e in r && (r[e] <==> exists i :: 0 <= i < |names| && EdgeNamed(names[i]) == Some(e))
  {
    var sets := AnchorCallsFor(names);
    LayerShell.PerformAllSpec(w, SetAnchorCalls(names));
    Cleared(w.anchors, e);
    var cleared := LayerShell.AnchorsAfter(w.anchors, ClearCalls);
    LayerShell.AnchorsAfterAppend(w.anchors, ClearCalls, sets);
    AnchoringCalls(cleared, sets, e);
    AnchorCallsForEdges(names, e);
    var r := LayerShell.AnchorsAfter(cleared, sets);
    assert LayerShell.PerformAll(w, SetAnchorCalls(names)).anchors == r;
    if !exists i :: 0 <= i < |sets| && sets[i].edge == e {
      assert forall i :: 0 <= i < |sets| ==> sets[i].edge != e;
      assert r[e] == cleared[e];
    }
  }

}

=== FILE: lua_driver.dfy ===
/**
 * `LuaWrapper`, the implementation of the `ScriptValue` interface over a Lua
 * value: type tests, conversions, table access and calling a function.
 */
module LuaDriver {
  import opened Wrappers
  import opened Lua
  import opened Casts

  predicate IsString(v: SV) { v.Str? }

  /** Lua has two number subtypes and both count as numbers. */
  predicate IsNumber(v: SV) { v.Num? || v.Int? }

  predicate IsBool(v: SV) { v.Bool? }

  predicate IsFunction(v: SV) { v.Func? }

  /** Each type test picks out exactly one kind of value (two for numbers). */
  lemma TypeTestsAreExclusive(v: SV)
    ensures IsString(v) ==> !IsNumber(v) && !IsBool(v) && !IsFunction(v)
    ensures IsNumber(v) ==> !IsBool(v) && !IsFunction(v)
    ensures IsBool(v) ==> !IsFunction(v)
    ensures IsNumber(v) <==> (exists i :: v == Int(i)) || (exists f :: v == Num(f))
  {
    if v.Int? {
      assert v == Int(v.i);
    } else if v.Num? {
      assert v == Num(v.f);
    }
  }

  /** `as_string`: only a string, and only when its bytes are valid UTF-8. */
  function AsString(v: SV): (r: Option<string>)
    ensures r.Some? <==> v.Str? && v.s.Utf8?
    ensures r.Some? ==> v == Str(Utf8(r.value))
  {
    match v
    case Str(Utf8(t)) => Some(t)
    case _ => None
  }

  /** `as_number`: a float as is, an integer converted with `as f64`. */
  function AsNumber(v: SV): (r: Option<FloatValue>)
    ensures r.Some? <==> IsNumber(v)
    ensures v.Num? ==> r == Some(v.f.value)
  {
    match v
    case Num(f) => Some(f.value)
    case Int(i) => Some(I64ToF64(i))
    case _ => None
  }

  /** `as_integer`: an integer as is, a float converted with `as i64`. */
  function AsInteger(v: SV): (r: Option<Int64>)
    ensures r.Some? <==> IsNumber(v)
    ensures v.Int? ==> r == Some(v.i)
  {
    match v
    case Int(i) => Some(i)
    case Num(f) => Some(F64ToI64(f.value))
    case _ => None
  }

  /** `as_bool`: only a boolean; there is no truthiness coercion. */
  function AsBool(v: SV): (r: Option<bool>)
    ensures r.Some? <==> v.Bool?
    ensures r == Some(true) <==> v == Bool(true)
  {
    match v
    case Bool(b) => Some(b)
    case _ => None
  }

  /**
   * `get_property(key)`: None on anything but a table. On a table it is always
   * Some, and holds nil when the key is missing.
   */
  function GetProperty(v: SV, key: string): (r: Option<SV>)
    ensures r.Some? <==> v.Table?
    ensures v.Table? && (forall i :: 0 <= i < |v.entries| ==> v.entries[i].0 != StrKey(key)) ==> r == Some(Nil)
    ensures r.Some? && r.value != Nil ==> (StrKey(key), r.value) in v.entries
    ensures v.Table? ==> r == Some(RawGet(v.entries, StrKey(key)))
  {
    match v
    case Table(entries) => Some(RawGet(entries, StrKey(key)))
    case _ => None
  }

  /** `get_array_items`: the sequence part of a table, None on anything else. */
  function GetArrayItems(v: SV): (r: Option<seq<SV>>)
    ensures r.Some? <==> v.Table?
  {
    match v
    case Table(entries) => Some(SequenceValues(entries))
    case _ => None
  }

  /** The array items are `t[1]`, `t[2]`, ... in index order, up to the first nil. */
  lemma ArrayItemsInIndexOrder(v: SV)
    requires v.Table? && |v.entries| < MaxI64 - 1
    ensures |GetArrayItems(v).value| < MaxI64
    ensures forall j :: 0 <= j < |GetArrayItems(v).value| ==>
      GetArrayItems(v).value[j] == RawGet(v.entries, KInt(j + 1))
    ensures RawGet(v.entries, KInt(|GetArrayItems(v).value| + 1)) == Nil
  {
    SequenceFromStops(v.entries, 1);
    forall j | 0 <= j < |GetArrayItems(v).value|
      ensures GetArrayItems(v).value[j] == RawGet(v.entries, KInt(j + 1))
    {
      SequenceFromItem(v.entries, 1, j);
    }
  }

  /**
   * `get_map_entries`: every pair of a table with its key converted to a `String`;
   * None on a non-table, and None when some key does not convert.
   */
  function GetMapEntries(v: SV): (r: Option<seq<(string, SV)>>)
    ensures r.Some? <==> v.Table? && forall p :: p in Pairs(v.entries) ==> KeyToString(p.0).Some?
    ensures r.Some? ==> |r.value| == |Pairs(v.entries)|
    ensures r.Some? ==> forall i :: 0 <= i < |r.value| ==>
      r.value[i] == (KeyToString(Pairs(v.entries)[i].0).value, Pairs(v.entries)[i].1)
  {
    match v
    case Table(entries) =>
      var ps := Pairs(entries);
      var all := StringPairsAll(ps);
      assert all.Some? <==> forall p :: p in ps ==> KeyToString(p.0).Some? by {
        if forall p :: p in ps ==> KeyToString(p.0).Some? {
          assert forall i :: 0 <= i < |ps| ==> ps[i] in ps;
        }
      }
      all
    case _ => None
  }

  /**
   * `call_void`: calls a function, whose outcome (`outcome`, the error text of a
   * Lua error) lies outside the model; anything else is "Not a function".
   */
  function CallVoid(v: SV, outcome: Result<(), string>): (r: Result<(), string>)
    ensures !v.Func? ==> r == Err("Not a function")
    ensures v.Func? ==> r == outcome
  {
    if v.Func? then outcome else Err("Not a function")
  }

  /** `get_property(key).and_then(|v| v.as_string())`: a string field of a table. */
  function StringField(v: SV, key: string): (r: Option<string>)
    ensures r.Some? ==> v.Table? && (StrKey(key), Str(Utf8(r.value))) in v.entries
    ensures v.Table? ==> r == AsString(RawGet(v.entries, StrKey(key)))
  {
    match GetProperty(v, key)
    case Some(x) => AsString(x)
    case None => None
  }

  /** `get_property(key).and_then(|v| v.as_bool())`. */
  function BoolField(v: SV, key: string): (r: Option<bool>)
    ensures r.Some? ==> v.Table? && (StrKey(key), Bool(r.value)) in v.entries
    ensures v.Table? ==> r == AsBool(RawGet(v.entries, StrKey(key)))
  {
    match GetProperty(v, key)
    case Some(x) => AsBool(x)
    case None => None
  }

  /** `get_property(key).and_then(|v| v.as_integer())`. */
  function IntegerField(v: SV, key: string): (r: Option<Int64>)
    ensures r.Some? ==> v.Table? && exists x :: (StrKey(key), x) in v.entries && IsNumber(x)
    ensures v.Table? ==> r == AsInteger(RawGet(v.entries, StrKey(key)))
  {
    match GetProperty(v, key)
    case Some(x) => AsInteger(x)
    case None => None
  }

  /**
   * A field read finds the first entry stored under the key: `get_property` yields its
   * value, and the string, boolean and integer readers convert that value.
   */
  lemma FieldsReadFirstEntry(v: SV, key: string, i: nat)
    requires v.Table? && i < |v.entries| && v.entries[i].0 == StrKey(key)
    requires forall j :: 0 <= j < i ==> v.entries[j].0 != StrKey(key)
    ensures GetProperty(v, key) == Some(v.entries[i].1)
    ensures StringField(v, key) == AsString(v.entries[i].1)
    ensures BoolField(v, key) == AsBool(v.entries[i].1)
    ensures IntegerField(v, key) == AsInteger(v.entries[i].1)
  {
    RawGetFirst(v.entries, StrKey(key), i);
  }

  /** The map entries are the pairs `pairs` visits, each with its key as a string. */
  lemma MapEntriesArePairs(v: SV, k: string, x: SV)
    requires GetMapEntries(v).Some? && (k, x) in GetMapEntries(v).value
    ensures exists p :: p in Pairs(v.entries) && KeyToString(p.0) == Some(k) && p.1 == x && RawGet(v.entries, p.0) == x
  {
    var es := GetMapEntries(v).value;
    var i :| 0 <= i < |es| && es[i] == (k, x);
    PairsAgreeWithRawGet(v.entries, {});
    assert Pairs(v.entries)[i] in Pairs(v.entries);
  }
}

=== FILE: lua_util.dfy ===
/**
 * The helpers of the older Lua API: value conversion in both directions
 * between Lua and GLib, adding a child by container kind, and the test for a
 * widget that can become a layer surface.
 */
module LuaUtil {
  import opened Wrappers
  import opened Text
  import opened Lua
  import opened Casts
  import opened Gtk
  import opened Containers

  /** `mlua::Error`, as far as these helpers raise it. */
  datatype LuaError =
    | RuntimeError(message: string)
    | ConversionError            // a Lua string that is not valid UTF-8, read as `&str`

  const Unsupported: string := "Unsupported value type"

  function CannotAdd(t: string): string {
    "Cannot add child to widget of type: " + t
  }

  /** Whether a Lua value is one of the four kinds `lua_value_to_gvalue` takes. */
  predicate Convertible(v: SV) {
    v.Str? || v.Int? || v.Num? || v.Bool?
  }

  /**
   * `lua_value_to_gvalue`: strings (valid UTF-8 only), integers wrapped to i32,
   * numbers and booleans; anything else is refused.
   */
  function ToGValue(v: SV): (r: Result<GValue, LuaError>)
    ensures r.Ok? <==> Convertible(v) && !(v.Str? && v.s.NotUtf8?)
    ensures !Convertible(v) ==> r == Err(RuntimeError(Unsupported))
    ensures v.Int? ==> r.Ok? && r.value.GI32? && MinI32 <= r.value.i <= MaxI32 && (r.value.i - v.i) % TwoTo32 == 0
  {
    match v
    case Str(Utf8(text)) => Ok(GStr(text))
    case Str(NotUtf8(_)) => Err(ConversionError)
    case Int(i) => Ok(GI32(WrapI32(i)))
    case Num(f) => Ok(GF64(f.value))
    case Bool(b) => Ok(GBool(b))
    case _ => Err(RuntimeError(Unsupported))
  }

  /**
   * `gvalue_to_lua_value`: probes string, i32, f64 and bool in that order; a
   * value of any other type becomes nil. `shown` is how Lua will render the
   * float it makes from a double.
   */
  function FromGValue(g: GValue, shown: FloatValue -> string): (r: SV)
    ensures r == Nil <==> !(g.GStr? || g.GI32? || g.GF64? || g.GBool?)
  {
    if g.GStr? then Str(Utf8(g.s))
    else if g.GI32? then Int(g.i as Int64)
    else if g.GF64? then Num(LuaFloat(g.f, shown(g.f)))
    else if g.GBool? then Bool(g.b)
    else Nil
  }

  /**
   * Lua to GLib and back: strings, booleans and numbers come back as they were
   * (a number as the same double), an integer comes back wrapped to i32, so it
   * comes back unchanged exactly when it fits in 32 bits.
   */
  lemma RoundTrip(v: SV, shown: FloatValue -> string)
    requires ToGValue(v).Ok?
    ensures v.Str? || v.Bool? ==> FromGValue(ToGValue(v).value, shown) == v
    ensures v.Num? ==> FromGValue(ToGValue(v).value, shown).Num? && FromGValue(ToGValue(v).value, shown).f.value == v.f.value
    ensures v.Int? ==> FromGValue(ToGValue(v).value, shown) == Int(WrapI32(v.i) as Int64)
    ensures v.Int? ==> (FromGValue(ToGValue(v).value, shown) == v <==> MinI32 <= v.i <= MaxI32)
  {
    if v.Int? {
      if MinI32 <= v.i <= MaxI32 {
        WrapI32Identity(v.i);
      }
    }
  }

  /** GLib to Lua and back, for the four types both directions know. */
  lemma BackRoundTrip(g: GValue, shown: FloatValue -> string)
    requires g.GStr? || g.GI32? || g.GF64? || g.GBool?
    ensures ToGValue(FromGValue(g, shown)) == Ok(g)
  {
    if g.GI32? {
      WrapI32Identity(g.i);
    }
  }

  /**
   * How `add_child_to_container` places a child in a widget of type `t`: the
   * first kind that matches, in the order windows, boxes, grids, buttons,
   * frames, scrolled windows, expanders, notebooks; None when no kind matches.
   */
  function PlacementFor(t: string): (r: Option<Slot>)
    ensures IsA(t, Window) ==> r == Some(SingleChild)
    ensures r == Some(GridCell(0, 0, 1, 1)) <==> t == "GtkGrid"
    ensures r == Some(NotebookPage(None)) <==> t == "GtkNotebook"
    ensures r == Some(Appended) <==> IsA(t, Box) && !IsA(t, Window)
    ensures r == Some(SingleChild) <==> (IsA(t, Window)
      || (!IsA(t, Box) && !IsA(t, "GtkGrid") && (IsA(t, Button) || IsA(t, "GtkFrame")
        || IsA(t, "GtkScrolledWindow") || IsA(t, "GtkExpander"))))
    ensures r.None? <==> !(IsA(t, Window) || IsA(t, Box) || IsA(t, "GtkGrid") || IsA(t, Button) || IsA(t, "GtkFrame")
                           || IsA(t, "GtkScrolledWindow") || IsA(t, "GtkExpander") || IsA(t, "GtkNotebook"))
  {
    if IsA(t, ApplicationWindow) then Some(SingleChild)
    else if IsA(t, Window) then Some(SingleChild)
    else if IsA(t, Box) then Some(Appended)
    else if IsA(t, "GtkGrid") then Some(GridCell(0, 0, 1, 1))
    else if IsA(t, Button) then Some(SingleChild)
    else if IsA(t, "GtkFrame") then Some(SingleChild)
    else if IsA(t, "GtkScrolledWindow") then Some(SingleChild)
    else if IsA(t, "GtkExpander") then Some(SingleChild)
    else if IsA(t, "GtkNotebook") then Some(NotebookPage(None))
    else None
  }

  /** The child list after placing a child: a single-child slot is replaced, anything else appended. */
  function Placed(children: seq<(Slot, Widget)>, slot: Slot, child: Widget): seq<(Slot, Widget)> {
    if slot == SingleChild then ReplaceSlot(children, SingleChild, child) else children + [(slot, child)]
  }

  /**
   * `add_child_to_container`: places the child by the container's kind, or
   * fails naming the container's type and leaves it unchanged.
   */
  method AddChildToContainer(c: ContainerWidget, child: Widget) returns (r: Result<(), LuaError>)
    modifies c
    ensures r.Err? <==> PlacementFor(old(c.widget.typeName)).None?
    ensures r.Err? ==> r.error == RuntimeError(CannotAdd(old(c.widget.typeName))) && c.widget == old(c.widget)
    ensures r.Ok? ==> c.widget == old(c.widget).(children :=
      Placed(old(c.widget.children), PlacementFor(old(c.widget.typeName)).value, child))
    ensures c.warnings == old(c.warnings)
  {
    var t := c.widget.typeName;
    var slot := PlacementFor(t);
    if slot.None? {
      return Err(RuntimeError(CannotAdd(t)));
    }
    if slot.value == SingleChild {
      c.widget := c.widget.(children := ReplaceSlot(c.widget.children, SingleChild, child));
    } else {
      c.widget := c.widget.(children := c.widget.children + [(slot.value, child)]);
    }
    return Ok(());
  }

  /**
   * A placed child is the only single child afterwards, or is the last child;
   * either way it is held by its parent, and nothing in other slots moves.
   */
  lemma PlacedSpec(children: seq<(Slot, Widget)>, slot: Slot, child: Widget, other: Slot)
    ensures slot == SingleChild ==> InSlot(Placed(children, slot, child), SingleChild) == [child]
    ensures slot != SingleChild ==> (Placed(children, slot, child)[..|children|] == children
      && Placed(children, slot, child)[|children|] == (slot, child))
    ensures other != slot ==> InSlot(Placed(children, slot, child), other) == InSlot(children, other)
  {
    if slot == SingleChild {
      ReplaceSlotSpec(children, SingleChild, child, other);
    } else {
      InSlotAppend(children, [(slot, child)], other);
      assert [(slot, child)][1..] == [];
    }
  }

  /** A type none of the kinds matches: the GTK types with a `WidgetContainer` impl that this helper refuses. */
  lemma RefusedContainers()
    ensures PlacementFor("GtkStack").None? && PlacementFor("GtkListBox").None?
  {
  }

  /** `is_layer_shell_compatible`. */
  predicate LayerShellCompatible(t: string) {
    IsA(t, ApplicationWindow) || IsA(t, Window)
  }

  /** Being an ApplicationWindow already makes a type a Window, so the test is "is a Window". */
  lemma LayerShellCompatibleIsWindow(t: string)
    ensures LayerShellCompatible(t) <==> t in WindowTypes
  {
  }
}

=== FILE: pango.dfy ===
/**
 * Pango markup from Markdown: the escaping of text for Pango markup
 * (`pango_escape_text`) and the converter that turns the Markdown parser's
 * events into markup (`PangoConverter`). The parser itself is not modelled;
 * its events are the input.
 */
module Pango {
  import opened Text

  // ---- escaping -----------------------------------------------------------------------

  /** The characters Pango markup gives a meaning to. */
  predicate IsMarkupSpecial(c: char) {
    c == '&' || c == '<' || c == '>' || c == '\'' || c == '"'
  }

  /** The escaped form of one character: its entity for a special character, the character itself otherwise. */
  function EscapeChar(c: char): (r: string)
    ensures !IsMarkupSpecial(c) ==> r == [c]
    ensures IsMarkupSpecial(c) ==> |r| >= 4 && r[0] == '&' && r[|r| - 1] == ';'
  {
    match c
    case '&' => "&amp;"
    case '<' => "&lt;"
    case '>' => "&gt;"
    case '\'' => "&apos;"
    case '"' => "&quot;"
    case _ => [c]
  }

  /** The escaped text: each character escaped in turn. */
  function Escaped(text: string): string
    decreases |text|
  {
    if text == [] then [] else Escaped(text[..|text| - 1]) + EscapeChar(text[|text| - 1])
  }

  /** `pango_escape_text`: the loop over the characters. */
  method EscapeText(text: string) returns (escaped: string)
    ensures escaped == Escaped(text)
  {
    escaped := "";
    for i := 0 to |text|
      invariant escaped == Escaped(text[..i])
    {
      assert text[..i + 1][..i] == text[..i];
      escaped := escaped + EscapeChar(text[i]);
    }
    assert text[..|text|] == text;
  }

  /** One more character: its escape goes after the escape of the text so far. */
  lemma EscapedSnoc(t: string, c: char)
    ensures Escaped(t + [c]) == Escaped(t) + EscapeChar(c)
  {
    assert (t + [c])[..|t|] == t;
  }

  lemma SeqAssoc(x: string, y: string, z: string)
    ensures (x + y) + z == x + (y + z)
  {
  }

  /** Escaping works character by character: the escape of two texts is the two escapes in turn. */
  lemma {:induction false} EscapedAppend(a: string, b: string)
    ensures Escaped(a + b) == Escaped(a) + Escaped(b)
    decreases |b|
  {
    if b == [] {
      assert a + b == a;
    } else {
      var front := b[..|b| - 1];
      var c := b[|b| - 1];
      assert b == front + [c];
      assert a + b == (a + front) + [c];
      EscapedAppend(a, front);
      EscapedSnoc(a + front, c);
      EscapedSnoc(front, c);
      SeqAssoc(Escaped(a), Escaped(front), EscapeChar(c));
    }
  }

  /** Escaped text holds no `<`, `>`, `'` or `"`: every `&` it holds starts an entity. */
  lemma {:induction false} EscapedHasNoTags(text: string)
    ensures forall i :: 0 <= i < |Escaped(text)| ==> Escaped(text)[i] !in "<>'\""
    decreases |text|
  {
    if text != [] {
      EscapedHasNoTags(text[..|text| - 1]);
    }
  }

  /** Text without special characters is its own escape. */
  lemma {:induction false} EscapedPlain(text: string)
    requires forall i :: 0 <= i < |text| ==> !IsMarkupSpecial(text[i])
    ensures Escaped(text) == text
    decreases |text|
  {
    if text != [] {
      EscapedPlain(text[..|text| - 1]);
      assert text[..|text| - 1] + [text[|text| - 1]] == text;
    }
  }

  /** Escaping never shortens the text, and lengthens it exactly when it holds a special character. */
  lemma {:induction false} EscapedLength(text: string)
    ensures |Escaped(text)| >= |text|
    ensures |Escaped(text)| == |text| <==> forall i :: 0 <= i < |text| ==> !IsMarkupSpecial(text[i])
    decreases |text|
  {
    if text != [] {
      var front := text[..|text| - 1];
      EscapedLength(front);
      assert forall i :: 0 <= i < |front| ==> front[i] == text[i];
    }
  }

  // ---- the converter -------------------------------------------------------------------

  /** The parser events the converter handles, and `Other` for every other event. */
  datatype Event =
    | StartParagraph | EndParagraph
    | StartList | EndList
    | StartItem | EndItem
    | StartStrong | EndStrong
    | StartEmphasis | EndEmphasis
    | StartCodeBlock | EndCodeBlock
    | StartLink(destUrl: string) | EndLink
    | TextRun(text: string)
    | InlineCode(code: string)
    | SoftBreak | HardBreak
    | Other

  const Bullet: string := "\U{2022} "
  const Monospace: string := "<span font_family=\"monospace\">"

  /** The converter's state: the markup so far and whether its last character is whitespace. */
  datatype Converter = Converter(output: string, lastIsWhitespace: bool)

  /** `PangoConverter::new`. */
  const Initial: Converter := Converter("", true)

  /** The flag tells the truth about the output; an empty output counts as ending in whitespace. */
  predicate Consistent(c: Converter) {
    if c.output == [] then c.lastIsWhitespace else c.lastIsWhitespace == IsWhitespace(c.output[|c.output| - 1])
  }

  /** `push_str_and_update_ws`: an empty string changes nothing. */
  function PushStr(c: Converter, s: string): (r: Converter)
    ensures r.output == c.output + s
    ensures Consistent(c) ==> Consistent(r)
  {
    if s == [] then c else Converter(c.output + s, IsWhitespace(s[|s| - 1]))
  }

  /** `push_char_and_update_ws`. */
  function PushChar(c: Converter, ch: char): (r: Converter)
    ensures r.output == c.output + [ch]
    ensures Consistent(r)
  {
    Converter(c.output + [ch], IsWhitespace(ch))
  }

  /** A newline unless the output is empty or already ends with one. */
  function EnsureNewline(c: Converter): Converter {
    if c.output != [] && !EndsWith(c.output, "\n") then PushChar(c, '\n') else c
  }

  /** A space when the output is not empty and its last character is not whitespace. */
  function SpaceBefore(c: Converter): Converter {
    if c.output != [] && !c.lastIsWhitespace then PushChar(c, ' ') else c
  }

  /** Whether a text run may be glued to the output: it starts with whitespace or ASCII punctuation. */
  predicate StartsSeparated(text: string) {
    text != [] && (IsWhitespace(text[0]) || IsAsciiPunctuation(text[0]))
  }

  /** The markup an opening event writes after the conditional space. */
  function OpenMarkup(e: Event): string
    requires e.StartStrong? || e.StartEmphasis? || e.StartCodeBlock? || e.StartLink? || e.InlineCode?
  {
    match e
    case StartStrong => "<b>"
    case StartEmphasis => "<i>"
    case StartCodeBlock => Monospace
    case StartLink(url) => "<a href=\"" + Escaped(url) + "\">"
    case InlineCode(code) => Monospace + Escaped(code) + "</span>"
  }

  /** The converter after one more event (`process_event`). */
  function Step(c: Converter, e: Event): Converter {
    match e
    case StartParagraph =>
      if c.output != [] && !EndsWith(c.output, "\n\n") then PushStr(c, "\n\n") else c
    case EndParagraph => EnsureNewline(c)
    case StartList => EnsureNewline(c)
    case EndList => EnsureNewline(c)
    case StartItem => PushStr(EnsureNewline(c), Bullet)
    case EndItem => c
    case StartStrong => PushStr(SpaceBefore(c), OpenMarkup(e))
    case EndStrong => PushStr(c, "</b>")
    case StartEmphasis => PushStr(SpaceBefore(c), OpenMarkup(e))
    case EndEmphasis => PushStr(c, "</i>")
    case StartCodeBlock => PushStr(SpaceBefore(c), OpenMarkup(e))
    case EndCodeBlock => PushStr(c, "</span>")
    case StartLink(_) => PushStr(SpaceBefore(c), OpenMarkup(e))
    case EndLink => PushStr(c, "</a>")
    case TextRun(text) =>
      PushStr(if StartsSeparated(text) then c else SpaceBefore(c), Escaped(text))
    case InlineCode(_) => PushStr(SpaceBefore(c), OpenMarkup(e))
    case SoftBreak => PushStr(c, "\n")
    case HardBreak => PushStr(c, "<br/>")
    case Other => c
  }

  /** The converter after a list of events. */
  function Run(c: Converter, events: seq<Event>): Converter
    decreases |events|
  {
    if events == [] then c else Step(Run(c, events[..|events| - 1]), events[|events| - 1])
  }

  /** Every event keeps the flag truthful. */
  lemma StepConsistent(c: Converter, e: Event)
    requires Consistent(c)
    ensures Consistent(Step(c, e))
  {
  }

  /** From the initial state, the flag tells the truth after any events. */
  lemma {:induction false} RunConsistent(events: seq<Event>)
    ensures Consistent(Run(Initial, events))
    decreases |events|
  {
    if events != [] {
      RunConsistent(events[..|events| - 1]);
      StepConsistent(Run(Initial, events[..|events| - 1]), events[|events| - 1]);
    }
  }

  /** Markup is only ever added: the output before an event is a prefix of the output after it. */
  lemma StepExtends(c: Converter, e: Event)
    ensures |c.output| <= |Step(c, e).output| && Step(c, e).output[..|c.output|] == c.output
  {
    var x := if e.TextRun? && StartsSeparated(e.text) then c
      else if e.StartItem? || e.EndParagraph? || e.StartList? || e.EndList? then EnsureNewline(c)
      else SpaceBefore(c);
    assert |x.output| >= |c.output| && x.output[..|c.output|] == c.output;
  }

  /** Over any events, the output before is a prefix of the output after. */
  lemma {:induction false} RunExtends(c: Converter, events: seq<Event>)
    ensures |c.output| <= |Run(c, events).output| && Run(c, events).output[..|c.output|] == c.output
    decreases |events|
  {
    if events != [] {
      var before := Run(c, events[..|events| - 1]);
      RunExtends(c, events[..|events| - 1]);
      StepExtends(before, events[|events| - 1]);
      var after := Run(c, events).output;
      assert after[..|c.output|] == after[..|before.output|][..|c.output|];
    }
  }

  /** A paragraph start writes a blank line unless the output is empty or already ends with one. */
  lemma ParagraphStart(c: Converter)
    ensures c.output == [] || EndsWith(c.output, "\n\n") ==> Step(c, StartParagraph) == c
    ensures c.output != [] && !EndsWith(c.output, "\n\n") ==>
      Step(c, StartParagraph).output == c.output + "\n\n" && Step(c, StartParagraph).lastIsWhitespace
  {
  }

  /** An item starts on a line of its own and with a bullet. */
  lemma ItemStart(c: Converter)
    ensures EndsWith(Step(c, StartItem).output, Bullet)
    ensures c.output == [] ==> Step(c, StartItem).output == Bullet
    ensures c.output != [] ==>
      var r := Step(c, StartItem).output;
      |r| >= 3 && r[|r| - 3] == '\n' && r[..|c.output|] == c.output
  {
    var r := Step(c, StartItem).output;
    var n := EnsureNewline(c).output;
    assert r == n + Bullet;
    assert r[|r| - |Bullet|..] == Bullet;
    if c.output != [] {
      assert n[|n| - 1] == '\n' by {
        if EndsWith(c.output, "\n") {
          assert c.output[|c.output| - 1..] == "\n";
        }
      }
      assert r[..|c.output|] == n[..|c.output|];
    }
  }

  /**
   * Strong, emphasis, code block, link and inline code are preceded by a space
   * exactly when the output is not empty and does not end in whitespace.
   */
  lemma OpeningSpace(c: Converter, e: Event)
    requires Consistent(c)
    requires e.StartStrong? || e.StartEmphasis? || e.StartCodeBlock? || e.StartLink? || e.InlineCode?
    ensures c.output != [] && !IsWhitespace(c.output[|c.output| - 1]) ==>
      Step(c, e).output == c.output + " " + OpenMarkup(e)
    ensures c.output == [] || IsWhitespace(c.output[|c.output| - 1]) ==>
      Step(c, e).output == c.output + OpenMarkup(e)
  {
  }

  /**
   * Text gets the same space only when it does not itself start with
   * whitespace or ASCII punctuation; the text is always escaped.
   */
  lemma TextSpace(c: Converter, text: string)
    requires Consistent(c)
    ensures c.output != [] && !IsWhitespace(c.output[|c.output| - 1]) && !StartsSeparated(text) ==>
      Step(c, TextRun(text)).output == c.output + " " + Escaped(text)
    ensures c.output == [] || IsWhitespace(c.output[|c.output| - 1]) || StartsSeparated(text) ==>
      Step(c, TextRun(text)).output == c.output + Escaped(text)
  {
  }

  /** Events the converter does not handle, and the end of an item, change nothing. */
  lemma IgnoredEvents(c: Converter)
    ensures Step(c, Other) == c && Step(c, EndItem) == c
  {
  }

  /** `PangoConverter`, updated in place by each event. */
  class PangoConverter {
    var output: string
    var lastOutputCharIsWhitespace: bool

    /** The state as a value. */
    function State(): Converter
      reads this
    {
      Converter(output, lastOutputCharIsWhitespace)
    }

    ghost predicate Valid()
      reads this
    {
      Consistent(State())
    }

    constructor ()
      ensures State() == Initial && Valid()
    {
      output := "";
      lastOutputCharIsWhitespace := true;
    }

    method PushStrAndUpdateWs(s: string)
      modifies this
      ensures State() == PushStr(old(State()), s)
    {
      if s != [] {
        output := output + s;
        lastOutputCharIsWhitespace := IsWhitespace(s[|s| - 1]);
      }
    }

    method PushCharAndUpdateWs(c: char)
      modifies this
      ensures State() == PushChar(old(State()), c)
    {
      output := output + [c];
      lastOutputCharIsWhitespace := IsWhitespace(c);
    }

    /** The conditional newline of the paragraph-end, list and item events. */
    method NewlineIfNeeded()
      modifies this
      ensures State() == EnsureNewline(old(State()))
    {
      if output != [] && !EndsWith(output, "\n") {
        PushCharAndUpdateWs('\n');
      }
    }

    /** The conditional space, decided on the state before the event. */
    method SpaceIfNeeded(prependSpace: bool)
      requires prependSpace == (output != [] && !lastOutputCharIsWhitespace)
      modifies this
      ensures State() == SpaceBefore(old(State()))
    {
      if prependSpace {
        PushCharAndUpdateWs(' ');
      }
    }

    /** `process_event`. */
    method ProcessEvent(e: Event)
      requires Valid()
      modifies this
      ensures State() == Step(old(State()), e)
      ensures Valid()
    {
      StepConsistent(State(), e);
      var prependSpace := output != [] && !lastOutputCharIsWhitespace;
      match e {
        case StartParagraph =>
          if output != [] && !EndsWith(output, "\n\n") {
            PushStrAndUpdateWs("\n\n");
          }
        case EndParagraph => NewlineIfNeeded();
        case StartList => NewlineIfNeeded();
        case EndList => NewlineIfNeeded();
        case StartItem =>
          NewlineIfNeeded();
          PushStrAndUpdateWs(Bullet);
        case EndItem =>
        case StartStrong =>
          SpaceIfNeeded(prependSpace);
          PushStrAndUpdateWs("<b>");
        case EndStrong => PushStrAndUpdateWs("</b>");
        case StartEmphasis =>
          SpaceIfNeeded(prependSpace);
          PushStrAndUpdateWs("<i>");
        case EndEmphasis => PushStrAndUpdateWs("</i>");
        case StartCodeBlock =>
          SpaceIfNeeded(prependSpace);
          PushStrAndUpdateWs(Monospace);
        case EndCodeBlock => PushStrAndUpdateWs("</span>");
        case StartLink(url) =>
          SpaceIfNeeded(prependSpace);
          var escaped := EscapeText(url);
          PushStrAndUpdateWs("<a href=\"" + escaped + "\">");
        case EndLink => PushStrAndUpdateWs("</a>");
        case TextRun(text) =>
          if prependSpace && !StartsSeparated(text) {
            PushCharAndUpdateWs(' ');
          }
          var escaped := EscapeText(text);
          PushStrAndUpdateWs(escaped);
        case InlineCode(code) =>
          SpaceIfNeeded(prependSpace);
          var escaped := EscapeText(code);
          PushStrAndUpdateWs(Monospace + escaped + "</span>");
        case SoftBreak => PushStrAndUpdateWs("\n");
        case HardBreak => PushStrAndUpdateWs("<br/>");
        case Other =>
      }
    }

    /** `into_string`: the markup without leading or trailing whitespace. */
    method IntoString() returns (r: string)
      ensures r == Trim(output)
    {
      r := Trim(output);
    }
  }

  /**
   * `markdown_to_pango` over the parser's events: every event in order, then
   * the trimmed markup.
   */
  method MarkdownToPango(events: seq<Event>) returns (r: string)
    ensures r == Trim(Run(Initial, events).output)
  {
    var converter := new PangoConverter();
    for i := 0 to |events|
      invariant converter.State() == Run(Initial, events[..i])
      invariant converter.Valid()
    {
      assert events[..i + 1][..i] == events[..i];
      converter.ProcessEvent(events[i]);
    }
    assert events[..|events|] == events;
    r := converter.IntoString();
  }
}

=== FILE: registry.dfy ===
/**
 * The widget registry: two tables keyed by GLib type name, one giving the type,
 * the other the factory that picks the `add_child` strategy for a widget.
 */
module TypeRegistry {
  import opened Wrappers
  import opened Gtk
  import opened Containers

  /**
   * A strategy factory. `ContainerFactory(t)` is what `register_container::<T>`
   * stores for the type named `t`: it uses T's `WidgetContainer` implementation
   * when the widget downcasts to T, and the leaf strategy otherwise.
   */
  datatype Factory = LeafFactory | ContainerFactory(t: string)

  /** Calling a factory on a widget. */
  function Produce(f: Factory, w: Widget): (s: Strategy)
    ensures f.LeafFactory? ==> s == Leaf
    ensures f.ContainerFactory? && !IsA(w.typeName, f.t) ==> s == Leaf
    ensures s.Container? ==> f.ContainerFactory? && IsA(w.typeName, f.t) && ImplOf(f.t) == Some(s.kind)
  {
    match f
    case LeafFactory => Leaf
    case ContainerFactory(t) =>
      // `register_container` demands a `WidgetContainer` impl, so the last case is
      // never stored (see Catalog.ContainersHaveImpls).
      match ImplOf(t)
      case Some(kind) => if IsA(w.typeName, t) then Container(kind) else Leaf
      case None => Leaf
  }

  /** The two tables as values. A registered type is known by its name, so `types` maps a name to itself. */
  datatype Tables = Tables(types: map<string, string>, strategies: map<string, Factory>)

  const Empty: Tables := Tables(map[], map[])

  /** `register_impl`: the name goes into both tables, overwriting what was there. */
  function Register(s: Tables, name: string, f: Factory): (r: Tables)
    ensures r.types.Keys == s.types.Keys + {name} && r.strategies.Keys == s.strategies.Keys + {name}
    ensures r.types[name] == name && r.strategies[name] == f
    ensures forall n :: n in s.types && n != name ==> n in r.types && r.types[n] == s.types[n]
    ensures forall n :: n in s.strategies && n != name ==> n in r.strategies && r.strategies[n] == s.strategies[n]
  {
    Tables(s.types[name := name], s.strategies[name := f])
  }

  /** What the registry keeps true: the same names in both tables, each mapped to its own type. */
  predicate Consistent(s: Tables) {
    s.types.Keys == s.strategies.Keys && forall n :: n in s.types ==> s.types[n] == n
  }

  lemma RegisterKeepsConsistent(s: Tables, name: string, f: Factory)
    requires Consistent(s)
    ensures Consistent(Register(s, name, f))
  {
  }

  /** `get_strategy`: the registered factory applied to the widget, or the leaf strategy. */
  function StrategyFor(s: Tables, name: string, w: Widget): (r: Strategy)
    ensures name !in s.strategies ==> r == Leaf
  {
    if name in s.strategies then Produce(s.strategies[name], w) else Leaf
  }

  /** The registry, a single shared instance whose tables registration updates in place. */
  class Registry {
    var types: map<string, string>
    var strategies: map<string, Factory>

    ghost predicate Valid()
      reads this
    {
      Consistent(Tables(types, strategies))
    }

    function State(): Tables
      reads this
    {
      Tables(types, strategies)
    }

    constructor ()
      ensures Valid() && State() == Empty
    {
      types := map[];
      strategies := map[];
    }

    method RegisterImpl(name: string, f: Factory)
      requires Valid()
      modifies this
      ensures Valid() && State() == Register(old(State()), name, f)
    {
      types := types[name := name];
      strategies := strategies[name := f];
    }

    /** `register_leaf::<T>`. */
    method RegisterLeaf(name: string)
      requires Valid()
      modifies this
      ensures Valid() && State() == Register(old(State()), name, LeafFactory)
    {
      RegisterImpl(name, LeafFactory);
    }

    /** `register_container::<T>`: only for a type that has a `WidgetContainer` implementation. */
    method RegisterContainer(name: string)
      requires Valid() && ImplOf(name).Some?
      modifies this
      ensures Valid() && State() == Register(old(State()), name, ContainerFactory(name))
    {
      RegisterImpl(name, ContainerFactory(name));
    }

    /** `get_type`: None exactly for a name never registered. */
    method GetType(name: string) returns (r: Option<string>)
      requires Valid()
      ensures r.None? <==> name !in types
      ensures r.Some? ==> r.value == name
    {
      if name in types {
        r := Some(types[name]);
      } else {
        r := None;
      }
    }

    /** `get_strategy`: an unregistered name gets the leaf strategy. */
    method GetStrategy(name: string, w: Widget) returns (s: Strategy)
      requires Valid()
      ensures s == StrategyFor(State(), name, w)
      ensures name !in strategies ==> s == Leaf
    {
      if name in strategies {
        s := Produce(strategies[name], w);
      } else {
        s := Leaf;
      }
    }

    /** `get_all_types`: every registered type exactly once (in no particular order). */
    method GetAllTypes() returns (all: seq<string>)
      requires Valid()
      ensures forall t :: t in all <==> t in types.Values
      ensures forall i, j :: 0 <= i < j < |all| ==> all[i] != all[j]
    {
      all := [];
      var rest := types.Keys;
      while rest != {}
        invariant rest <= types.Keys
        invariant forall t :: t in all <==> t in types.Keys && t !in rest
        invariant forall i, j :: 0 <= i < j < |all| ==> all[i] != all[j]
        decreases |rest|
      {
        var n :| n in rest;
        all := all + [types[n]];
        rest := rest - {n};
      }
      assert forall t :: t in types.Values <==> t in types.Keys by {
        forall t | t in types.Values ensures t in types.Keys {
          var n :| n in types && types[n] == t;
        }
      }
    }
  }
}

=== FILE: system.dfy ===
/**
 * The parsing done by the system services: the Wi-Fi SSID from `nmcli` output,
 * the battery capacity and status from sysfs, and the media title and artist
 * from `playerctl`. Running the commands and reading the files are inputs.
 */
module SystemServices {
  import opened Wrappers
  import opened Text

  /** `SystemError`; the I/O and UTF-8 errors are kept by kind only. */
  datatype SystemError =
    | IoError
    | CommandError(message: string)
    | ParseError(message: string)
    | Utf8Error
    | NotFound(message: string)

  const ActivePrefix: string := "yes:"

  /** The SSID the lines give: the first line starting with `yes:`, every leading `yes:` removed. */
  function SsidOf(lines: seq<string>): string
    decreases |lines|
  {
    if lines == [] then "Disconnected"
    else if StartsWith(lines[0], ActivePrefix) then TrimStartMatches(lines[0], ActivePrefix)
    else SsidOf(lines[1..])
  }

  /** Without a `yes:` line the SSID is "Disconnected"; otherwise the first such line decides. */
  lemma {:induction false} SsidOfSpec(lines: seq<string>, i: nat)
    requires i <= |lines|
    requires forall j :: 0 <= j < i ==> !StartsWith(lines[j], ActivePrefix)
    ensures i == |lines| ==> SsidOf(lines) == "Disconnected"
    ensures i < |lines| && StartsWith(lines[i], ActivePrefix) ==> SsidOf(lines) == TrimStartMatches(lines[i], ActivePrefix)
    decreases i
  {
    if i > 0 {
      SsidOfSpec(lines[1..], i - 1);
    }
  }

  /**
   * `get_ssid`, from the outcome of running nmcli (`run`: Err holds the spawn
   * error's text; Ok holds the output, None when it is not valid UTF-8). The
   * loop returns at the first line starting with `yes:`.
   */
  method GetSsid(run: Result<Option<string>, string>) returns (r: Result<string, SystemError>)
    ensures run.Err? ==> r == Err(CommandError("Failed to run nmcli: " + run.error))
    ensures run == Ok(None) ==> r == Err(Utf8Error)
    ensures run.Ok? && run.value.Some? ==> r == Ok(SsidOf(Lines(run.value.value)))
  {
    if run.Err? {
      return Err(CommandError("Failed to run nmcli: " + run.error));
    }
    if run.value.None? {
      return Err(Utf8Error);
    }
    var lines := Lines(run.value.value);
    for i := 0 to |lines|
      invariant forall j :: 0 <= j < i ==> !StartsWith(lines[j], ActivePrefix)
    {
      if StartsWith(lines[i], ActivePrefix) {
        SsidOfSpec(lines, i);
        return Ok(TrimStartMatches(lines[i], ActivePrefix));
      }
    }
    SsidOfSpec(lines, |lines|);
    return Ok("Disconnected");
  }

  /** The SSID never starts with `yes:`: every repetition is stripped. */
  lemma SsidHasNoPrefix(line: string)
    ensures !StartsWith(TrimStartMatches(line, ActivePrefix), ActivePrefix)
  {
  }

  /**
   * The battery directory: the first readable entry of the power-supply
   * directory whose name starts with `BAT` (`entries`: None for an entry that
   * could not be read).
   */
  function BatteryDir(entries: seq<Option<string>>): (r: Result<string, SystemError>)
    ensures r.Err? <==> forall i :: 0 <= i < |entries| ==> !(entries[i].Some? && StartsWith(entries[i].value, "BAT"))
    ensures r.Err? ==> r.error == NotFound("No battery found")
    ensures r.Ok? ==>
      (exists i :: 0 <= i < |entries| && entries[i] == Some(r.value) && StartsWith(r.value, "BAT")
        && forall j :: 0 <= j < i ==> !(entries[j].Some? && StartsWith(entries[j].value, "BAT")))
    decreases |entries|
  {
    if entries == [] then Err(NotFound("No battery found"))
    else if entries[0].Some? && StartsWith(entries[0].value, "BAT") then Ok(entries[0].value)
    else
      var r := BatteryDir(entries[1..]);
      assert forall j :: 1 <= j < |entries| ==> entries[j] == entries[1..][j - 1];
      r
  }

  /**
   * The text of the `ParseIntError` that `s.parse::<i32>()` reports for a string that is
   * not an i32: the error's kind (`I32Error`, which reads the string left to right) shown
   * as the standard library's `Display` does.
   */
  function IntErrorText(s: string): (r: string)
    requires ParseI32(s).None?
    ensures r == "cannot parse integer from empty string" <==> s == []
    ensures s != [] && AllDigits(s) ==> r == "number too large to fit in target type"
    ensures r == "number too large to fit in target type" ==> s[0] != '-'
    ensures r == "number too small to fit in target type" ==> s[0] == '-'
    ensures s == "+" || s == "-" ==> r == "invalid digit found in string"
    ensures forall k :: InvalidDigitAt(DigitPart(s), k, SignOf(s)) ==> r == "invalid digit found in string"
    ensures forall k :: OverflowAt(DigitPart(s), k, SignOf(s)) ==>
      r == if SignOf(s) then "number too small to fit in target type" else "number too large to fit in target type"
  {
    match I32Error(s).value
    case Empty => "cannot parse integer from empty string"
    case InvalidDigit => "invalid digit found in string"
    case PosOverflow => "number too large to fit in target type"
    case NegOverflow => "number too small to fit in target type"
  }

  /** A capacity text that overflows before a character that is not a digit is reported as an overflow. */
  lemma OverflowTextFirst()
    ensures ParseI32("99999999999x").None? && IntErrorText("99999999999x") == "number too large to fit in target type"
    ensures ParseI32("-99999999999x").None? && IntErrorText("-99999999999x") == "number too small to fit in target type"
  {
    PositiveOverflowFirst();
    NegativeOverflowFirst();
  }

  /**
   * `get_capacity`: the directory listing (`listing`, Err when the directory
   * cannot be read) and the reader of a file in a directory.
   */
  function GetCapacity(listing: Result<seq<Option<string>>, ()>, read: (string, string) -> Result<string, ()>): (r: Result<int, SystemError>)
    ensures listing.Err? ==> r == Err(IoError)
    ensures listing.Ok? && BatteryDir(listing.value).Err? ==> r == Err(NotFound("No battery found"))
    ensures listing.Ok? && BatteryDir(listing.value).Ok? ==>
      var text := read(BatteryDir(listing.value).value, "capacity");
      (text.Err? ==> r == Err(IoError))
      && (text.Ok? && ParseI32(Trim(text.value)).Some? ==> r == Ok(ParseI32(Trim(text.value)).value))
    ensures r.Ok? ==>
      (listing.Ok? && BatteryDir(listing.value).Ok?
        && read(BatteryDir(listing.value).value, "capacity").Ok?
        && Some(r.value) == ParseI32(Trim(read(BatteryDir(listing.value).value, "capacity").value)))
    ensures (listing.Ok? && BatteryDir(listing.value).Ok? && read(BatteryDir(listing.value).value, "capacity").Ok?
        && ParseI32(Trim(read(BatteryDir(listing.value).value, "capacity").value)).None?)
      ==> r == Err(ParseError("Failed to parse capacity: "
        + IntErrorText(Trim(read(BatteryDir(listing.value).value, "capacity").value))))
  {
    if listing.Err? then Err(IoError)
    else match BatteryDir(listing.value)
      case Err(e) => Err(e)
      case Ok(dir) =>
        match read(dir, "capacity")
        case Err(_) => Err(IoError)
        case Ok(text) =>
          var t := Trim(text);
          match ParseI32(t)
          case Some(v) => Ok(v)
          case None => Err(ParseError("Failed to parse capacity: " + IntErrorText(t)))
  }

  /** `get_status`: the trimmed content of the battery's `status` file. */
  function GetStatus(listing: Result<seq<Option<string>>, ()>, read: (string, string) -> Result<string, ()>): (r: Result<string, SystemError>)
    ensures listing.Err? ==> r == Err(IoError)
    ensures listing.Ok? && BatteryDir(listing.value).Err? ==> r == Err(NotFound("No battery found"))
    ensures listing.Ok? && BatteryDir(listing.value).Ok? ==>
      var text := read(BatteryDir(listing.value).value, "status");
      (text.Err? ==> r == Err(IoError)) && (text.Ok? ==> r == Ok(Trim(text.value)))
    ensures r.Ok? ==>
      (listing.Ok? && BatteryDir(listing.value).Ok?
        && read(BatteryDir(listing.value).value, "status").Ok?
        && r.value == Trim(read(BatteryDir(listing.value).value, "status").value))
  {
    if listing.Err? then Err(IoError)
    else match BatteryDir(listing.value)
      case Err(e) => Err(e)
      case Ok(dir) =>
        match read(dir, "status")
        case Err(_) => Err(IoError)
        case Ok(text) => Ok(Trim(text))
  }

  /** How one `playerctl metadata` run ended. */
  datatype PlayerctlRun =
    | SpawnFailed(message: string)
    | Exited(success: bool, stdout: Option<string>, stderr: string)   // stdout None: not UTF-8

  /** The text of one field: the trimmed output of a successful run, the empty string on any failure. */
  function FieldText(run: PlayerctlRun): (r: string)
    ensures run.Exited? && run.success && run.stdout.Some? ==> r == Trim(run.stdout.value)
    ensures !(run.Exited? && run.success && run.stdout.Some?) ==> r == ""
  {
    match run
    case Exited(true, Some(out), _) => Trim(out)
    case _ => ""
  }

  /** `get_media_info`: title and artist, each empty when its run failed; never an error. */
  function GetMediaInfo(title: PlayerctlRun, artist: PlayerctlRun): (r: Result<(string, string), SystemError>)
    ensures r.Ok?
    ensures !(title.Exited? && title.success && title.stdout.Some?) ==> r.value.0 == ""
    ensures !(artist.Exited? && artist.success && artist.stdout.Some?) ==> r.value.1 == ""
    ensures title.Exited? && title.success && title.stdout.Some? ==> r.value.0 == Trim(title.stdout.value)
    ensures artist.Exited? && artist.success && artist.stdout.Some? ==> r.value.1 == Trim(artist.stdout.value)
  {
    Ok((FieldText(title), FieldText(artist)))
  }
}

=== FILE: text.dfy ===
/**
 * The parts of Rust's `str` and integer parsing that the core relies on:
 * Unicode whitespace, `trim`, `lines`, `split_once`, `starts_with`, `i32::from_str`
 * and the decimal form Lua gives an integer when it coerces it to a string.
 */
module Text {
  import opened Wrappers

  const MinI32: int := -0x8000_0000
  const MaxI32: int := 0x7fff_ffff

  /** `char::is_whitespace`: the Unicode White_Space property. */
  predicate IsWhitespace(c: char) {
    var n := c as int;
    (0x09 <= n <= 0x0d) || n == 0x20 || n == 0x85 || n == 0xa0 || n == 0x1680
    || (0x2000 <= n <= 0x200a) || n == 0x2028 || n == 0x2029 || n == 0x202f
    || n == 0x205f || n == 0x3000
  }

  /** `char::is_ascii_punctuation`. */
  predicate IsAsciiPunctuation(c: char) {
    ('!' <= c <= '/') || (':' <= c <= '@') || ('[' <= c <= '`') || ('{' <= c <= '~')
  }

  predicate IsDigit(c: char) { '0' <= c <= '9' }

  predicate StartsWith(s: string, prefix: string) {
    |prefix| <= |s| && s[..|prefix|] == prefix
  }

  predicate EndsWith(s: string, suffix: string) {
    |suffix| <= |s| && s[|s| - |suffix|..] == suffix
  }

  /** `str::trim_start`. */
  function TrimStart(s: string): (r: string)
    ensures |r| <= |s| && r == s[|s| - |r|..]
    ensures r == [] || !IsWhitespace(r[0])
    ensures forall i :: 0 <= i < |s| - |r| ==> IsWhitespace(s[i])
  {
    if s != [] && IsWhitespace(s[0]) then TrimStart(s[1..]) else s
  }

  /** `str::trim_end`. */
  function TrimEnd(s: string): (r: string)
    ensures |r| <= |s| && r == s[..|r|]
    ensures r == [] || !IsWhitespace(r[|r| - 1])
    ensures forall i :: |r| <= i < |s| ==> IsWhitespace(s[i])
  {
    if s != [] && IsWhitespace(s[|s| - 1]) then TrimEnd(s[..|s| - 1]) else s
  }

  /** `str::trim`: no whitespace at either end (each end's removal is described by TrimStart and TrimEnd). */
  function Trim(s: string): (r: string)
    ensures r == [] || (!IsWhitespace(r[0]) && !IsWhitespace(r[|r| - 1]))
    ensures |r| <= |s|
  {
    TrimEnd(TrimStart(s))
  }

  /** Index of the first occurrence of `c` in `s`. */
  function IndexOf(s: string, c: char): (r: Option<nat>)
    ensures r.None? <==> c !in s
    ensures r.Some? ==> r.value < |s| && s[r.value] == c && c !in s[..r.value]
  {
    if s == [] then None
    else if s[0] == c then Some(0)
    else match IndexOf(s[1..], c)
      case None => None
      case Some(i) => assert s[1..][..i] == s[1..i + 1]; Some(i + 1)
  }

  /** `str::split_once(c)`: the text before and after the first `c`. */
  function SplitOnce(s: string, c: char): (r: Option<(string, string)>)
    ensures r.None? <==> c !in s
    ensures r.Some? ==> s == r.value.0 + [c] + r.value.1 && c !in r.value.0
  {
    match IndexOf(s, c)
    case None => None
    case Some(i) => assert s == s[..i] + [c] + s[i + 1..]; Some((s[..i], s[i + 1..]))
  }

  /** A line as `str::lines` yields it: without its `\n`, and without a `\r` before it. */
  function StripCarriageReturn(line: string): string {
    if line != [] && line[|line| - 1] == '\r' then line[..|line| - 1] else line
  }

  /**
   * `str::lines`: the pieces between `\n` characters; no empty last line after a
   * final `\n`; a `\r` directly before a `\n` is dropped.
   */
  function Lines(s: string): (r: seq<string>)
    ensures forall i :: 0 <= i < |r| ==> '\n' !in r[i]
    ensures s == [] <==> r == []
    decreases |s|
  {
    match IndexOf(s, '\n')
    case None => if s == [] then [] else [s]
    case Some(i) => [StripCarriageReturn(s[..i])] + Lines(s[i + 1..])
  }

  /** `str::trim_start_matches(p)`: every leading repetition of a non-empty `p` removed. */
  function TrimStartMatches(s: string, p: string): (r: string)
    requires p != []
    ensures |r| <= |s| && r == s[|s| - |r|..]
    ensures !StartsWith(r, p)
    decreases |s|
  {
    if StartsWith(s, p) then TrimStartMatches(s[|p|..], p) else s
  }

  // ---- integers ------------------------------------------------------------------

  predicate AllDigits(s: string) {
    forall i :: 0 <= i < |s| ==> IsDigit(s[i])
  }

  function DigitsValue(s: string): nat
    requires AllDigits(s)
  {
    if s == [] then 0 else 10 * DigitsValue(s[..|s| - 1]) + (s[|s| - 1] as int - '0' as int)
  }

  /** Rust's integer syntax (`FromStr` for the integer types) before the range check. */
  function ParseInteger(s: string): Option<int> {
    if s == [] then None
    else if s[0] == '-' || s[0] == '+' then
      if |s| > 1 && AllDigits(s[1..]) then
        var v: int := DigitsValue(s[1..]);
        Some(if s[0] == '-' then -v else v)
      else None
    else if AllDigits(s) then Some(DigitsValue(s))
    else None
  }

  /** `s.parse::<i32>()`: the integer syntax, then the 32-bit range. */
  function ParseI32(s: string): (r: Option<int>)
    ensures r.Some? ==> MinI32 <= r.value <= MaxI32 && ParseInteger(s) == r
    ensures r.None? ==> ParseInteger(s).None? || !(MinI32 <= ParseInteger(s).value <= MaxI32)
  {
    match ParseInteger(s)
    case Some(v) => if MinI32 <= v <= MaxI32 then Some(v) else None
    case None => None
  }

  /** The kinds of `ParseIntError` an `i32` parse can report. */
  datatype IntErrorKind = Empty | InvalidDigit | PosOverflow | NegOverflow

  /** `v` with the sign the parse read. */
  function Signed(v: int, negative: bool): int {
    if negative then -v else v
  }

  /**
   * The checked digit loop of `i32::from_str_radix(_, 10)`: from index `i` on, with the
   * value so far in `acc`, each character is first tested for being a digit, then the
   * accumulator is multiplied by ten and the digit added (subtracted for a negative number);
   * the first character that is not a digit or that takes the value out of the 32-bit range
   * decides the error. None when every digit is consumed.
   */
  function ScanDigits(digits: string, i: nat, acc: int, negative: bool): (r: Option<IntErrorKind>)
    requires i <= |digits|
    ensures r != Some(Empty)
    ensures (forall k :: i <= k < |digits| ==> IsDigit(digits[k])) ==> r != Some(InvalidDigit)
    ensures (if negative then acc <= 0 else acc >= 0) ==>
      (r == Some(PosOverflow) ==> !negative) && (r == Some(NegOverflow) ==> negative)
    decreases |digits| - i
  {
    if i == |digits| then None
    else if !IsDigit(digits[i]) then Some(InvalidDigit)
    else
      var next := 10 * acc + Signed(digits[i] as int - '0' as int, negative);
      if next > MaxI32 then Some(PosOverflow)
      else if next < MinI32 then Some(NegOverflow)
      else ScanDigits(digits, i + 1, next, negative)
  }

  /** Whether `s` is read as a negative number: it starts with `-`. */
  predicate SignOf(s: string) {
    s != [] && s[0] == '-'
  }

  /** What the digit loop reads: `s` without a leading `+` or `-`. */
  function DigitPart(s: string): (r: string)
    ensures |r| <= |s|
  {
    if s != [] && (s[0] == '-' || s[0] == '+') then s[1..] else s
  }

  /** `v` lies in the 32-bit range. */
  predicate InI32(v: int) {
    MinI32 <= v <= MaxI32
  }

  /** The character at `k` is the first that is not a digit, and the digits before it fit in an i32. */
  predicate InvalidDigitAt(digits: string, k: nat, negative: bool) {
    k < |digits| && AllDigits(digits[..k]) && !IsDigit(digits[k])
    && InI32(Signed(DigitsValue(digits[..k]), negative))
  }

  /** The digit at `k` is the first that takes the value out of the i32 range. */
  predicate OverflowAt(digits: string, k: nat, negative: bool) {
    k < |digits| && AllDigits(digits[..k + 1])
    && InI32(Signed(DigitsValue(digits[..k + 1][..k]), negative))
    && !InI32(Signed(DigitsValue(digits[..k + 1]), negative))
  }

  /**
   * The error `s.parse::<i32>()` reports, None when it succeeds: an empty string, then a
   * lone sign, then the digit loop after an optional sign, which reports the first
   * character that is not a digit or the first digit that overflows, whichever comes first.
   */
  function I32Error(s: string): (r: Option<IntErrorKind>)
    ensures r == Some(Empty) <==> s == []
    ensures r.None? <==> ParseI32(s).Some?
    ensures r == Some(PosOverflow) ==> s[0] != '-'
    ensures r == Some(NegOverflow) ==> s[0] == '-'
    ensures s == "+" || s == "-" ==> r == Some(InvalidDigit)
    ensures forall k :: InvalidDigitAt(DigitPart(s), k, SignOf(s)) ==> r == Some(InvalidDigit)
    ensures forall k :: OverflowAt(DigitPart(s), k, SignOf(s)) ==>
      r == Some(if SignOf(s) then NegOverflow else PosOverflow)
  {
    if s == [] then Some(Empty)
    else if s == "+" || s == "-" then Some(InvalidDigit)
    else
      ScanAgrees(DigitPart(s), 0, SignOf(s));
      ScanStopsFirst(DigitPart(s), SignOf(s));
      assert DigitPart(s)[..0] == [];
      ScanDigits(DigitPart(s), 0, 0, SignOf(s))
  }

  /** From the start, the digit loop reports the first invalid character or the first overflow. */
  lemma ScanStopsFirst(digits: string, negative: bool)
    ensures forall k :: InvalidDigitAt(digits, k, negative) ==>
      ScanDigits(digits, 0, 0, negative) == Some(InvalidDigit)
    ensures forall k :: OverflowAt(digits, k, negative) ==>
      ScanDigits(digits, 0, 0, negative) == Some(if negative then NegOverflow else PosOverflow)
  {
    assert digits[..0] == [];
    forall k | InvalidDigitAt(digits, k, negative)
      ensures ScanDigits(digits, 0, 0, negative) == Some(InvalidDigit)
    {
      InvalidDigitReportedFirst(digits, 0, k, negative);
    }
    forall k | OverflowAt(digits, k, negative)
      ensures ScanDigits(digits, 0, 0, negative) == Some(if negative then NegOverflow else PosOverflow)
    {
      OverflowReportedFirst(digits, 0, k, negative);
    }
  }

  /**
   * Before any overflow, the digit loop stops at the first character that is not a digit:
   * when the first `k` characters are digits whose value fits in an i32 and character `k`
   * is not a digit, the loop reports an invalid digit, whatever follows.
   */
  lemma {:induction false} InvalidDigitReportedFirst(digits: string, i: nat, k: nat, negative: bool)
    requires i <= k && InvalidDigitAt(digits, k, negative)
    ensures AllDigits(digits[..i])
    ensures ScanDigits(digits, i, Signed(DigitsValue(digits[..i]), negative), negative) == Some(InvalidDigit)
    decreases k - i
  {
    DigitsValuePrefix(digits, i, k);
    if i < k {
      DigitsValuePrefix(digits, i + 1, k);
      assert digits[..i + 1][..i] == digits[..i];
      InvalidDigitReportedFirst(digits, i + 1, k, negative);
    }
  }

  /** A longer prefix of a digit string has a value at least as large. */
  lemma {:induction false} DigitsValuePrefix(s: string, j: nat, k: nat)
    requires j <= k <= |s| && AllDigits(s[..k])
    ensures AllDigits(s[..j]) && DigitsValue(s[..j]) <= DigitsValue(s[..k])
    decreases k - j
  {
    assert forall m :: 0 <= m < j ==> s[..j][m] == s[..k][m];
    if j < k {
      assert s[..k][..k - 1] == s[..k - 1];
      assert AllDigits(s[..k - 1]);
      DigitsValuePrefix(s, j, k - 1);
    }
  }

  /**
   * The digit loop succeeds from `i` (with the prefix's value in range) exactly when the
   * rest is all digits and the whole value is in the 32-bit range.
   */
  lemma {:induction false} ScanAgrees(digits: string, i: nat, negative: bool)
    requires i <= |digits| && AllDigits(digits[..i])
    requires MinI32 <= Signed(DigitsValue(digits[..i]), negative) <= MaxI32
    ensures ScanDigits(digits, i, Signed(DigitsValue(digits[..i]), negative), negative).None?
      <==> AllDigits(digits) && MinI32 <= Signed(DigitsValue(digits), negative) <= MaxI32
    decreases |digits| - i
  {
    if i == |digits| {
      assert digits[..i] == digits;
    } else if !IsDigit(digits[i]) {
      assert !AllDigits(digits) by { assert !IsDigit(digits[i]); }
    } else {
      assert digits[..i + 1][..i] == digits[..i];
      assert AllDigits(digits[..i + 1]) by {
        assert forall m :: 0 <= m < i ==> digits[..i + 1][m] == digits[..i][m];
      }
      var next := Signed(DigitsValue(digits[..i + 1]), negative);
      assert next == 10 * Signed(DigitsValue(digits[..i]), negative) + Signed(digits[i] as int - '0' as int, negative);
      if next < MinI32 || next > MaxI32 {
        if AllDigits(digits) {
          assert digits[..|digits|] == digits;
          DigitsValuePrefix(digits, i + 1, |digits|);
        }
      } else {
        ScanAgrees(digits, i + 1, negative);
      }
    }
  }

  /**
   * The digit loop stops at the first overflow, whatever follows it: when the first `k + 1`
   * characters are digits, the first `k` give a value in the i32 range and the first `k + 1`
   * one outside it, the loop reports the overflow of the number's sign, even if a character
   * that is not a digit comes later.
   */
  lemma {:induction false} OverflowReportedFirst(digits: string, i: nat, k: nat, negative: bool)
    requires i <= k < |digits| && AllDigits(digits[..k + 1])
    requires MinI32 <= Signed(DigitsValue(digits[..k + 1][..k]), negative) <= MaxI32
    requires !(MinI32 <= Signed(DigitsValue(digits[..k + 1]), negative) <= MaxI32)
    ensures AllDigits(digits[..i])
    ensures ScanDigits(digits, i, Signed(DigitsValue(digits[..i]), negative), negative)
      == Some(if negative then NegOverflow else PosOverflow)
    decreases k - i
  {
    assert digits[..k + 1][..k] == digits[..k];
    DigitsValuePrefix(digits, k, k + 1);
    DigitsValuePrefix(digits, i, k);
    if i < k {
      DigitsValuePrefix(digits, i + 1, k);
      assert digits[..i + 1][..i] == digits[..i];
      OverflowReportedFirst(digits, i + 1, k, negative);
    } else {
      assert digits[..i + 1][..i] == digits[..i];
    }
  }

  /** The values of nine and ten nines, one digit at a time. */
  lemma NinesValue()
    ensures "9999999999"[..9] == "999999999"
    ensures DigitsValue("999999999") == 999999999 && DigitsValue("9999999999") == 9999999999
  {
    assert "9"[..0] == "";
    assert DigitsValue("9") == 9;
    assert "99"[..1] == "9";
    assert DigitsValue("99") == 99;
    assert "999"[..2] == "99";
    assert DigitsValue("999") == 999;
    assert "9999"[..3] == "999";
    assert DigitsValue("9999") == 9999;
    assert "99999"[..4] == "9999";
    assert DigitsValue("99999") == 99999;
    assert "999999"[..5] == "99999";
    assert DigitsValue("999999") == 999999;
    assert "9999999"[..6] == "999999";
    assert DigitsValue("9999999") == 9999999;
    assert "99999999"[..7] == "9999999";
    assert DigitsValue("99999999") == 99999999;
    assert "999999999"[..8] == "99999999";
    assert DigitsValue("999999999") == 999999999;
    assert "9999999999"[..9] == "999999999";
    assert DigitsValue("9999999999") == 9999999999;
  }

  /** "99999999999x" is too large for an i32, though it also holds a character that is not a digit. */
  lemma PositiveOverflowFirst()
    ensures I32Error("99999999999x") == Some(PosOverflow)
  {
    var s := "99999999999x";
    assert s[0..] == s;
    assert s[..10] == "9999999999";
    NinesValue();
    OverflowReportedFirst(s, 0, 9, false);
  }

  /** "-99999999999x" is too small for an i32, though it also holds a character that is not a digit. */
  lemma NegativeOverflowFirst()
    ensures I32Error("-99999999999x") == Some(NegOverflow)
  {
    var s := "99999999999x";
    assert "-99999999999x"[1..] == s;
    assert s[..10] == "9999999999";
    NinesValue();
    OverflowReportedFirst(s, 0, 9, true);
  }

  /** "12x" and "1a", which fit in an i32 up to their letter, report an invalid digit. */
  lemma InvalidDigitFirst()
    ensures I32Error("12x") == Some(InvalidDigit)
    ensures I32Error("1a") == Some(InvalidDigit)
  {
  }

  function DigitChar(d: nat): char
    requires d < 10
  {
    ('0' as int + d) as char
  }

  /** The decimal digits of `n`, without leading zeros. */
  function NatDecimal(n: nat): (r: string)
    ensures r != [] && AllDigits(r)
  {
    if n < 10 then [DigitChar(n)] else NatDecimal(n / 10) + [DigitChar(n % 10)]
  }

  /** The text Lua gives an integer when it is used as a string (`%d`). */
  function Decimal(i: int): string {
    if i < 0 then "-" + NatDecimal(-i) else NatDecimal(i)
  }

  lemma {:induction false} NatDecimalValue(n: nat)
    ensures DigitsValue(NatDecimal(n)) == n
  {
    if n >= 10 {
      var r := NatDecimal(n);
      assert r[..|r| - 1] == NatDecimal(n / 10);
      NatDecimalValue(n / 10);
    }
  }

  /** Parsing the decimal form of an integer gives it back exactly when it fits in 32 bits. */
  lemma DecimalParsesAsI32(i: int)
    ensures ParseI32(Decimal(i)) == (if MinI32 <= i <= MaxI32 then Some(i) else None)
  {
    if i < 0 {
      var d := NatDecimal(-i);
      assert Decimal(i)[1..] == d;
      NatDecimalValue(-i);
    } else {
      NatDecimalValue(i);
    }
  }
}

=== FILE: tray.dfy ===
/**
 * The StatusNotifierItem client (`tray_api.rs`): decoding the `IconPixmap`
 * property and the two property maps handed to Lua, the raw one and the one
 * merged with the item's desktop entry.
 */
module TrayApi {
  import opened Wrappers
  import opened Text
  import opened DesktopEntry

  /** `TrayApiError`; the wrapped D-Bus, I/O and image errors are kept by their text only. */
  datatype TrayApiError =
    | DbusError(message: string)
    | IoError(message: string)
    | ImageError(message: string)
    | PixmapConversionError(message: string)
    | DesktopEntryError(message: string)
    | Other(message: string)

  /** The D-Bus values that matter to the pixmap decoder; every other variant is `OtherValue`. */
  datatype DValue =
    | I32(i: int)
    | U8(b: bv8)
    | Array(items: seq<DValue>)
    | Structure(fields: seq<DValue>)
    | Str(s: string)
    | OtherValue

  datatype Pixmap = Pixmap(width: int, height: int, data: seq<bv8>)

  /** The bytes of a data array: the `U8` items in order, every other item dropped. */
  function DataBytes(items: seq<DValue>): (r: seq<bv8>)
    ensures |r| <= |items|
    decreases |items|
  {
    if items == [] then []
    else (if items[0].U8? then [items[0].b] else []) + DataBytes(items[1..])
  }

  /** Dropping works item by item: the bytes of two arrays put together are the two byte lists put together. */
  lemma {:induction false} DataBytesAppend(a: seq<DValue>, b: seq<DValue>)
    ensures DataBytes(a + b) == DataBytes(a) + DataBytes(b)
    decreases |a|
  {
    if a != [] {
      var head := if a[0].U8? then [a[0].b] else [];
      assert (a + b)[0] == a[0] && (a + b)[1..] == a[1..] + b;
      DataBytesAppend(a[1..], b);
      assert DataBytes(a + b) == head + (DataBytes(a[1..]) + DataBytes(b));
    } else {
      assert a + b == b;
    }
  }

  /** An array of bytes only loses nothing: the data is the bytes, in their order. */
  lemma {:induction false} DataBytesKeepsBytes(items: seq<DValue>)
    requires forall i :: 0 <= i < |items| ==> items[i].U8?
    ensures |DataBytes(items)| == |items|
    ensures forall i :: 0 <= i < |items| ==> DataBytes(items)[i] == items[i].b
    decreases |items|
  {
    if items != [] {
      DataBytesKeepsBytes(items[1..]);
    }
  }

  /** An array without bytes gives no data. */
  lemma {:induction false} DataBytesNone(items: seq<DValue>)
    requires forall i :: 0 <= i < |items| ==> !items[i].U8?
    ensures DataBytes(items) == []
    decreases |items|
  {
    if items != [] {
      DataBytesNone(items[1..]);
    }
  }

  /** An element the decoder accepts: a structure of exactly an I32, an I32 and an array. */
  predicate IsPixmapValue(v: DValue) {
    v.Structure? && |v.fields| == 3 && v.fields[0].I32? && v.fields[1].I32? && v.fields[2].Array?
  }

  /** The pixmap one array element describes, if it is well formed. */
  function PixmapOf(v: DValue): (r: Option<Pixmap>)
    ensures r.Some? <==> IsPixmapValue(v)
  {
    if IsPixmapValue(v) then Some(Pixmap(v.fields[0].i, v.fields[1].i, DataBytes(v.fields[2].items))) else None
  }

  /** The pixmaps of the well-formed elements, in order (the `filter_map`). */
  function Pixmaps(items: seq<DValue>): (r: seq<Pixmap>)
    ensures |r| <= |items|
    decreases |items|
  {
    if items == [] then []
    else (match PixmapOf(items[0]) case Some(p) => [p] case None => []) + Pixmaps(items[1..])
  }

  /** The first decoded pixmap is the one of the first well-formed element; there is none only without one. */
  lemma {:induction false} PixmapsFirst(items: seq<DValue>)
    ensures Pixmaps(items) == [] <==> forall i :: 0 <= i < |items| ==> !IsPixmapValue(items[i])
    ensures Pixmaps(items) != [] ==>
      (exists i :: 0 <= i < |items| && IsPixmapValue(items[i]) && Some(Pixmaps(items)[0]) == PixmapOf(items[i])
        && forall j :: 0 <= j < i ==> !IsPixmapValue(items[j]))
    decreases |items|
  {
    if items != [] && !IsPixmapValue(items[0]) {
      PixmapsFirst(items[1..]);
      assert forall i :: 1 <= i < |items| ==> items[i] == items[1..][i - 1];
      if Pixmaps(items) != [] {
        var i :| 0 <= i < |items[1..]| && IsPixmapValue(items[1..][i]) && Some(Pixmaps(items[1..])[0]) == PixmapOf(items[1..][i])
          && forall j :: 0 <= j < i ==> !IsPixmapValue(items[1..][j]);
        assert IsPixmapValue(items[i + 1]);
      }
    }
  }

  /** `parse_icon_pixmap`: the first pixmap of an array value; any other value gives none. */
  function ParseIconPixmap(v: DValue): (r: Result<Option<Pixmap>, TrayApiError>)
    ensures r.Ok?
    ensures !v.Array? ==> r.value.None?
  {
    var pixmaps := if v.Array? then Pixmaps(v.items) else [];
    if pixmaps == [] then Ok(None) else Ok(Some(pixmaps[0]))
  }

  /**
   * An array value gives a pixmap exactly when one of its elements is well
   * formed, and then the first such element's.
   */
  lemma ParseIconPixmapFirst(items: seq<DValue>)
    ensures ParseIconPixmap(Array(items)).value.None? <==> forall i :: 0 <= i < |items| ==> !IsPixmapValue(items[i])
    ensures ParseIconPixmap(Array(items)).value.Some? ==>
      (exists i :: 0 <= i < |items| && PixmapOf(items[i]) == ParseIconPixmap(Array(items)).value
        && forall j :: 0 <= j < i ==> !IsPixmapValue(items[j]))
  {
    PixmapsFirst(items);
  }

  /** The string properties of an item that the maps read. */
  datatype Property = Id | Title | IconName | Status | ToolTip | DesktopItem

  /** The D-Bus name of a property. */
  function PropertyName(p: Property): string {
    match p
    case Id => "Id"
    case Title => "Title"
    case IconName => "IconName"
    case Status => "Status"
    case ToolTip => "ToolTip"
    case DesktopItem => "X-KDE-StatusNotifierItem-DesktopItem"
  }

  /**
   * The item behind a service name: its string properties and its
   * `IconPixmap` value, each a D-Bus call that may fail.
   */
  datatype Item = Item(property: Property -> Result<string, TrayApiError>, iconPixmap: Result<DValue, TrayApiError>)

  /** The order in which both maps fetch the properties. */
  const FetchOrder: seq<Property> := [Id, Title, IconName, Status, ToolTip, DesktopItem]

  /** The values of the given properties, stopping at the first fetch that fails. */
  function FetchAll(item: Item, props: seq<Property>): (r: Result<seq<string>, TrayApiError>)
    ensures r.Ok? <==> forall i :: 0 <= i < |props| ==> item.property(props[i]).Ok?
    ensures r.Ok? ==> |r.value| == |props| && forall i :: 0 <= i < |props| ==> r.value[i] == item.property(props[i]).value
    ensures r.Err? ==>
      (exists i :: 0 <= i < |props| && item.property(props[i]) == Err(r.error)
        && forall j :: 0 <= j < i ==> item.property(props[j]).Ok?)
    decreases |props|
  {
    if props == [] then Ok([])
    else
      match item.property(props[0])
      case Err(e) => Err(e)
      case Ok(v) =>
        var rest := FetchAll(item, props[1..]);
        assert forall i :: 1 <= i < |props| ==> props[i] == props[1..][i - 1];
        if rest.Err? then
          assert exists i :: (1 <= i < |props| && item.property(props[i]) == Err(rest.error)
            && forall j :: 0 <= j < i ==> item.property(props[j]).Ok?) by {
            var k :| 0 <= k < |props[1..]| && item.property(props[1..][k]) == Err(rest.error)
              && forall j :: 0 <= j < k ==> item.property(props[1..][j]).Ok?;
            assert item.property(props[k + 1]) == Err(rest.error);
          }
          Err(rest.error)
        else Ok([v] + rest.value)
  }

  /** The keys of the maps handed to Lua. */
  datatype Key = ServiceKey | IdKey | TitleKey | IconNameKey | StatusKey | ToolTipKey | DesktopItemKey | IconPathKey

  /** The name of a key in the Lua table. */
  function KeyName(k: Key): string {
    match k
    case ServiceKey => "service"
    case IdKey => "id"
    case TitleKey => "title"
    case IconNameKey => "icon_name"
    case StatusKey => "status"
    case ToolTipKey => "tool_tip"
    case DesktopItemKey => "desktop_item"
    case IconPathKey => "icon_path"
  }

  /** Distinct keys have distinct names, so no entry of a map hides another in the Lua table. */
  lemma KeyNamesDistinct(a: Key, b: Key)
    requires a != b
    ensures KeyName(a) != KeyName(b)
  {
    assert KeyName(a)[..2] != KeyName(b)[..2] || |KeyName(a)| != |KeyName(b)| || KeyName(a)[2..] != KeyName(b)[2..];
  }

  /** The keys of the raw map: all but `icon_path`. */
  const RawKeys: set<Key> := {ServiceKey, IdKey, TitleKey, IconNameKey, StatusKey, ToolTipKey, DesktopItemKey}

  /**
   * `get_item_properties_raw_impl`: the service name and the six properties
   * as fetched, under seven keys; the connection's or the first fetch's error
   * otherwise.
   */
  function RawProperties(service: string, client: Result<Item, TrayApiError>): (r: Result<map<Key, string>, TrayApiError>)
    ensures client.Err? ==> r == Err(client.error)
    ensures client.Ok? ==> (r.Ok? <==> forall i :: 0 <= i < |FetchOrder| ==> client.value.property(FetchOrder[i]).Ok?)
    ensures r.Ok? ==>
      (client.Ok? && r.value.Keys == RawKeys && r.value[ServiceKey] == service
        && r.value[IdKey] == client.value.property(Id).value
        && r.value[TitleKey] == client.value.property(Title).value
        && r.value[IconNameKey] == client.value.property(IconName).value
        && r.value[StatusKey] == client.value.property(Status).value
        && r.value[ToolTipKey] == client.value.property(ToolTip).value
        && r.value[DesktopItemKey] == client.value.property(DesktopItem).value)
  {
    if client.Err? then Err(client.error)
    else
      var fetched := FetchAll(client.value, FetchOrder);
      if fetched.Err? then Err(fetched.error)
      else
        var v := fetched.value;
        assert v[0] == client.value.property(Id).value && v[1] == client.value.property(Title).value;
        assert v[2] == client.value.property(IconName).value && v[3] == client.value.property(Status).value;
        assert v[4] == client.value.property(ToolTip).value && v[5] == client.value.property(DesktopItem).value;
        Ok(map[ServiceKey := service, IdKey := v[0], TitleKey := v[1], IconNameKey := v[2],
               StatusKey := v[3], ToolTipKey := v[4], DesktopItemKey := v[5]])
  }

  /** Where a pixmap is saved: `<temp dir>/ink/<service>.png`. */
  function PixmapPath(tempDir: string, service: string): string {
    tempDir + "/ink/" + service + ".png"
  }

  /**
   * `save_pixmap_to_temp_file`: `write` stands for creating the directory,
   * building the image buffer and writing the PNG file.
   */
  function SavePixmap(pixmap: Pixmap, service: string, tempDir: string,
                      write: (Pixmap, string) -> Result<(), TrayApiError>): (r: Result<string, TrayApiError>)
    ensures r.Ok? <==> write(pixmap, PixmapPath(tempDir, service)).Ok?
    ensures r.Ok? ==> r.value == PixmapPath(tempDir, service)
  {
    match write(pixmap, PixmapPath(tempDir, service))
    case Err(e) => Err(e)
    case Ok(_) => Ok(PixmapPath(tempDir, service))
  }

  /** The desktop entry read from `path` (`readFile` gives the file's text, None when it cannot be read). */
  function EntryAt(readFile: string -> Option<string>, path: string): Option<Entry> {
    if readFile(path).None? then None else EntryOf(Pairs(Lines(readFile(path).value)))
  }

  /** The desktop entry that applies: none for an empty path. */
  function DesktopOf(readFile: string -> Option<string>, path: string): Option<Entry> {
    if path == [] then None else EntryAt(readFile, path)
  }

  /** The title shown: the desktop entry's name, else the item's title, else its id. */
  function TitleOf(id: string, title: string, entry: Option<Entry>): string {
    if entry.Some? && entry.value.name.Some? then entry.value.name.value
    else if title == [] then id
    else title
  }

  /** The icon name in force: the desktop entry's icon, else the item's. */
  function IconNameOf(iconName: string, entry: Option<Entry>): string {
    if entry.Some? && entry.value.icon.Some? then entry.value.icon.value else iconName
  }

  /** Whether the item's pixmap decodes to a picture. */
  predicate HasPixmap(item: Item) {
    item.iconPixmap.Ok? && ParseIconPixmap(item.iconPixmap.value).value.Some?
  }

  /**
   * What the processed map holds once the six properties are fetched, given
   * the desktop entry in force: the service, the id, the status and the tool
   * tip as fetched; the desktop item when there is one; the title; and either
   * the icon name or the saved pixmap's path, never both.
   */
  predicate Merged(m: map<Key, string>, service: string, v: seq<string>, title: string, icon: string,
                   hasPixmap: bool, tempDir: string)
    requires |v| == 6
  {
    && ServiceKey in m && m[ServiceKey] == service
    && IdKey in m && m[IdKey] == v[0]
    && StatusKey in m && m[StatusKey] == v[3]
    && ToolTipKey in m && m[ToolTipKey] == v[4]
    && (DesktopItemKey in m <==> v[5] != []) && (DesktopItemKey in m ==> m[DesktopItemKey] == v[5])
    && TitleKey in m && m[TitleKey] == title
    && (IconNameKey in m <==> icon != []) && (IconNameKey in m ==> m[IconNameKey] == icon)
    && (IconPathKey in m <==> icon == [] && hasPixmap)
    && (IconPathKey in m ==> m[IconPathKey] == PixmapPath(tempDir, service))
  }

  /**
   * The title and the icon name after the fallback to the id and the desktop
   * item's override; an error when the desktop item cannot be parsed.
   */
  method ResolveTitleAndIcon(id: string, title: string, iconName: string, path: string,
                             readFile: string -> Option<string>)
    returns (r: Result<(string, string), TrayApiError>)
    ensures r.Err? <==> path != [] && EntryAt(readFile, path).None?
    ensures r.Err? ==> r.error == DesktopEntryError("Failed to parse desktop entry: " + path)
    ensures r.Ok? ==> r.value == (TitleOf(id, title, DesktopOf(readFile, path)), IconNameOf(iconName, DesktopOf(readFile, path)))
  {
    var t, icon := title, iconName;
    if t == [] {
      t := id;
    }
    if path != [] {
      var entry := ParseFromFile(readFile(path));
      if entry.None? {
        return Err(DesktopEntryError("Failed to parse desktop entry: " + path));
      }
      if entry.value.name.Some? {
        t := entry.value.name.value;
      }
      if entry.value.icon.Some? {
        icon := entry.value.icon.value;
      }
    }
    return Ok((t, icon));
  }

  /**
   * Whether the icon step gets through without a name: the pixmap was fetched,
   * and either it holds no picture or the picture saves.
   */
  predicate PixmapSaves(pixmap: Result<DValue, TrayApiError>, service: string, tempDir: string,
                        write: (Pixmap, string) -> Result<(), TrayApiError>)
  {
    pixmap.Ok?
    && (ParseIconPixmap(pixmap.value).value.None?
        || write(ParseIconPixmap(pixmap.value).value.value, PixmapPath(tempDir, service)).Ok?)
  }

  /** The icon entry: `icon_name` when there is a name, else `icon_path` when the pixmap decodes and saves. */
  method AddIcon(props: map<Key, string>, iconName: string, pixmap: Result<DValue, TrayApiError>,
                 service: string, tempDir: string, write: (Pixmap, string) -> Result<(), TrayApiError>)
    returns (r: Result<map<Key, string>, TrayApiError>)
    ensures r.Ok? <==> iconName != [] || PixmapSaves(pixmap, service, tempDir, write)
    ensures iconName != [] ==> r == Ok(props[IconNameKey := iconName])
    ensures iconName == [] && pixmap.Err? ==> r == Err(pixmap.error)
    ensures iconName == [] && pixmap.Ok? && ParseIconPixmap(pixmap.value).value.Some?
      && write(ParseIconPixmap(pixmap.value).value.value, PixmapPath(tempDir, service)).Err?
      ==> r == Err(write(ParseIconPixmap(pixmap.value).value.value, PixmapPath(tempDir, service)).error)
    ensures r.Ok? && iconName == [] ==>
      if pixmap.Ok? && ParseIconPixmap(pixmap.value).value.Some?
      then r.value == props[IconPathKey := PixmapPath(tempDir, service)]
      else r.value == props
  {
    if iconName == [] {
      if pixmap.Err? {
        return Err(pixmap.error);
      }
      var parsed := ParseIconPixmap(pixmap.value);
      if parsed.value.Some? {
        var saved := SavePixmap(parsed.value.value, service, tempDir, write);
        if saved.Err? {
          return Err(saved.error);
        }
        return Ok(props[IconPathKey := saved.value]);
      }
      return Ok(props);
    } else {
      return Ok(props[IconNameKey := iconName]);
    }
  }

  /**
   * The map built from the six fetched values `v`, the title and the icon
   * name once resolved, and the item's pixmap.
   */
  method Assemble(service: string, v: seq<string>, title: string, icon: string,
                  pixmap: Result<DValue, TrayApiError>, tempDir: string,
                  write: (Pixmap, string) -> Result<(), TrayApiError>)
    returns (r: Result<map<Key, string>, TrayApiError>)
    requires |v| == 6
    ensures r.Ok? <==> icon != [] || PixmapSaves(pixmap, service, tempDir, write)
    ensures icon == [] && pixmap.Err? ==> r == Err(pixmap.error)
    ensures r.Ok? ==> Merged(r.value, service, v, title, icon, pixmap.Ok? && ParseIconPixmap(pixmap.value).value.Some?, tempDir)
  {
    var props := map[ServiceKey := service, IdKey := v[0], StatusKey := v[3], ToolTipKey := v[4]];
    if v[5] != [] {
      props := props[DesktopItemKey := v[5]];
    }
    props := props[TitleKey := title];
    r := AddIcon(props, icon, pixmap, service, tempDir, write);
  }

  /**
   * `get_item_properties_processed`. The six properties are fetched as for the
   * raw map; the title falls back to the id, a desktop item is parsed and its
   * name and icon override the title and the icon; then either `icon_name` is
   * set or, without one, `icon_path` names the saved pixmap, if there is one.
   */
  method ProcessedProperties(service: string, client: Result<Item, TrayApiError>,
                             readFile: string -> Option<string>, tempDir: string,
                             write: (Pixmap, string) -> Result<(), TrayApiError>)
    returns (r: Result<map<Key, string>, TrayApiError>)
    ensures client.Err? ==> r == Err(client.error)
    ensures client.Ok? && FetchAll(client.value, FetchOrder).Err? ==> r == Err(FetchAll(client.value, FetchOrder).error)
    ensures client.Ok? && FetchAll(client.value, FetchOrder).Ok? ==>
      var v := FetchAll(client.value, FetchOrder).value;
      (v[5] != [] && EntryAt(readFile, v[5]).None? ==> r == Err(DesktopEntryError("Failed to parse desktop entry: " + v[5])))
    ensures r.Ok? ==>
      (client.Ok? && FetchAll(client.value, FetchOrder).Ok?
        && var v := FetchAll(client.value, FetchOrder).value;
           var entry := DesktopOf(readFile, v[5]);
           Merged(r.value, service, v, TitleOf(v[0], v[1], entry), IconNameOf(v[2], entry), HasPixmap(client.value), tempDir))
    ensures client.Ok? && FetchAll(client.value, FetchOrder).Ok? ==>
      var v := FetchAll(client.value, FetchOrder).value;
      !(v[5] != [] && EntryAt(readFile, v[5]).None?) ==>
        (r.Ok? <==> IconNameOf(v[2], DesktopOf(readFile, v[5])) != []
                    || PixmapSaves(client.value.iconPixmap, service, tempDir, write))
    ensures r.Ok? ==> !(IconNameKey in r.value && IconPathKey in r.value)
  {
    if client.Err? {
      return Err(client.error);
    }
    var fetched := FetchAll(client.value, FetchOrder);
    if fetched.Err? {
      return Err(fetched.error);
    }
    var v := fetched.value;
    var resolved := ResolveTitleAndIcon(v[0], v[1], v[2], v[5], readFile);
    if resolved.Err? {
      return Err(resolved.error);
    }
    r := Assemble(service, v, resolved.value.0, resolved.value.1, client.value.iconPixmap, tempDir, write);
  }
}

=== FILE: widget_wrapper.dfy ===
/**
 * The widget handle Lua scripts hold (`LuaWidget`): the search for a named
 * descendant, and the methods that change the widget in place (`destroy`,
 * `set_text`, `remove_children`, `set_property`) or read it (`get_text`).
 */
module WidgetWrapper {
  import opened Wrappers
  import opened Lua
  import opened Gtk
  import opened Casts

  const FlowBox: string := "GtkFlowBox"

  // ---- find_child -------------------------------------------------------------------

  /** The descendants of a widget in pre-order: each child, then its own descendants, then the next child. */
  function Descendants(w: Widget): seq<Widget>
    decreases w, 1
  {
    DescendantsFrom(w, 0)
  }

  /** The pre-order descendants reached from child `i` of `w` onwards. */
  function DescendantsFrom(w: Widget, i: nat): seq<Widget>
    requires i <= |w.children|
    decreases w, 0, |w.children| - i
  {
    if i == |w.children| then []
    else [w.children[i].1] + Descendants(w.children[i].1) + DescendantsFrom(w, i + 1)
  }

  /** Every descendant lies strictly inside the widget, so the widget is never its own descendant. */
  lemma {:induction false} DescendantsBelow(w: Widget, i: nat)
    requires i <= |w.children|
    ensures forall d :: d in DescendantsFrom(w, i) ==> d < w
    ensures w !in DescendantsFrom(w, i)
    decreases w, |w.children| - i
  {
    if i < |w.children| {
      var c := w.children[i].1;
      DescendantsBelow(c, 0);
      DescendantsBelow(w, i + 1);
    }
  }

  /** The first widget of a list whose name is `name`. */
  function FirstNamed(ws: seq<Widget>, name: string): Option<Widget>
    decreases |ws|
  {
    if ws == [] then None
    else if WidgetName(ws[0]) == name then Some(ws[0])
    else FirstNamed(ws[1..], name)
  }

  /** FirstNamed finds nothing only when no widget has the name, and otherwise the first that has it. */
  lemma {:induction false} FirstNamedSpec(ws: seq<Widget>, name: string)
    ensures FirstNamed(ws, name).None? <==> forall i :: 0 <= i < |ws| ==> WidgetName(ws[i]) != name
    ensures FirstNamed(ws, name).Some? ==>
      (exists i :: 0 <= i < |ws| && ws[i] == FirstNamed(ws, name).value && WidgetName(ws[i]) == name
        && forall j :: 0 <= j < i ==> WidgetName(ws[j]) != name)
    decreases |ws|
  {
    if ws != [] && WidgetName(ws[0]) != name {
      FirstNamedSpec(ws[1..], name);
      assert forall i :: 0 < i < |ws| ==> ws[i] == ws[1..][i - 1];
    }
  }

  /** Searching two lists in turn: the second is searched only when the first has no match. */
  lemma {:induction false} FirstNamedAppend(a: seq<Widget>, b: seq<Widget>, name: string)
    ensures FirstNamed(a + b, name) == if FirstNamed(a, name).Some? then FirstNamed(a, name) else FirstNamed(b, name)
    decreases |a|
  {
    if a == [] {
      assert a + b == b;
    } else {
      assert (a + b)[0] == a[0] && (a + b)[1..] == a[1..] + b;
      FirstNamedAppend(a[1..], b, name);
    }
  }

  /**
   * `find_child_by_name_recursive`: walks the children in sibling order; a
   * child with the name is returned, otherwise its own subtree is searched
   * before the next sibling. The parent itself is never a candidate.
   */
  method FindChildByName(parent: Widget, name: string) returns (r: Option<Widget>)
    ensures r == FirstNamed(Descendants(parent), name)
    decreases parent
  {
    var i := 0;
    while i < |parent.children|
      invariant i <= |parent.children|
      invariant FirstNamed(Descendants(parent), name) == FirstNamed(DescendantsFrom(parent, i), name)
    {
      var c := parent.children[i].1;
      FirstNamedAppend([c] + Descendants(c), DescendantsFrom(parent, i + 1), name);
      FirstNamedAppend([c], Descendants(c), name);
      if WidgetName(c) == name {
        return Some(c);
      }
      var found := FindChildByName(c, name);
      if found.Some? {
        return found;
      }
      i := i + 1;
    }
    return None;
  }

  /**
   * `find_child` finds nothing exactly when no descendant carries the name;
   * what it finds is a descendant with the name, every earlier one in pre-order
   * has another name, and it is never the widget searched from.
   */
  lemma FindChildSpec(parent: Widget, name: string)
    ensures FirstNamed(Descendants(parent), name).None? <==>
      forall d :: d in Descendants(parent) ==> WidgetName(d) != name
    ensures FirstNamed(Descendants(parent), name).Some? ==>
      (exists i :: 0 <= i < |Descendants(parent)| && Descendants(parent)[i] == FirstNamed(Descendants(parent), name).value
        && WidgetName(Descendants(parent)[i]) == name
        && forall j :: 0 <= j < i ==> WidgetName(Descendants(parent)[j]) != name)
    ensures FirstNamed(Descendants(parent), name) != Some(parent)
  {
    FirstNamedSpec(Descendants(parent), name);
    DescendantsBelow(parent, 0);
  }

  // ---- text and properties ------------------------------------------------------

  /** The text an Editable shows: its "text" property, empty while unset. */
  function EditableText(w: Widget): string {
    if "text" in w.properties && w.properties["text"].GStr? then w.properties["text"].s else ""
  }

  /**
   * `set_text` on a widget value: an Editable gets the text; otherwise a Label
   * shows it literally (GTK's `gtk_label_set_text` also turns markup and
   * mnemonics off); any other widget is left as it is.
   */
  function WithText(w: Widget, text: string): (r: Widget)
    ensures r.typeName == w.typeName && r.signals == w.signals && r.children == w.children
  {
    if IsA(w.typeName, Editable) then w.(properties := w.properties["text" := GStr(text)])
    else if IsA(w.typeName, Label) then
      w.(properties := w.properties["label" := GStr(text)]["use-markup" := GBool(false)]["use-underline" := GBool(false)])
    else w
  }

  /** `get_text` on a widget value: the Editable's text, and "" for any other widget. */
  function TextOf(w: Widget): (r: string)
    ensures !IsA(w.typeName, Editable) ==> r == ""
  {
    if IsA(w.typeName, Editable) then EditableText(w) else ""
  }

  /** What `set_text` writes on an Editable, `get_text` reads back; no other property moves. */
  lemma TextRoundTrip(w: Widget, text: string)
    requires IsA(w.typeName, Editable)
    ensures TextOf(WithText(w, text)) == text
    ensures forall k :: k != "text" ==> (k in WithText(w, text).properties <==> k in w.properties)
    ensures forall k :: k != "text" && k in w.properties ==> WithText(w, text).properties[k] == w.properties[k]
  {
  }

  /** A Label that is not Editable shows the text as plain text; `get_text` still answers "". */
  lemma LabelText(w: Widget, text: string)
    requires !IsA(w.typeName, Editable) && IsA(w.typeName, Label)
    ensures WithText(w, text).properties["label"] == GStr(text)
    ensures WithText(w, text).properties["use-markup"] == GBool(false)
    ensures WithText(w, text).properties["use-underline"] == GBool(false)
    ensures TextOf(WithText(w, text)) == ""
  {
  }

  /** Any widget that is neither Editable nor a Label is unchanged by `set_text`. */
  lemma OtherWidgetsIgnoreText(w: Widget, text: string)
    requires !IsA(w.typeName, Editable) && !IsA(w.typeName, Label)
    ensures WithText(w, text) == w
  {
  }

  /**
   * The GLib value `set_property` passes for a Lua value: strings that are
   * valid UTF-8, booleans and floats as they are, integers converted to
   * floats; nil, tables, functions, userdata and other strings are ignored.
   */
  function PropertyValue(v: SV): (r: Option<GValue>)
    ensures r.None? <==> v.Nil? || v.Table? || v.Func? || v.UserData? || (v.Str? && v.s.NotUtf8?)
    ensures v.Int? ==> r == Some(GF64(I64ToF64(v.i)))
    ensures v.Num? ==> r == Some(GF64(v.f.value))
    ensures v.Bool? ==> r == Some(GBool(v.b))
    ensures v.Str? && v.s.Utf8? ==> r == Some(GStr(v.s.text))
  {
    match v
    case Str(Utf8(t)) => Some(GStr(t))
    case Bool(b) => Some(GBool(b))
    case Num(f) => Some(GF64(f.value))
    case Int(i) => Some(GF64(I64ToF64(i)))
    case _ => None
  }

  /** The widgets a child list holds, in sibling order. */
  function ChildWidgets(children: seq<(Slot, Widget)>): (r: seq<Widget>)
    ensures |r| == |children|
    ensures forall j :: 0 <= j < |r| ==> r[j] == children[j].1
  {
    seq(|children|, j requires 0 <= j < |children| => children[j].1)
  }

  // ---- the handle ---------------------------------------------------------------------

  /**
   * A `LuaWidget`: the widget it wraps, whether the widget still has a parent,
   * and whether it has been destroyed.
   */
  class LuaWidget {
    var widget: Widget
    var parented: bool
    var destroyed: bool

    constructor (widget: Widget, parented: bool)
      ensures this.widget == widget && this.parented == parented && !destroyed
    {
      this.widget := widget;
      this.parented := parented;
      destroyed := false;
    }

    /** `destroy`: a window is destroyed; any other widget is only taken off its parent. */
    method Destroy()
      modifies this
      ensures IsA(old(widget).typeName, Window) ==> destroyed && parented == old(parented)
      ensures !IsA(old(widget).typeName, Window) ==> !parented && destroyed == old(destroyed)
      ensures widget == old(widget)
    {
      if IsA(widget.typeName, Window) {
        destroyed := true;
      } else {
        parented := false;
      }
    }

    /** `find_child`: the first descendant with the name. */
    method FindChild(name: string) returns (r: Option<Widget>)
      ensures r == FirstNamed(Descendants(widget), name)
    {
      r := FindChildByName(widget, name);
    }

    /** `set_text`. */
    method SetText(text: string)
      modifies this
      ensures widget == WithText(old(widget), text)
      ensures parented == old(parented) && destroyed == old(destroyed)
    {
      if IsA(widget.typeName, Editable) {
        widget := widget.(properties := widget.properties["text" := GStr(text)]);
      } else if IsA(widget.typeName, Label) {
        widget := widget.(properties := widget.properties["label" := GStr(text)]["use-markup" := GBool(false)]["use-underline" := GBool(false)]);
      }
    }

    /** `get_text`. */
    method GetText() returns (text: string)
      ensures text == TextOf(widget)
    {
      if IsA(widget.typeName, Editable) {
        return EditableText(widget);
      }
      return "";
    }

    /** `set_property`: stores the converted value under the key, or changes nothing. */
    method SetProperty(key: string, val: SV)
      modifies this
      ensures PropertyValue(val).None? ==> widget == old(widget)
      ensures PropertyValue(val).Some? ==>
        widget == old(widget).(properties := old(widget).properties[key := PropertyValue(val).value])
      ensures parented == old(parented) && destroyed == old(destroyed)
    {
      match val {
        case Str(s) =>
          if s.Utf8? {
            widget := widget.(properties := widget.properties[key := GStr(s.text)]);
          }
        case Bool(b) =>
          widget := widget.(properties := widget.properties[key := GBool(b)]);
        case Num(n) =>
          widget := widget.(properties := widget.properties[key := GF64(n.value)]);
        case Int(i) =>
          widget := widget.(properties := widget.properties[key := GF64(I64ToF64(i))]);
        case _ =>
      }
    }

    /**
     * `remove_children`. A FlowBox removes its first child until none is left;
     * any other widget first collects its children by walking the siblings and
     * then unparents each of them. Either way the widget ends without children
     * and nothing else about it changes.
     */
    method RemoveChildren()
      modifies this
      ensures widget == old(widget).(children := [])
      ensures parented == old(parented) && destroyed == old(destroyed)
    {
      if IsA(widget.typeName, FlowBox) {
        while widget.children != []
          invariant widget == old(widget).(children := widget.children)
          invariant parented == old(parented) && destroyed == old(destroyed)
          decreases |widget.children|
        {
          widget := widget.(children := widget.children[1..]);
        }
      } else {
        var children: seq<Widget> := [];
        var i := 0;
        while i < |widget.children|
          invariant i <= |widget.children|
          invariant children == ChildWidgets(widget.children[..i])
        {
          children := children + [widget.children[i].1];
          i := i + 1;
        }
        assert |children| == |widget.children|;
        ghost var start := widget.children;
        for k := 0 to |children|
          invariant widget == old(widget).(children := start[k..])
          invariant parented == old(parented) && destroyed == old(destroyed)
        {
          // unparenting child k takes it out of its parent: it is the first child left
          widget := widget.(children := widget.children[1..]);
        }
      }
    }
  }

  /** After `remove_children` the widget has no children left to find. */
  lemma NoChildrenNoDescendants(w: Widget, name: string)
    requires w.children == []
    ensures Descendants(w) == [] && FirstNamed(Descendants(w), name).None?
  {
  }
}

=== FILE: window_strategy.dfy ===
/**
 * `WindowStrategy`: how the root window of a built tree is shown, as a plain
 * window or as a layer surface with a layer, anchors and an exclusive zone read
 * from the configuration.
 *
 * The configuration is any `ScriptValue`; the strategy only uses four of its
 * operations, which `Script` gathers so that the decisions can be stated for an
 * arbitrary implementation and then for the Lua one.
 */
module WindowStrategy {
  import opened Wrappers
  import opened Lua
  import opened Casts
  import opened Gtk
  import opened LuaDriver
  import opened LayerShell

  /** The `ScriptValue` operations the strategy uses, over values of type `V`. */
  datatype Script<!V> = Script(
    getProperty: (V, string) -> Option<V>,
    asString: V -> Option<string>,
    asBool: V -> Option<bool>,
    asInteger: V -> Option<int>)

  /** `get_property(key).and_then(as_string)`. */
  function StringOf<V>(sv: Script<V>, data: V, key: string): Option<string> {
    match sv.getProperty(data, key)
    case Some(v) => sv.asString(v)
    case None => None
  }

  /** `get_property(key).and_then(as_bool)`. */
  function BoolOf<V>(sv: Script<V>, data: V, key: string): Option<bool> {
    match sv.getProperty(data, key)
    case Some(v) => sv.asBool(v)
    case None => None
  }

  /** `get_property(key).and_then(as_integer)`. */
  function IntegerOf<V>(sv: Script<V>, data: V, key: string): Option<int> {
    match sv.getProperty(data, key)
    case Some(v) => sv.asInteger(v)
    case None => None
  }

  /** The `window_mode` setting, `"layer_shell"` when absent. */
  function Mode<V>(sv: Script<V>, data: V): string {
    StringOf(sv, data, "window_mode").GetOr("layer_shell")
  }

  /** The layer named by the `layer` setting: Top unless it is one of the three other names. */
  function LayerNamed(name: Option<string>): (l: Layer)
    ensures name == Some("bottom") <==> l == BottomLayer
    ensures name == Some("overlay") <==> l == OverlayLayer
    ensures name == Some("background") <==> l == BackgroundLayer
  {
    match name
    case Some("bottom") => BottomLayer
    case Some("overlay") => OverlayLayer
    case Some("background") => BackgroundLayer
    case _ => TopLayer
  }

  /** The configuration key of an edge. */
  function EdgeKey(e: Edge): string {
    match e
    case Top => "top"
    case Bottom => "bottom"
    case Left => "left"
    case Right => "right"
  }

  /** The edges in the order the strategy reads them. */
  const AllEdges: seq<Edge> := [Top, Bottom, Left, Right]

  /** `set_anchor(window, anchors, key, edge)`: one call, only when the key holds a boolean. */
  function EdgeCall<V>(sv: Script<V>, anchors: V, e: Edge): seq<Call> {
    match BoolOf(sv, anchors, EdgeKey(e))
    case Some(b) => [SetAnchor(e, b)]
    case None => []
  }

  /** The calls for several edges, in order. */
  function EdgeCalls<V>(sv: Script<V>, anchors: V, es: seq<Edge>): seq<Call>
    decreases |es|
  {
    if es == [] then [] else EdgeCall(sv, anchors, es[0]) + EdgeCalls(sv, anchors, es[1..])
  }

  /** The anchor calls: per edge from `anchors` when present, else top, left and right. */
  function AnchorCalls<V>(sv: Script<V>, data: V): seq<Call> {
    match sv.getProperty(data, "anchors")
    case Some(anchors) =>
      EdgeCall(sv, anchors, Top) + EdgeCall(sv, anchors, Bottom)
      + EdgeCall(sv, anchors, Left) + EdgeCall(sv, anchors, Right)
    case None => [SetAnchor(Top, true), SetAnchor(Left, true), SetAnchor(Right, true)]
  }

  /** The zone calls: an integer `exclusive_zone` (cast to i32) first, else `auto_exclusive_zone = true`. */
  function ZoneCalls<V>(sv: Script<V>, data: V): seq<Call> {
    match IntegerOf(sv, data, "exclusive_zone")
    case Some(z) => [SetExclusiveZone(WrapI32(z))]
    case None => if BoolOf(sv, data, "auto_exclusive_zone") == Some(true) then [AutoExclusiveZone] else []
  }

  /** The calls layer-shell mode makes, in order. */
  function LayerShellCalls<V>(sv: Script<V>, data: V): seq<Call> {
    [InitLayerShell, Present, SetLayer(LayerNamed(StringOf(sv, data, "layer")))] + AnchorCalls(sv, data) + ZoneCalls(sv, data)
  }

  /** `set_anchor`. */
  method SetEdge<V>(sv: Script<V>, window: Window, anchors: V, e: Edge) returns (r: Window)
    ensures r == PerformAll(window, EdgeCall(sv, anchors, e))
  {
    r := window;
    var b := BoolOf(sv, anchors, EdgeKey(e));
    if b.Some? {
      r := Perform(r, SetAnchor(e, b.value));
      PerformOne(window, SetAnchor(e, b.value));
    }
  }

  /** The anchor block of `apply`. */
  method SetAnchors<V>(sv: Script<V>, window: Window, data: V) returns (r: Window)
    ensures r == PerformAll(window, AnchorCalls(sv, data))
  {
    var anchors := sv.getProperty(data, "anchors");
    if anchors.Some? {
      var a := anchors.value;
      var t, b, l, rt := EdgeCall(sv, a, Top), EdgeCall(sv, a, Bottom), EdgeCall(sv, a, Left), EdgeCall(sv, a, Right);
      r := SetEdge(sv, window, a, Top);
      r := SetEdge(sv, r, a, Bottom);
      PerformAllAppend(window, t, b);
      r := SetEdge(sv, r, a, Left);
      PerformAllAppend(window, t + b, l);
      r := SetEdge(sv, r, a, Right);
      PerformAllAppend(window, t + b + l, rt);
    } else {
      r := Perform(window, SetAnchor(Top, true));
      r := Perform(r, SetAnchor(Left, true));
      r := Perform(r, SetAnchor(Right, true));
      PerformThree(window, SetAnchor(Top, true), SetAnchor(Left, true), SetAnchor(Right, true));
    }
  }

  /** The exclusive-zone block of `apply`. */
  method SetZone<V>(sv: Script<V>, window: Window, data: V) returns (r: Window)
    ensures r == PerformAll(window, ZoneCalls(sv, data))
  {
    r := window;
    var zone := IntegerOf(sv, data, "exclusive_zone");
    if zone.Some? {
      r := Perform(r, SetExclusiveZone(WrapI32(zone.value)));
      PerformOne(window, SetExclusiveZone(WrapI32(zone.value)));
    } else if BoolOf(sv, data, "auto_exclusive_zone") == Some(true) {
      r := Perform(r, AutoExclusiveZone);
      PerformOne(window, AutoExclusiveZone);
    }
  }

  /** Layer-shell mode of `apply`. */
  method ApplyLayerShell<V>(sv: Script<V>, window: Window, data: V) returns (r: Window)
    ensures r == PerformAll(window, LayerShellCalls(sv, data))
  {
    var layer := LayerNamed(StringOf(sv, data, "layer"));
    r := Perform(window, InitLayerShell);
    r := Perform(r, Present);
    r := Perform(r, SetLayer(layer));
    PerformThree(window, InitLayerShell, Present, SetLayer(layer));
    var head := [InitLayerShell, Present, SetLayer(layer)];
    var anchors := AnchorCalls(sv, data);
    r := SetAnchors(sv, r, data);
    PerformAllAppend(window, head, anchors);
    r := SetZone(sv, r, data);
    PerformAllAppend(window, head + anchors, ZoneCalls(sv, data));
  }

  /**
   * `apply`: a window that is not an ApplicationWindow is left alone; forced
   * windowed or `"normal"` mode only presents it; otherwise it becomes a layer
   * surface (before it is presented), gets its layer, its anchors and its zone.
   */
  method Apply<V>(sv: Script<V>, forceWindowed: bool, widget: Widget, data: V, window: Window) returns (r: Window)
    ensures !IsA(widget.typeName, ApplicationWindow) ==> r == window
    ensures IsA(widget.typeName, ApplicationWindow) && (forceWindowed || Mode(sv, data) == "normal") ==>
      r == Perform(window, Present)
    ensures IsA(widget.typeName, ApplicationWindow) && !forceWindowed && Mode(sv, data) != "normal" ==>
      r == PerformAll(window, LayerShellCalls(sv, data))
  {
    if !IsA(widget.typeName, ApplicationWindow) {
      return window;
    }
    if forceWindowed {
      return Perform(window, Present);
    }
    var mode := StringOf(sv, data, "window_mode").GetOr("layer_shell");
    if mode == "normal" {
      return Perform(window, Present);
    }
    r := ApplyLayerShell(sv, window, data);
  }

  // ---- what layer-shell mode does ---------------------------------------------------

  /** Every call sets one of the edges `es` to the boolean its key holds. */
  predicate FromSettings<V>(sv: Script<V>, anchors: V, es: seq<Edge>, cs: seq<Call>) {
    forall i :: 0 <= i < |cs| ==>
      cs[i].SetAnchor? && cs[i].edge in es && BoolOf(sv, anchors, EdgeKey(cs[i].edge)) == Some(cs[i].anchored)
  }

  /** No edge is set twice. */
  predicate DistinctEdges(cs: seq<Call>) {
    forall i, j :: 0 <= i < j < |cs| && cs[i].SetAnchor? && cs[j].SetAnchor? ==> cs[i].edge != cs[j].edge
  }

  /** The edge calls set only listed edges, each to the boolean its key holds. */
  lemma {:induction false} EdgeCallsFromSettings<V>(sv: Script<V>, anchors: V, es: seq<Edge>)
    ensures FromSettings(sv, anchors, es, EdgeCalls(sv, anchors, es))
    decreases |es|
  {
    if es != [] {
      var head := EdgeCall(sv, anchors, es[0]);
      var rest := EdgeCalls(sv, anchors, es[1..]);
      EdgeCallsFromSettings(sv, anchors, es[1..]);
      var cs := head + rest;
      forall i | 0 <= i < |cs|
        ensures cs[i].SetAnchor? && cs[i].edge in es && BoolOf(sv, anchors, EdgeKey(cs[i].edge)) == Some(cs[i].anchored)
      {
        if i >= |head| {
          assert cs[i] == rest[i - |head|];
          assert rest[i - |head|].edge in es[1..];
        }
      }
    }
  }

  /** The edge calls for distinct edges set no edge twice. */
  lemma {:induction false} EdgeCallsDistinct<V>(sv: Script<V>, anchors: V, es: seq<Edge>)
    requires forall i, j :: 0 <= i < j < |es| ==> es[i] != es[j]
    ensures DistinctEdges(EdgeCalls(sv, anchors, es))
    decreases |es|
  {
    if es != [] {
      var head := EdgeCall(sv, anchors, es[0]);
      var rest := EdgeCalls(sv, anchors, es[1..]);
      assert forall i, j :: 0 <= i < j < |es[1..]| ==> es[1..][i] != es[1..][j] by {
        forall i, j | 0 <= i < j < |es[1..]| ensures es[1..][i] != es[1..][j] {
          assert es[1..][i] == es[i + 1] && es[1..][j] == es[j + 1];
        }
      }
      EdgeCallsDistinct(sv, anchors, es[1..]);
      EdgeCallsFromSettings(sv, anchors, es[1..]);
      assert es[0] !in es[1..] by {
        forall k | 0 <= k < |es[1..]| ensures es[1..][k] != es[0] {
          assert es[1..][k] == es[k + 1];
        }
      }
      var cs := head + rest;
      forall i, j | 0 <= i < j < |cs| && cs[i].SetAnchor? && cs[j].SetAnchor? ensures cs[i].edge != cs[j].edge {
        if j >= |head| {
          assert cs[j] == rest[j - |head|];
          assert rest[j - |head|].edge in es[1..];
          if i >= |head| {
            assert cs[i] == rest[i - |head|];
          } else {
            assert cs[i].edge == es[0];
          }
        }
      }
    }
  }

  /** Every listed edge whose key holds a boolean gets a call setting it to that boolean. */
  lemma {:induction false} EdgeCallsCover<V>(sv: Script<V>, anchors: V, es: seq<Edge>, e: Edge)
    requires e in es && BoolOf(sv, anchors, EdgeKey(e)).Some?
    ensures SetAnchor(e, BoolOf(sv, anchors, EdgeKey(e)).value) in EdgeCalls(sv, anchors, es)
    decreases |es|
  {
    if e != es[0] {
      assert e in es[1..];
      EdgeCallsCover(sv, anchors, es[1..], e);
    }
  }

  /** The anchor block, when `anchors` is present, is the edge calls for all four edges. */
  lemma AnchorCallsAreEdgeCalls<V>(sv: Script<V>, data: V)
    requires sv.getProperty(data, "anchors").Some?
    ensures AnchorCalls(sv, data) == EdgeCalls(sv, sv.getProperty(data, "anchors").value, AllEdges)
  {
    var a := sv.getProperty(data, "anchors").value;
    assert AllEdges[1..] == [Bottom, Left, Right];
    assert AllEdges[1..][1..] == [Left, Right];
    assert AllEdges[1..][1..][1..] == [Right];
    assert EdgeCalls(sv, a, [Right]) == EdgeCall(sv, a, Right) + EdgeCalls(sv, a, []);
    assert EdgeCalls(sv, a, AllEdges) == EdgeCall(sv, a, Top) + (EdgeCall(sv, a, Bottom) + (EdgeCall(sv, a, Left) + EdgeCall(sv, a, Right)));
  }

  /** The anchor block only sets anchors. */
  lemma AnchorCallsOnlyAnchor<V>(sv: Script<V>, data: V)
    ensures forall i :: 0 <= i < |AnchorCalls(sv, data)| ==> AnchorCalls(sv, data)[i].SetAnchor?
  {
    if sv.getProperty(data, "anchors").Some? {
      AnchorCallsAreEdgeCalls(sv, data);
      EdgeCallsFromSettings(sv, sv.getProperty(data, "anchors").value, AllEdges);
    }
  }

  /** The anchor block sets no edge twice. */
  lemma AnchorCallsDistinct<V>(sv: Script<V>, data: V)
    ensures DistinctEdges(AnchorCalls(sv, data))
  {
    if sv.getProperty(data, "anchors").Some? {
      AnchorCallsAreEdgeCalls(sv, data);
      EdgeCallsDistinct(sv, sv.getProperty(data, "anchors").value, AllEdges);
    } else {
      var cs := AnchorCalls(sv, data);
      assert cs == [SetAnchor(Top, true), SetAnchor(Left, true), SetAnchor(Right, true)];
      forall i, j | 0 <= i < j < |cs| && cs[i].SetAnchor? && cs[j].SetAnchor? ensures cs[i].edge != cs[j].edge {
        assert cs[0].edge == Top && cs[1].edge == Left && cs[2].edge == Right;
      }
    }
  }

  /** No call after the layer is set changes the layer again. */
  lemma TailKeepsLayer<V>(sv: Script<V>, data: V)
    ensures forall i :: 0 <= i < |AnchorCalls(sv, data) + ZoneCalls(sv, data)| ==>
      !(AnchorCalls(sv, data) + ZoneCalls(sv, data))[i].SetLayer?
  {
    var anchors := AnchorCalls(sv, data);
    var tail := anchors + ZoneCalls(sv, data);
    AnchorCallsOnlyAnchor(sv, data);
    forall i | 0 <= i < |tail| ensures !tail[i].SetLayer? {
      if i < |anchors| {
        assert tail[i] == anchors[i];
      }
    }
  }

  /**
   * Layer-shell mode turns the window into a layer surface and presents it,
   * with the named layer, and logs exactly its calls.
   */
  lemma LayerShellBeforePresent<V>(sv: Script<V>, data: V, window: Window)
    ensures var r := PerformAll(window, LayerShellCalls(sv, data));
      && r.layerShell && r.presented
      && r.layer == Some(LayerNamed(StringOf(sv, data, "layer")))
      && r.calls == window.calls + LayerShellCalls(sv, data)
  {
    var layer := LayerNamed(StringOf(sv, data, "layer"));
    var head := [InitLayerShell, Present, SetLayer(layer)];
    var tail := AnchorCalls(sv, data) + ZoneCalls(sv, data);
    LayerShellCallsSplit(sv, data);
    PerformAllAppend(window, head, tail);
    PerformThree(window, InitLayerShell, Present, SetLayer(layer));
    TailKeepsLayer(sv, data);
    PerformAllKeepsLayer(PerformAll(window, head), tail);
    assert window.calls + head + tail == window.calls + (head + tail);
  }

  /** The calls are the three that make the window a presented layer surface, then the anchor and zone calls. */
  lemma LayerShellCallsSplit<V>(sv: Script<V>, data: V)
    ensures LayerShellCalls(sv, data) ==
      [InitLayerShell, Present, SetLayer(LayerNamed(StringOf(sv, data, "layer")))] + (AnchorCalls(sv, data) + ZoneCalls(sv, data))
  {
  }

  /** Edge calls made from settings leave each set edge with its setting and every other edge as it was. */
  lemma AnchorsFromSettings<V>(sv: Script<V>, a: V, cs: seq<Call>, anchors: map<Edge, bool>)
    requires FromSettings(sv, a, AllEdges, cs) && DistinctEdges(cs)
    requires forall e :: BoolOf(sv, a, EdgeKey(e)).Some? ==> SetAnchor(e, BoolOf(sv, a, EdgeKey(e)).value) in cs
    ensures forall e :: BoolOf(sv, a, EdgeKey(e)).Some? ==>
      e in AnchorsAfter(anchors, cs) && AnchorsAfter(anchors, cs)[e] == BoolOf(sv, a, EdgeKey(e)).value
    ensures forall e :: BoolOf(sv, a, EdgeKey(e)).None? ==>
      (e in AnchorsAfter(anchors, cs) <==> e in anchors) && (e in anchors ==> AnchorsAfter(anchors, cs)[e] == anchors[e])
  {
    AnchorsAfterDistinct(anchors, cs);
    forall e | BoolOf(sv, a, EdgeKey(e)).Some?
      ensures e in AnchorsAfter(anchors, cs) && AnchorsAfter(anchors, cs)[e] == BoolOf(sv, a, EdgeKey(e)).value
    {
      var i :| 0 <= i < |cs| && cs[i] == SetAnchor(e, BoolOf(sv, a, EdgeKey(e)).value);
    }
  }

  /**
   * With `anchors` present, exactly the edges given a boolean are set (to that
   * boolean); the other edges keep what they had.
   */
  lemma AnchorsFromTable<V>(sv: Script<V>, data: V, anchors: map<Edge, bool>)
    requires sv.getProperty(data, "anchors").Some?
    ensures var a := sv.getProperty(data, "anchors").value;
      var r := AnchorsAfter(anchors, AnchorCalls(sv, data));
      && (forall e :: BoolOf(sv, a, EdgeKey(e)).Some? ==> e in r && r[e] == BoolOf(sv, a, EdgeKey(e)).value)
      && (forall e :: BoolOf(sv, a, EdgeKey(e)).None? ==> (e in r <==> e in anchors) && (e in anchors ==> r[e] == anchors[e]))
  {
    var a := sv.getProperty(data, "anchors").value;
    AnchorCallsAreEdgeCalls(sv, data);
    EdgeCallsFromSettings(sv, a, AllEdges);
    EdgeCallsDistinct(sv, a, AllEdges);
    assert forall e :: e in AllEdges by {
      forall e ensures e in AllEdges {
        match e
        case Top => assert AllEdges[0] == Top;
        case Bottom => assert AllEdges[1] == Bottom;
        case Left => assert AllEdges[2] == Left;
        case Right => assert AllEdges[3] == Right;
      }
    }
    forall e | BoolOf(sv, a, EdgeKey(e)).Some?
      ensures SetAnchor(e, BoolOf(sv, a, EdgeKey(e)).value) in EdgeCalls(sv, a, AllEdges)
    {
      EdgeCallsCover(sv, a, AllEdges, e);
    }
    AnchorsFromSettings(sv, a, EdgeCalls(sv, a, AllEdges), anchors);
  }

  /** With `anchors` absent, top, left and right are set and bottom keeps what it had. */
  lemma DefaultAnchors<V>(sv: Script<V>, data: V, anchors: map<Edge, bool>)
    requires sv.getProperty(data, "anchors").None?
    ensures var r := AnchorsAfter(anchors, AnchorCalls(sv, data));
      && Top in r && r[Top] && Left in r && r[Left] && Right in r && r[Right]
      && (Bottom in r <==> Bottom in anchors) && (Bottom in anchors ==> r[Bottom] == anchors[Bottom])
  {
    var cs := AnchorCalls(sv, data);
    assert cs == [SetAnchor(Top, true), SetAnchor(Left, true), SetAnchor(Right, true)];
    AnchorsAfterDistinct(anchors, cs);
    assert cs[0] == SetAnchor(Top, true) && cs[1] == SetAnchor(Left, true) && cs[2] == SetAnchor(Right, true);
  }

  /**
   * An integer `exclusive_zone` wins, cast to i32; otherwise the automatic zone
   * is turned on only by `auto_exclusive_zone = true`; otherwise neither changes.
   */
  lemma ZonePrecedence<V>(sv: Script<V>, data: V, window: Window)
    ensures var r := PerformAll(window, ZoneCalls(sv, data));
      && (IntegerOf(sv, data, "exclusive_zone").Some? ==>
            r.zone == Some(WrapI32(IntegerOf(sv, data, "exclusive_zone").value)) && r.autoZone == window.autoZone)
      && (IntegerOf(sv, data, "exclusive_zone").None? ==>
            r.zone == window.zone && (r.autoZone <==> window.autoZone || BoolOf(sv, data, "auto_exclusive_zone") == Some(true)))
  {
    PerformAllSpec(window, ZoneCalls(sv, data));
  }

  // ---- the Lua configuration ------------------------------------------------------------

  /** The Lua implementation of the four operations. */
  function LuaScript(): Script<SV> {
    Script(
      (v: SV, key: string) => GetProperty(v, key),
      (v: SV) => AsString(v),
      (v: SV) => AsBool(v),
      (v: SV) => match AsInteger(v) case Some(i) => Some(i as int) case None => None)
  }

  /**
   * With a Lua table as configuration, `get_property("anchors")` is never None:
   * a missing key reads as nil. So the default-anchor branch cannot be reached,
   * and a configuration without `anchors` sets no anchor at all.
   */
  lemma LuaAnchorsAlwaysPresent(data: SV)
    requires data.Table?
    ensures LuaScript().getProperty(data, "anchors").Some?
    ensures (forall i :: 0 <= i < |data.entries| ==> data.entries[i].0 != StrKey("anchors")) ==>
      AnchorCalls(LuaScript(), data) == []
  {
    if forall i :: 0 <= i < |data.entries| ==> data.entries[i].0 != StrKey("anchors") {
      AnchorCallsAreEdgeCalls(LuaScript(), data);
      EdgeCallsFromSettings(LuaScript(), Nil, AllEdges);
    }
  }

  lemma LuaMissingAnchorsKeepEdges(data: SV, window: Window)
    requires data.Table?
    requires forall i :: 0 <= i < |data.entries| ==> data.entries[i].0 != StrKey("anchors")
    ensures PerformAll(window, LayerShellCalls(LuaScript(), data)).anchors == window.anchors
  {
    var cs := LayerShellCalls(LuaScript(), data);
    LuaAnchorsAlwaysPresent(data);
    PerformAllSpec(window, cs);
    var z := ZoneCalls(LuaScript(), data);
    assert cs == [InitLayerShell, Present, SetLayer(LayerNamed(StringOf(LuaScript(), data, "layer")))] + z;
    assert forall i :: 0 <= i < |z| ==> !z[i].SetAnchor?;
    LayerShell.NoAnchorCalls(window.anchors, cs);
  }

}

=== FILE: wrappers.dfy ===
/** Option and Result, the two failure-carrying shapes the source uses throughout. */
module Wrappers {

  datatype Option<+T> = None | Some(value: T) {
    function GetOr(default: T): T {
      match this
      case Some(v) => v
      case None => default
    }
  }

  datatype Result<+R, +E> = Ok(value: R) | Err(error: E) {
    function ToOption(): Option<R> {
      match this
      case Ok(v) => Some(v)
      case Err(_) => None
    }
  }
}
